=== FILE: README.md ===
# Glade2d compositor core in Dafny

Glade2d is a small 2D game engine for microcontroller displays. This project models the
compositor at its centre: software blitting over RGB565 pixel buffers, and the tracking of
which screen rectangles changed from one frame to the next (the "dirty regions").

- `geometry.dfy` (`Geometry`): `RenderRegion` and `RenderRegionComparer`. The comparer is a
  lexicographic order on (X, Y, Width, Height). It returns 0 exactly on record equality, which
  is why the screen's `SortedSet` of regions is modelled as a `set`.
- `pixels.dfy` (`Pixels`): a W x H pixel grid (`BufferRgb565` as the layers see it) and the
  blit `Drawing.ExecuteOperation`. Both come from the Meadow graphics library
  (`Meadow.Foundation.Graphics`), not from Glade2d, so the blit is given by its contract: copy a
  rectangle, skipping the transparent colour if one is given.
- `layer_geometry.dfy` (`LayerGeometry`) and `layer.dfy` (`Layers`): the scrollable `Layer`.
  - `Shift` moves only an internal origin, kept in [0, W) x [0, H).
  - `DrawTexture` clips a texture rectangle to the layer and splits it into up to four
    wrapped pieces.
  - `RenderToBuffer` cuts the layer into four quadrants at the origin, places them on a
    target at the camera offset, and reports the changed footprint.
  - Every drawing method is proved against the *logical* picture: logical pixel (x, y) is
    stored at ((x + ox) mod W, (y + oy) mod H).
- `bytes.dfy` (`Bytes`) and `transferrer.dfy` (`Transferring`): `NoRotationBufferTransferrer`,
  nearest-neighbour upscaling of the composed frame into the device buffer, byte by byte.
- `sprite.dfy` (`Sprites`): a `Sprite` and its change check `GetRenderRegionIfChanged`.
- `screen.dfy` (`Screens`): the `Screen` scene graph. It keeps a sprite list with a deferred
  stable sort by layer. Its per-frame `Update` drops destroyed sprites, moves the others, and
  collects the modified rectangles.
- `displays.dfy` (`Displays`): `WriteSection` of `GladeSt7789` and `MonogameGladeDisplay`. Both
  clamp a rectangle to the screen and pack its rows contiguously. `SetAddressWindow` of the
  ST7789 sends the CASET/RASET/RAMWR sequence with big-endian coordinate pairs.
- `scoreboard.dfy` (`Scoreboards`): the sample game's four-character 14-segment LED
  scoreboard on an HT16K33 driver.
- `arithmetic.dfy` (`Arithmetic`) and `wrappers.dfy` (`Wrappers`): small arithmetic lemmas,
  `Option` and `Result`.

Where the code's own comments and its statements disagree, the model follows the statements.

- **A sprite's change check never reports the previous position.** The doc comment of
  `GetRenderRegionIfChanged` (Glade2d/Graphics/Sprite.cs:90-94) and the comment before the
  region pass of `Screen.Update` (Glade2d/Screens/Screen.cs:51-53) say that a changed sprite
  contributes its old and its new rectangle. The code overwrites the stored rectangle
  before returning it, so whenever `New` is reported, `Old == New`
  (Glade2d/Graphics/Sprite.cs:112, 116). `Sprites.Track` states this, and `Screens.Screen.Update`
  inherits it.
- **Frames are compared by reference.** `_lastFrame == CurrentFrame`
  (Glade2d/Graphics/Sprite.cs:106) compares two `Frame` references. The `Frame` declaration is
  not part of this model; the model takes it to be a class without an overloaded `==`, so `==`
  is reference equality. A `Frame` value carries an `Id` standing for the object, and the
  tracker keeps only that id. A sprite given a new frame object with equal contents therefore
  reports a change, and a frame whose X or Y is changed in place does not
  (`Sprites.TrackComparesIdentity`).
- **The transferrer uses a region's Width and Height as end coordinates**
  (Glade2d/Graphics/BufferTransferring/NoRotationBufferTransferrer.cs:24-25, 35, 47).
- **The transferrer's vertical copy ignores scaleY.** It always lands right after the row it
  copies, so with `scale > 2` the target rows `r * scale + 2` onwards are never written
  (Glade2d/Graphics/BufferTransferring/NoRotationBufferTransferrer.cs:61-69).
  `Transferring.WholeFrameLaterRowsUnwritten` states this. With a region the copy lands
  `RegionBytes`, that is `region.Width * scale` pixels, further along in row-major order from
  the bytes it copies. For a region narrower than that distance to the row's end it stays on
  target row `r * scale`, overwriting pixels right of the region, and row `r * scale + 1` is not
  refreshed; for a region as wide as the source it lands exactly on row `r * scale + 1`.
  `Transferring.RegionCopyOffset` states where the copy lands.
- **`RenderToBuffer` tests for "above the target" with a strict `< 0`.** A layer whose bottom
  edge touches row 0 therefore does not return early. It returns a region of zero height and
  clears its change flag (Glade2d/Graphics/Layers/Layer.cs:346-352, 402-410).
  `Layers.EndingAtTopEdgeIsOnTarget` states the first part, and the region sizes in the contract
  of `Layers.Layer.RenderToBuffer` give the zero height.

## Model

| member | source | states |
|---|---|---|
| Geometry.CompareInt | Glade2d/RenderRegion.cs:11 | `int.CompareTo` answers -1, 0 or 1, negative exactly when a < b, zero exactly when equal, positive exactly when a > b |
| Geometry.Compare | Glade2d/RenderRegion.cs:9-22 | the comparer answers -1, 0 or 1; it is negative exactly when the first region is lexicographically smaller on (X, Y, Width, Height), with the order defined independently of it, positive for the reverse, and zero exactly on record equality |
| Geometry.CompareAntisymmetric | Glade2d/RenderRegion.cs:9-22 | swapping the arguments negates the answer |
| Geometry.CompareTransitive | Glade2d/RenderRegion.cs:9-22 | the strict order the comparer induces is transitive |
| Geometry.CompareTransitiveNonStrict | Glade2d/RenderRegion.cs:9-22 | the non-strict order (`Compare <= 0`) is transitive |
| Geometry.CompareTotal | Glade2d/RenderRegion.cs:5-22 | any two regions are ordered one way, the other, or are the same record, so the comparer is a valid key order for the region set |
| Pixels.PixelBuffer.Fill | Glade2d/Graphics/Layers/Layer.cs:95 | `BufferRgb565.Clear(color)` sets every pixel of the grid to the colour |
| Pixels.ExecuteOperation | Glade2d/Graphics/Layers/Layer.cs:275-281 | the Meadow blit as Glade2d calls it (here and at Layer.cs:221, 240, 259 and 384) with source, target, source point, target point, size and transparent colour, the colour documented at Layer.cs:40-44: each target pixel inside the rectangle takes the matching source pixel unless that pixel has the transparent colour; every other target pixel is unchanged; a zero-size operation changes nothing |
| Bytes.ArrayCopy | Glade2d/Graphics/BufferTransferring/NoRotationBufferTransferrer.cs:63-68 | `Array.Copy` within one array or between two (the range is read before it is written): the destination range holds the source range, and the rest of the destination is unchanged |
| LayerGeometry.ClipToLayer | Glade2d/Graphics/Layers/Layer.cs:143-169 | after the four edge clips, the draw starts at max(start, 0) and ends at min(end, layer size) on each axis, lies on the layer, and the texture start moved by exactly what was trimmed from the left and top |
| LayerGeometry.SplitAxis | Glade2d/Graphics/Layers/Layer.cs:184-203 | one axis of the origin split: the wrapped part is never longer than the draw, and there is one exactly when the shifted draw runs past the layer edge (its partition properties are `SplitAxisInside`, `SplitAxisCovers` and `SplitAxisDisjoint`) |
| LayerGeometry.SplitDraw | Glade2d/Graphics/Layers/Layer.cs:184-282 | the four conditional blits: wrapped pieces only for a draw running past the right or bottom edge after the shift, and a single blit of the whole clipped rectangle at its shifted position otherwise (that the pieces partition the draw is `SplitDrawPartition`) |
| LayerGeometry.SplitAxisInside | Glade2d/Graphics/Layers/Layer.cs:184-203 | on one axis, the overdraw lies between 0 and the draw size, all of it when the adjusted start is past the edge; the segment before the edge and the wrapped segment both lie on the layer |
| LayerGeometry.StoredCoordinate | Glade2d/Graphics/Layers/Layer.cs:184 | coordinate v shifted by the origin and wrapped is v + origin or v + origin - dimension, and lies on the layer |
| LayerGeometry.SplitAxisCovers | Glade2d/Graphics/Layers/Layer.cs:184-203 | on one axis, the buffer coordinate that stores logical v lies in exactly one of the two segments iff v lies in the draw, and the segment reads the texture at v's offset in the draw |
| LayerGeometry.SplitAxisDisjoint | Glade2d/Graphics/Layers/Layer.cs:193-203 | on one axis, the segment before the edge and the wrapped segment never share a coordinate |
| LayerGeometry.SplitDrawInside | Glade2d/Graphics/Layers/Layer.cs:211-282 | each of the four pieces of a non-empty clipped draw lies on the layer and reads only the clipped texture rectangle |
| LayerGeometry.SplitDrawCovers | Glade2d/Graphics/Layers/Layer.cs:184-282 | the pieces cover the buffer pixel that stores logical (x, y) exactly when (x, y) lies in the clipped draw (no gap) |
| LayerGeometry.SplitDrawTexturePoint | Glade2d/Graphics/Layers/Layer.cs:184-282 | the piece covering the buffer pixel of logical (x, y) reads the texture pixel at (x, y)'s offset in the draw |
| LayerGeometry.SplitDrawDisjoint | Glade2d/Graphics/Layers/Layer.cs:211-282 | no two of the four pieces write the same layer pixel (no overlap) |
| LayerGeometry.SplitDrawPartition | Glade2d/Graphics/Layers/Layer.cs:184-282 | at most one piece writes each buffer pixel; one does exactly when the logical pixel lies in the draw, and it copies the texture pixel at the logical pixel's offset |
| LayerGeometry.RenderQuadrants | Glade2d/Graphics/Layers/Layer.cs:356-372 | the layer cut at its origin: the bottom-right quadrant starts at the origin, and the columns and rows of quadrants span the width and height (that they partition the layer is `RenderQuadrantsPartition`) |
| LayerGeometry.QuadrantPlacements | Glade2d/Graphics/Layers/Layer.cs:388-391 | every quadrant is placed, the bottom-right one first at the target origin (where each pixel lands is `RenderQuadrantsPartition`) |
| LayerGeometry.RenderQuadrantsPartition | Glade2d/Graphics/Layers/Layer.cs:356-391 | the four render quadrants lie on the layer, each layer pixel lies in exactly one of them, and at its placement buffer pixel (x, y) lands at ((x - ox) mod W, (y - oy) mod H) relative to the camera |
| LayerGeometry.CalculateAxis | Glade2d/Graphics/Layers/Layer.cs:428-462 | null exactly when the quadrant's span lies wholly before or after the target; otherwise the span clipped to [0, target size) with a positive length, and the layer start advanced by the amount clipped |
| LayerGeometry.CalculateDrawOperation | Glade2d/Graphics/Layers/Layer.cs:416-496 | the operation writes target pixel (x, y) exactly when it lies on the target and inside the quadrant placed at origin + camera; the operation reads only the quadrant and writes only the target, with matching offsets |
| LayerGeometry.PlacementAxis | Glade2d/Graphics/Layers/Layer.cs:356-391 | on one axis, the right and left quadrants placed at camera and camera + (size - origin) cover [camera, camera + size) without overlap, and each reads layer coordinate (v - camera + origin) mod size |
| Layers.ShiftedOrigin | Glade2d/Graphics/Layers/Layer.cs:310-317 | the new origin lies in [0, dimension) and is congruent to origin - amount |
| Layers.ShiftRoundTrip | Glade2d/Graphics/Layers/Layer.cs:310-317 | shifting by d and then by -d restores the origin |
| Layers.ShiftIndex | Glade2d/Graphics/Layers/Layer.cs:310-317 | after a shift by d, logical coordinate v is stored where v - d was stored before |
| Layers.WrapCoordinate | Glade2d/Graphics/Layers/Layer.cs:314-317 | the `while` normalisation loops bring a coordinate into [0, dimension), congruent to where it started |
| Layers.OffTarget | Glade2d/Graphics/Layers/Layer.cs:346-349 | a layer reported off the target has no pixel on it; a positive-size layer not reported off a non-empty target has its clipped top-left pixel on it, unless its footprint ends exactly at the target's left or top edge |
| Layers.EndingAtTopEdgeIsOnTarget | Glade2d/Graphics/Layers/Layer.cs:346-349 | because the comparison is strict, a layer ending exactly at the target's top edge is not reported off target although none of its pixels lands there |
| Layers.PaintedOnce | Glade2d/Graphics/Layers/Layer.cs:211-282 | when pieces do not overlap at a pixel, painting with all four in order equals painting with the one that covers it |
| Layers.PaintedLogical | Glade2d/Graphics/Layers/Layer.cs:184-282 | the four blits leave the buffer pixel of logical (x, y) holding the texture pixel at its offset in the draw, if it lies in the draw and is not transparent, and its previous value otherwise |
| Layers.PlacedLogical | Glade2d/Graphics/Layers/Layer.cs:356-391 | the four quadrant placements leave target pixel (x, y) holding the logical layer pixel (x - camera) if it lies in the footprint and is not transparent, and its previous value otherwise |
| Layers.Layer.SetCameraOffset | Glade2d/Graphics/Layers/Layer.cs:29-33 | the setter stores the offset and always marks the layer as changed |
| Layers.Layer.Create | Glade2d/Graphics/Layers/Layer.cs:74-78 | a layer over a fresh buffer of the given size, origin and camera offset at (0, 0), no pending changes, black background, magenta transparency, drawn without transparency |
| Layers.Layer.FromExistingBuffer | Glade2d/Graphics/Layers/Layer.cs:85-88 | a layer over the given buffer itself, with the same initial state as `Create` |
| Layers.Layer.Clear | Glade2d/Graphics/Layers/Layer.cs:93-97 | every logical pixel becomes the background colour, and the layer is marked as changed |
| Layers.Layer.Shift | Glade2d/Graphics/Layers/Layer.cs:295-323 | the origin becomes (old - d) wrapped into [0, W) x [0, H); every logical pixel (x, y) now shows what (x - d) mod size showed; the flag is set exactly when a component of d is non-zero (or was already set) |
| Layers.Layer.DrawPiece | Glade2d/Graphics/Layers/Layer.cs:212-228 | one issued piece is blitted onto the layer buffer |
| Layers.Layer.DrawPieces | Glade2d/Graphics/Layers/Layer.cs:211-282 | the four blits in the source's order paint each buffer pixel with the pieces in turn |
| Layers.Layer.DrawClipped | Glade2d/Graphics/Layers/Layer.cs:177-282 | a clipped non-empty draw writes logical pixel (x, y) with the texture pixel at its offset in the draw if it lies in the draw and is not transparent, and leaves every other logical pixel unchanged |
| Layers.Layer.DrawTexture | Glade2d/Graphics/Layers/Layer.cs:134-288 | for any draw whose part left after clipping to the layer lies in the texture: logical pixel (x, y) takes the texture pixel at its offset iff it lies in the requested rectangle (which the clipping keeps on the layer) and is not skipped as transparent; an empty clipped draw writes nothing; the flag is set iff `resetRenderFlag` holds and the draw overlaps the layer |
| Layers.Layer.DrawFrame | Glade2d/Graphics/Layers/Layer.cs:106-113 | `DrawTexture(Frame, Point)` draws the frame's rectangle of its texture with transparency and marks a change when it overlaps the layer |
| Layers.Layer.PerformDraw | Glade2d/Graphics/Layers/Layer.cs:379-386 | one quadrant is blitted at targetOrigin + camera offset, clipped to the target |
| Layers.Layer.DrawQuadrants | Glade2d/Graphics/Layers/Layer.cs:356-391 | the four `PerformDraw` calls in the source's order, at their placements |
| Layers.Layer.DrawSeenThroughOrigin | Glade2d/Graphics/Layers/Layer.cs:356-391 | target pixel (x, y) shows logical layer pixel (x, y) - camera when it lies in the footprint and is not transparent, and is otherwise unchanged |
| Layers.Layer.RenderToBuffer | Glade2d/Graphics/Layers/Layer.cs:332-411 | nothing is drawn and null returned when the target is the layer's own buffer or the layer is off the target; otherwise the logical layer is drawn at the camera offset; a region is returned iff changes were pending, and then it is the footprint clipped to the target (its X and Y at least 0, its width and height running to the nearer of the footprint's and the target's far edges), and the flag is cleared |
| Transferring.LoopBounds | Glade2d/Graphics/BufferTransferring/NoRotationBufferTransferrer.cs:24-29 | the loop bounds of the whole source, or of a region taken as end coordinates, fit the source whenever the region satisfies `RegionFits` |
| Transferring.RegionBytes | Glade2d/Graphics/BufferTransferring/NoRotationBufferTransferrer.cs:28 | the vertical copy's length is the scaled row the column loop writes plus StartCol * scale pixels, so it runs past that row whenever the region does not start at column 0 |
| Transferring.ScaledPixelsStep | Glade2d/Graphics/BufferTransferring/NoRotationBufferTransferrer.cs:47-55 | one more column of the column loop writes `scale` more target pixels (none for a non-positive scale) |
| Transferring.ScaledPixelsMonotone | Glade2d/Graphics/BufferTransferring/NoRotationBufferTransferrer.cs:47-55 | more columns never write fewer pixels |
| Transferring.RepeatPixel | Glade2d/Graphics/BufferTransferring/NoRotationBufferTransferrer.cs:49-55 | the scaleX loop writes `count` copies of the source pixel's two bytes and changes nothing else |
| Transferring.ColumnStep | Glade2d/Graphics/BufferTransferring/NoRotationBufferTransferrer.cs:47-57 | each column's source bytes and its `scale` target pixels lie inside the buffers |
| Transferring.ColumnWritten | Glade2d/Graphics/BufferTransferring/NoRotationBufferTransferrer.cs:47-58 | after a column is written, the row's scaled prefix grows by `scale` pixels and nothing past it changed |
| Transferring.ScaledColumn | Glade2d/Graphics/BufferTransferring/NoRotationBufferTransferrer.cs:47-58 | repeating column c `scale` times extends the scaled prefix by `scale` pixels |
| Transferring.ScaleRow | Glade2d/Graphics/BufferTransferring/NoRotationBufferTransferrer.cs:47-58 | the column loop writes each source pixel of the row `scale` times, in order, into the row's first target row, and nothing else |
| Transferring.DuplicateRow | Glade2d/Graphics/BufferTransferring/NoRotationBufferTransferrer.cs:61-69 | the scaleY loop copies the row's first `targetRegionByteLength` bytes to just after them, the same place every time, and changes nothing else |
| Transferring.DuplicatedAt | Glade2d/Graphics/BufferTransferring/NoRotationBufferTransferrer.cs:63-68 | each byte of the vertical copy repeats the byte `targetRegionByteLength` before it |
| Transferring.RowTouchesWithin | Glade2d/Graphics/BufferTransferring/NoRotationBufferTransferrer.cs:41-68 | a row pass writes only inside its own extent |
| Transferring.RowDoneFrame | Glade2d/Graphics/BufferTransferring/NoRotationBufferTransferrer.cs:35-70 | a finished row stays finished through writes that lie beyond its extent |
| Transferring.EarlierRowsStayDone | Glade2d/Graphics/BufferTransferring/NoRotationBufferTransferrer.cs:35-70 | a later row pass does not disturb rows passed earlier |
| Transferring.NotTouchedEarlier | Glade2d/Graphics/BufferTransferring/NoRotationBufferTransferrer.cs:35-70 | the bytes a row pass writes were written by no earlier row |
| Transferring.NewRowDone | Glade2d/Graphics/BufferTransferring/NoRotationBufferTransferrer.cs:35-70 | the column loop followed by the vertical copy leaves the row finished |
| Transferring.TransferStep | Glade2d/Graphics/BufferTransferring/NoRotationBufferTransferrer.cs:35-70 | one more row pass extends the transfer by one row |
| Transferring.RowSpan | Glade2d/Graphics/BufferTransferring/NoRotationBufferTransferrer.cs:26-43 | within one stride of `scale` target rows, a row pass's writes fit after its start column |
| Transferring.RowLayout | Glade2d/Graphics/BufferTransferring/NoRotationBufferTransferrer.cs:24-45 | with matching dimensions and bounds that fit, each row's source reads and target writes lie inside the buffers and beyond the earlier rows' writes |
| Transferring.TransferRow | Glade2d/Graphics/BufferTransferring/NoRotationBufferTransferrer.cs:37-69 | one iteration of the row loop: a transfer finished up to row r is finished up to row r + 1 |
| Transferring.TransferBuffer | Glade2d/Graphics/BufferTransferring/NoRotationBufferTransferrer.cs:22-72 | with matching dimensions, every row in the loop bounds is scaled and duplicated, and every target byte the loops do not reach is unchanged; the source is never written |
| Transferring.Transfer | Glade2d/Graphics/BufferTransferring/NoRotationBufferTransferrer.cs:8-20 | throws `InvalidOperationException` with the dimensions message and writes nothing exactly when source size times scale differs from the target size, whatever the region and even when source and target are one buffer; otherwise it is `TransferBuffer` |
| Transferring.NaturalText | Glade2d/Graphics/BufferTransferring/NoRotationBufferTransferrer.cs:12-14 | interpolating a non-negative number writes decimal digits without a leading zero, and reading them back gives the number |
| Transferring.IntegerText | Glade2d/Graphics/BufferTransferring/NoRotationBufferTransferrer.cs:12-14 | interpolating an integer writes a leading '-' exactly when it is negative, and reading the text back gives the integer |
| Transferring.DimensionsMessage | Glade2d/Graphics/BufferTransferring/NoRotationBufferTransferrer.cs:12-14 | the message opens with "Source dimensions at scale " and closes with the target height, which reads back from it |
| Transferring.TargetOffset | Glade2d/Graphics/BufferTransferring/NoRotationBufferTransferrer.cs:41-54 | the pointer `targetByte1` for column c and copy s is byte k of target pixel (r * scale, c * scale + s) |
| Transferring.SourceOffset | Glade2d/Graphics/BufferTransferring/NoRotationBufferTransferrer.cs:37-57 | the pointer `sourceByte1` for column c is byte k of source pixel (r, c) |
| Transferring.WholeFrameCopyOffset | Glade2d/Graphics/BufferTransferring/NoRotationBufferTransferrer.cs:61-69 | without a region, the vertical copy lands on target row r * scale + 1, column for column |
| Transferring.ScaledPixel | Glade2d/Graphics/BufferTransferring/NoRotationBufferTransferrer.cs:35-58 | target row r * scale holds, at columns c * scale to c * scale + scale - 1, the two bytes of source pixel (r, c), copied raw |
| Transferring.WholeFrameSecondRow | Glade2d/Graphics/BufferTransferring/NoRotationBufferTransferrer.cs:61-69 | without a region and with scale >= 2, target row r * scale + 1 repeats row r * scale, so the scale x scale blocks are exact for scale 2 |
| Transferring.WholeFrameLaterRowsUnwritten | Glade2d/Graphics/BufferTransferring/NoRotationBufferTransferrer.cs:61-69 | because the copy destination ignores scaleY, target rows r * scale + 2 onwards keep their previous bytes |
| Transferring.RegionCopyOffset | Glade2d/Graphics/BufferTransferring/NoRotationBufferTransferrer.cs:61-69 | with a region, the vertical copy of the bytes written for source pixel (r, c) at (r * scale, c * scale + s) lands region.Width * scale pixels further along in row-major order, which is still row r * scale while that column is inside the row; for a region as wide as the source it lands on row r * scale + 1, column for column |
| Sprites.TruncateTowardZero | Glade2d/Graphics/Sprite.cs:98-99 | the C# `(int)` cast of a float truncates toward zero |
| Sprites.Track | Glade2d/Graphics/Sprite.cs:95-117 | the tracker ends holding the current frame's identity and rectangle; Old is always the current rectangle, never null; New is reported exactly when the frame object or the rectangle changed, and then equals Old |
| Sprites.TrackComparesIdentity | Glade2d/Graphics/Sprite.cs:106 | after a check, a second check with the same rectangle reports New exactly when the frame is a different object: a new frame with equal contents is reported, and a frame whose X or Y changed in place is not |
| Sprites.TrackIdempotent | Glade2d/Graphics/Sprite.cs:106-116 | a second check with nothing changed in between reports no New and keeps the tracker |
| Sprites.SpriteView.Region | Glade2d/Graphics/Sprite.cs:97-101 | the candidate rectangle is the truncated position with the frame's size |
| Sprites.SpriteView.Checked | Glade2d/Graphics/Sprite.cs:106-115 | a change check alters only the tracker, leaves it settled, and changes nothing on a settled sprite |
| Sprites.SpriteView.CheckReports | Glade2d/Graphics/Sprite.cs:106-116 | a check reports New exactly when the sprite is not settled, and then its own rectangle; Old is always its rectangle |
| Sprites.Sprite.constructor | Glade2d/Graphics/Sprite.cs:50-53 | a sprite with the given frame, everything else at its default and no tracked state |
| Sprites.Sprite.Update | Glade2d/Graphics/Sprite.cs:58-64 | the position advances by velocity times the frame time, and nothing else changes |
| Sprites.SpriteView.Moved | Glade2d/Graphics/Sprite.cs:60-62 | only X and Y change, and a zero frame time changes nothing |
| Sprites.SpriteView.MovedTwice | Glade2d/Graphics/Sprite.cs:60-62 | two updates move a sprite as far as one update over both frame times |
| Sprites.Sprite.Destroy | Glade2d/Graphics/Sprite.cs:85-88 | sets `Destroyed` and changes nothing else |
| Sprites.Sprite.Die | Glade2d/Graphics/Sprite.cs:77-80 | delegates to `Destroy` |
| Sprites.Sprite.GetRenderRegionIfChanged | Glade2d/Graphics/Sprite.cs:95-117 | the returned changes and the new private state are those of `Track` on the sprite's state, frame and rectangle |
| Screens.InsertByLayerPermutes | Glade2d/Screens/Screen.cs:27 | inserting adds exactly one occurrence of the sprite |
| Screens.InsertByLayer | Glade2d/Screens/Screen.cs:27 | inserting into the sorted list introduces no sprite other than the inserted one |
| Screens.SortByLayer | Glade2d/Screens/Screen.cs:27 | `OrderBy(s => s.Layer)` introduces no sprite that was not in the list |
| Screens.SortByLayerPermutes | Glade2d/Screens/Screen.cs:27 | `OrderBy(s => s.Layer)` only reorders the list |
| Screens.InsertByLayerSorted | Glade2d/Screens/Screen.cs:27 | inserting into a list sorted by layer keeps it sorted |
| Screens.InsertByLayerOnLayer | Glade2d/Screens/Screen.cs:27 | inserting puts the sprite ahead of its layer's sprites and leaves other layers alone |
| Screens.SortByLayerStable | Glade2d/Screens/Screen.cs:27 | the sort yields a list ascending by layer in which each layer's sprites keep their original order (stability) |
| Screens.DistinctPermutation | Glade2d/Screens/Screen.cs:27 | reordering a list without repeats leaves it without repeats |
| Screens.ChangedRegionsAppend | Glade2d/Screens/Screen.cs:54-70 | the forward pass over two lists records the union of what it records over each |
| Screens.DestroyedRegionsMembers | Glade2d/Screens/Screen.cs:31-42 | the reverse pass records a rectangle iff it is the rectangle of a sprite that was destroyed |
| Screens.MovedRegionsMembers | Glade2d/Screens/Screen.cs:54-70 | the forward pass records a rectangle iff it belongs to a surviving sprite whose check, after the move, reports New |
| Screens.FrameRegionsMembers | Glade2d/Screens/Screen.cs:21-71 | one update records rectangle r iff some sprite is destroyed with rectangle r, or survives, moves and then reports r as New |
| Screens.QuietFrame | Glade2d/Screens/Screen.cs:21-71 | with nothing destroyed and every sprite still settled after its move, an update records nothing |
| Screens.SecondUpdateQuiet | Glade2d/Screens/Screen.cs:21-71 | a second update with zero elapsed time records nothing |
| Screens.SortedPrepend | Glade2d/Screens/Screen.cs:31-47 | a survivor on the head's layer put before a sorted list of later survivors keeps the list sorted by layer |
| Screens.KeptMovedSurvivors | Glade2d/Screens/Screen.cs:31-47 | after the reverse pass no listed sprite is destroyed, and a list in layer order stays in layer order |
| Screens.UpdateKeepsLayerOrder | Glade2d/Screens/Screen.cs:21-71 | an update keeps a list in layer order in layer order |
| Screens.KeptViews | Glade2d/Screens/Screen.cs:31-47 | the sprites the reverse pass keeps are the moved survivors |
| Screens.KeptMembers | Glade2d/Screens/Screen.cs:31-47 | a sprite stays in the list iff it was not destroyed |
| Screens.KeptSorted | Glade2d/Screens/Screen.cs:31-47 | removing sprites from a list sorted by layer leaves it sorted |
| Screens.RemovalsStep | Glade2d/Screens/Screen.cs:31-47 | one more index of the reverse pass, on the sprites' values |
| Screens.ChecksStep | Glade2d/Screens/Screen.cs:54-70 | one more index of the forward pass, on the sprites' values |
| Screens.ViewsSorted | Glade2d/Screens/Screen.cs:27 | a list sorted by layer has its values in layer order |
| Screens.SortedFromViews | Glade2d/Screens/Screen.cs:27 | a list whose values are in layer order is sorted by layer |
| Screens.Screen.constructor | Glade2d/Screens/Screen.cs:10-15 | an empty screen: no sprites, no pending sort, no modified regions |
| Screens.Screen.Update | Glade2d/Screens/Screen.cs:21-71 | the region set is emptied first; the list is sorted stably by layer if a sprite was added; the destroyed sprites leave the list and the others move; the region set is then exactly the destroyed sprites' rectangles plus the New rectangles of survivors that changed |
| Screens.SortedArrangement | Glade2d/Screens/Screen.cs:24-29 | sorting distinct sprites by layer leaves them distinct and sorted by layer, and their views sorted by layer |
| Screens.Screen.Arrange | Glade2d/Screens/Screen.cs:24-29 | when a sprite was added, the list is sorted stably by layer and the flag cleared; the sprites themselves are untouched, so the views of the new list are those of the arranged one |
| Screens.Screen.Passes | Glade2d/Screens/Screen.cs:31-70 | the reverse pass, then the forward pass, over the arranged list |
| Screens.Screen.RemovalPass | Glade2d/Screens/Screen.cs:31-47 | the reverse pass drops every destroyed sprite and records its rectangle, and moves every other sprite exactly once |
| Screens.Screen.RemovalNext | Glade2d/Screens/Screen.cs:31-47 | one iteration of the reverse pass: the list keeps the untouched prefix followed by the survivors of the handled suffix, the destroyed sprites' rectangles are recorded, and the handled sprites' views are their removals |
| Screens.Screen.RemovalStep | Glade2d/Screens/Screen.cs:33-46 | one index of the reverse pass |
| Screens.Screen.DropDestroyed | Glade2d/Screens/Screen.cs:34-42 | a destroyed sprite is removed, checked, and its Old rectangle recorded |
| Screens.Screen.MoveKept | Glade2d/Screens/Screen.cs:43-46 | any other sprite moves by its velocity |
| Screens.Screen.RegionPass | Glade2d/Screens/Screen.cs:54-70 | the forward pass records Old and New of exactly the sprites whose check reports New, and leaves every sprite settled |
| Screens.Screen.CheckAll | Glade2d/Screens/Screen.cs:54-70 | the forward pass's loop: the rectangles of the sprites that were not settled |
| Screens.Screen.CheckNext | Glade2d/Screens/Screen.cs:56-69 | one iteration of the forward pass: the views become checked one sprite further, and the rectangles gathered grow by that sprite's changed rectangle |
| Screens.Screen.RegionStep | Glade2d/Screens/Screen.cs:56-69 | one sprite of the forward pass: nothing when its check reports no New, else its Old and New |
| Screens.Screen.AddSprite | Glade2d/Screens/Screen.cs:90-102 | a listed sprite leaves list and flag alone; a new one is appended and the flag set; the argument is returned |
| Screens.Screen.RemoveSprite | Glade2d/Screens/Screen.cs:108-115 | removes the sprite if listed, does nothing otherwise, and records no region |
| Screens.Screen.RemoveSpriteAt | Glade2d/Screens/Screen.cs:116-120 | removes the sprite at the index |
| Displays.Clamp | Glade2d.Displays/GladeSt7789.cs:41-46 | left and top become at least 0, right and bottom at most the last column and row, each moved only to the bound |
| Displays.ClampIdempotent | Glade2d.Monogame/MonogameGladeDisplay.cs:35-40 | clamping a clamped section changes nothing |
| Displays.ClampedFits | Glade2d.Displays/GladeSt7789.cs:41-52 | a non-empty clamped section lies in the pixel buffer, and its packed bytes fit the section buffer of width * height * 2 bytes |
| Displays.RowInside | Glade2d.Displays/GladeSt7789.cs:57-68 | each source row of the section lies in the pixel buffer |
| Displays.PackedRows | Glade2d.Displays/GladeSt7789.cs:55-70 | the first `rows` packed rows have `rows * sectionWidth * 2` bytes |
| Displays.PackedPixel | Glade2d.Displays/GladeSt7789.cs:55-70 | byte k of packed pixel (c, r) is byte k of screen pixel (left + c, top + r) |
| Displays.CopiedRow | Glade2d.Monogame/MonogameGladeDisplay.cs:48-63 | one row copy appends the source row to the packed prefix and leaves the rest unchanged |
| Displays.RowCopyBounds | Glade2d.Displays/GladeSt7789.cs:55-70 | each row copy reads inside the source row and writes inside the section buffer |
| Displays.RowPacked | Glade2d.Displays/GladeSt7789.cs:55-70 | after row r is copied, the packed prefix holds rows 0..r |
| Displays.SectionRows | Glade2d.Displays/GladeSt7789.cs:71 | the sent span is sectionHeight rows of sectionWidth * 2 bytes |
| Displays.PackSection | Glade2d.Displays/GladeSt7789.cs:55-70 | the row loop: the section buffer starts with the packed section, and its bytes past it are unchanged |
| Displays.WordOfBytes | Glade2d.Displays/GladeSt7789.cs:96-104 | `(byte)(v >> 8)` and `(byte)(v & 0xff)` give back the low sixteen bits of v, big-endian |
| Displays.HighByte | Glade2d.Displays/GladeSt7789.cs:98-101 | `(byte)(v >> 8)` is the upper byte of the low sixteen bits of v, for negative v too |
| Displays.LowByte | Glade2d.Displays/GladeSt7789.cs:98-101 | `(byte)(v & 0xff)` is the lower byte of the low sixteen bits of v |
| Displays.LowWordBytes | Glade2d.Displays/GladeSt7789.cs:98-101 | shifting and masking v gives the same bytes as splitting its low sixteen bits |
| Displays.BigEndianPair | Glade2d.Displays/GladeSt7789.cs:96-119 | the four payload bytes are two big-endian 16-bit words |
| Displays.AddressWindow | Glade2d.Displays/GladeSt7789.cs:85-125 | CASET with the column pair, RASET with the row pair, then RAMWR |
| Displays.WindowOfSection | Glade2d.Displays/GladeSt7789.cs:41-76 | on a screen up to 65536 pixels wide and tall, the window of a clamped section carries left, right, top and bottom themselves, while the data spans right - left columns and bottom - top rows |
| Displays.St7789.WriteSection | Glade2d.Displays/GladeSt7789.cs:38-83 | an empty clamped section sends nothing and copies nothing; otherwise the section buffer starts with the packed section, and the address window and then exactly the packed bytes are sent |
| Displays.St7789.SetAddressWindow | Glade2d.Displays/GladeSt7789.cs:85-125 | sends the address window sequence for the four coordinates |
| Displays.NewSt7789 | Glade2d.Displays/GladeSt7789.cs:16-36 | construction throws `InvalidOperationException("Invalid color mode")` exactly for a colour mode other than 16bpp RGB565 |
| Displays.NewSt7789WithDefaultMode | Glade2d.Displays/GladeSt7789.cs:26-33 | the constructor taking output ports, with its colour mode left at the default RGB444, always throws `InvalidOperationException("Invalid color mode")` |
| Displays.St7789.constructor | Glade2d.Displays/GladeSt7789.cs:23-35 | a display of the given size whose section buffer holds width * height * 2 bytes, distinct from the pixel buffer, with nothing sent yet |
| Displays.MonogameGladeDisplay.constructor | Glade2d.Monogame/MonogameGladeDisplay.cs:27-31 | wraps the inner display with a section buffer of its size |
| Displays.MonogameGladeDisplay.WriteSection | Glade2d.Monogame/MonogameGladeDisplay.cs:33-72 | an empty clamped section does not touch the inner display; otherwise the inner display gets a sectionWidth x sectionHeight buffer of exactly the packed bytes at (left, top), then `Show` |
| Displays.MonogameGladeDisplay.ShowAll | Glade2d.Monogame/MonogameGladeDisplay.cs:74-77 | `Show()` is forwarded to the inner display |
| Scoreboards.TableCovers | Samples/GladeInvade.ProjectLab/Ht16k33LedScoreboard.cs:65-71 | a character 32..126 indexes the table in bounds |
| Scoreboards.SetBitsBelow14 | Samples/GladeInvade.ProjectLab/Ht16k33LedScoreboard.cs:72-86 | every table entry fits in 14 bits, so the 16-bit loop indexes `SegmentIndices` in bounds |
| Scoreboards.LedIndexInSlot | Samples/GladeInvade.ProjectLab/Ht16k33LedScoreboard.cs:76-85 | in a valid slot the LED index is at most 103, so the `(byte)` cast never wraps, and it lies in the slot's column |
| Scoreboards.SegmentColumn | Samples/GladeInvade.ProjectLab/Ht16k33LedScoreboard.cs:85 | each segment's LED in a slot lies in that slot's column |
| Scoreboards.SegmentsDistinct | Samples/GladeInvade.ProjectLab/Ht16k33LedScoreboard.cs:85 | no two segments share a LED |
| Scoreboards.LitMembers | Samples/GladeInvade.ProjectLab/Ht16k33LedScoreboard.cs:72-79 | a LED is lit by the bits below n iff it belongs to a set bit below n |
| Scoreboards.LitInSlot | Samples/GladeInvade.ProjectLab/Ht16k33LedScoreboard.cs:72-79 | every LED a pattern lights in a valid slot is in that slot's column and at most 103 |
| Scoreboards.LitPastSegments | Samples/GladeInvade.ProjectLab/Ht16k33LedScoreboard.cs:72-79 | bits 14 and 15 light nothing |
| Scoreboards.LitAdvance | Samples/GladeInvade.ProjectLab/Ht16k33LedScoreboard.cs:74-78 | one more bit lights its LED exactly when it is set |
| Scoreboards.Glyph | Samples/GladeInvade.ProjectLab/Ht16k33LedScoreboard.cs:57-80 | a character lights LEDs only in a valid slot, only if printable, and only in that slot's column up to 103 |
| Scoreboards.GlyphSegments | Samples/GladeInvade.ProjectLab/Ht16k33LedScoreboard.cs:71-79 | a printable character in a valid slot lights segment b's LED iff bit b of its pattern is set |
| Scoreboards.GlyphsDisjoint | Samples/GladeInvade.ProjectLab/Ht16k33LedScoreboard.cs:76-85 | characters in different slots light disjoint LEDs |
| Scoreboards.CharactersInSlot | Samples/GladeInvade.ProjectLab/Ht16k33LedScoreboard.cs:26-35 | the LEDs of the first n characters in slot i are those of character i if i < n and i is within the string, and none otherwise |
| Scoreboards.ShownSlots | Samples/GladeInvade.ProjectLab/Ht16k33LedScoreboard.cs:23-38 | after `SetDisplay`, slot i shows character i of the string if there is one, and nothing otherwise |
| Scoreboards.CharactersInRange | Samples/GladeInvade.ProjectLab/Ht16k33LedScoreboard.cs:26-35 | the characters light nothing outside LEDs 0..103 |
| Scoreboards.Ht16k33LedScoreboard.constructor | Samples/GladeInvade.ProjectLab/Ht16k33LedScoreboard.cs:10-16 | keeps the driver and clears its buffer |
| Scoreboards.Ht16k33LedScoreboard.ClearDisplay | Samples/GladeInvade.ProjectLab/Ht16k33LedScoreboard.cs:18-21 | every LED off, nothing pushed |
| Scoreboards.Ht16k33LedScoreboard.SetDisplay | Samples/GladeInvade.ProjectLab/Ht16k33LedScoreboard.cs:23-38 | clears, lights the first min(4, length) characters in their slots, and pushes the buffer exactly once |
| Scoreboards.Ht16k33LedScoreboard.DisplayCharacter | Samples/GladeInvade.ProjectLab/Ht16k33LedScoreboard.cs:57-80 | nothing for a slot of 4 or more or a character outside 32..126; otherwise turns on exactly the LEDs of the character's pattern in the slot |
| Scoreboards.Ht16k33LedScoreboard.LightPattern | Samples/GladeInvade.ProjectLab/Ht16k33LedScoreboard.cs:72-79 | the bit loop turns on one LED per set bit |
| Scoreboards.Ht16k33.constructor | Samples/GladeInvade.ProjectLab/Ht16k33LedScoreboard.cs:10-12 | the driver handed to the scoreboard starts with no LED on in its buffer and nothing pushed |
| Scoreboards.Ht16k33.SetLed | Samples/GladeInvade.ProjectLab/Ht16k33LedScoreboard.cs:77 | `SetLed(index, true)` turns on that one LED in the buffer (false turns it off) and pushes nothing |
| Scoreboards.Ht16k33.ClearDisplay | Samples/GladeInvade.ProjectLab/Ht16k33LedScoreboard.cs:20 | every LED in the buffer off, nothing pushed |
| Scoreboards.Ht16k33.UpdateDisplay | Samples/GladeInvade.ProjectLab/Ht16k33LedScoreboard.cs:37 | the buffer is pushed to the chip once, unchanged |

## Left out

- SPI transport: `Bus.Write` and `SendCommand` of the ST7789 become a log of commands and data (`Sent`). The Monogame inner display's calls become a log too (`InnerCalls`). The data/command pin states are not modelled.
- `Displays.NewSt7789`: takes the colour mode explicitly; the default of the second constructor (12-bit RGB444, Glade2d.Displays/GladeSt7789.cs:27) is modelled by `Displays.NewSt7789WithDefaultMode`, which always throws.
- `Displays.NewSt7789`: the base-class initialisation commands of the ST7789 driver are not part of this model, so `Sent` starts empty.
- `Displays.MonogameGladeDisplay`: its plain forwarding members (`Show` with a rectangle, `Clear`, `Fill`, `DrawPixel`, `InvertPixel`, `WriteBuffer`) pass calls on unchanged and are not modelled; `ShowAll` stands for them.
- The colour mode is an enumeration of a few modes; only the comparison with RGB565 matters.
- Samples/GladeInvade.ProjectLab/GladeSt7789.cs, the sample game's own copy of the library display, lies outside the library code modelled here. It differs at line 63 (`row * BytesPerPixel`), which makes packed rows overlap.
- IBufferTransferrer.cs declares a `RenderRegion?` result; the implementation returns nothing, and the model follows it.
- `Drawing.ExecuteOperation` and `BufferRgb565` belong to the Meadow graphics library (`Meadow.Foundation.Graphics`), not to Glade2d. The blit, `BufferRgb565.Clear` and the buffer constructors are given by contract (`Pixels.ExecuteOperation`, `Pixels.PixelBuffer.Fill`).
- `TextureManager.GetTexture` is a lookup into loaded textures; `Layers.Layer.DrawFrame` takes the texture as a parameter instead.
- Floating point: sprite positions, velocities and layers are reals, and the frame time is a parameter (the `GameService` clock is not modelled). The layer origin is a pair of integers, and `Shift` takes integer amounts. Its float epsilon comparison becomes "a component is non-zero".
- `Layers.Layer.Shift`: requires a layer of positive width and height; with a zero dimension the source's normalisation loops never terminate.
- The `Activity` hooks of `Screen` and `Sprite` are empty in the library; the game-specific overrides are not modelled, and the model treats them as doing nothing.
- `Screens.Screen.Update`: does not state the tracker state left in the destroyed sprites after their change check, only that they leave the list and that their rectangles are recorded.
- `Screens.Screen.RegionPass`: the regions of the forward pass are gathered in a local set and then added to `ModifiedRegions` at once. Nothing reads the set during the pass, so the result is the same.
- `Screens.Screen.RemoveSpriteAt` requires a valid index; the source throws `ArgumentOutOfRangeException` for a bad one, which is not modelled.
- `Bytes.ArrayCopy` requires in-range arguments; `Array.Copy`'s exceptions are not modelled.
- `Transferring.TransferBuffer`: requires bounds with 0 <= X, 0 <= Width, X + Width <= source width, 0 <= Y and Height <= source height (`Transferring.RegionFits`), where Width and Height are end coordinates. This keeps each row pass's writes inside its own band of `scale` target rows. It also excludes some regions the source handles without leaving the buffers, for example a 100 x 10 source at scale 2 with region (X 50, Y 0, Width 60, Height 1). What the source does for such regions, and for the regions that write out of bounds, is not modelled.
- Logging (`LogService`) and profiler calls.
- 32-bit `int` arithmetic: the model's integers are unbounded, so the wrap-around of `source.Width * scale`, of the transferrer's byte offsets and of the display's `width * height * BytesPerPixel` for very large sizes is not modelled.
- `Scoreboards.Ht16k33LedScoreboard.SetDisplay`: C# strings are UTF-16 code units and the model's are Unicode scalar values, so a character outside the Basic Multilingual Plane counts as two characters in the source and as one in the model, and the characters after it land one slot further along in the source. Either way such a character lies outside 32..126 and lights nothing.
- `Layers.Layer.DrawTexture`: requires a texture whose pixel grid is not the layer's own buffer; drawing a layer's buffer onto itself depends on how the Meadow blit handles overlapping copies, and is not modelled.
- `Scoreboards.Ht16k33`: the Meadow HT16K33 driver is not part of Glade2d and is abstracted. The model assumes that `SetLed` turns one LED in the display buffer on or off without sending anything, that `ClearDisplay` turns every buffered LED off without sending anything, and that `UpdateDisplay` sends the buffer to the chip once, unchanged. The driver handed to the scoreboard is taken to start empty; the scoreboard constructor clears it anyway.
- `Sprites.Track`: compares frames by identity, on the assumption that `Frame` (whose declaration is not part of this model) is a class without an overloaded `==`. If it were a record, a new frame object with equal contents would report no change and a frame changed in place would be seen. Frames are values here, so a change to a frame's fields in place is modelled as a new value with the same `Id`, and the model does not enforce that all values sharing an `Id` agree.
- The parameterless `Sprite()` constructor is not modelled, because it leaves `CurrentFrame` null.
- `Ht16k33.SetDisplayOn` and `Ht16k33.SetBrightness` in the scoreboard constructor are device settings; they are not modelled.

=== FILE: arithmetic.dfy ===
/** Facts about Euclidean division that the wrap-around addressing relies on. */
module Arithmetic {

  function Max(a: int, b: int): int { if a < b then b else a }

  function Min(a: int, b: int): int { if a < b then a else b }

  /** A positive multiple of a positive modulus is at least the modulus. */
  lemma MulAtLeast(a: int, n: int)
    requires n > 0 && a >= 1
    ensures a * n >= n
  {
  }

  /** Quotient and remainder are unique. */
  lemma DivModUnique(k: int, n: int, q: int, r: int)
    requires n > 0 && 0 <= r < n && k == q * n + r
    ensures k % n == r && k / n == q
  {
    var q', r' := k / n, k % n;
    assert (q - q') * n == r' - r;
    if q != q' {
      if q > q' {
        MulAtLeast(q - q', n);
      } else {
        MulAtLeast(q' - q, n);
      }
      assert false;
    }
  }

  /** Adding a multiple of the modulus does not change the remainder. */
  lemma ModAddMultiple(k: int, n: int, m: int)
    requires n > 0
    ensures (k + m * n) % n == k % n
  {
    DivModUnique(k + m * n, n, k / n + m, k % n);
  }

  /** Reducing an addend first does not change the remainder of a sum. */
  lemma ModAddLeft(a: int, b: int, n: int)
    requires n > 0
    ensures (a % n + b) % n == (a + b) % n
  {
    ModAddMultiple(a + b, n, -(a / n));
    assert a % n + b == a + b + (-(a / n)) * n;
  }

  /** Sums that agree before reduction agree after reducing their first addends. */
  lemma ModSumsAgree(a: int, v: int, b: int, w: int, n: int)
    requires n > 0 && a + v == b + w
    ensures (a % n + v) % n == (b % n + w) % n
  {
    ModAddLeft(a, v, n);
    ModAddLeft(b, w, n);
  }

  /** Multiplying by a non-negative factor preserves order. */
  lemma MulMonotone(a: int, b: int, c: int)
    requires a <= b && 0 <= c
    ensures a * c <= b * c
  {
    assert b * c - a * c == (b - a) * c;
  }

  /** Row-major addressing: cell (row, col) of a rows x cols grid lies inside it. */
  lemma RowMajorInside(row: int, col: int, rows: int, cols: int)
    requires 0 <= row < rows && 0 <= col < cols
    ensures 0 <= row * cols + col < rows * cols
  {
    MulMonotone(0, row, cols);
    MulMonotone(row + 1, rows, cols);
  }

  /** Multiplication is associative; the row-offset proofs need it spelled out. */
  lemma MulAssociative(a: int, b: int, c: int)
    ensures a * b * c == a * (b * c)
  {
  }
}

=== FILE: bytes.dfy ===
/**
 * Byte buffers: the flat RGB565 byte layout of `BufferRgb565` (two bytes per pixel, rows
 * one after another) and `Array.Copy` on byte arrays.
 */
module Bytes {

  /** A C# `byte`. */
  type Byte = b: int | 0 <= b < 0x100

  /** Bytes per RGB565 pixel (`Renderer.BytesPerPixel`, and the displays' own constant). */
  const BytesPerPixel: int := 2

  /** Offset of byte k of the pixel-th pixel after `start`. */
  function ByteOffset(start: int, pixel: int, k: int): int
  {
    start + pixel * BytesPerPixel + k
  }

  /** Byte k of the pixel at (row, col) in a row-major buffer `width` pixels wide. */
  function PixelByte(width: int, row: int, col: int, k: int): int
  {
    (row * width + col) * BytesPerPixel + k
  }

  /**
   * `BufferRgb565` seen as bytes: Width x Height pixels of two bytes each, row after row.
   * (The layer code sees the same buffers as a pixel grid; see `Pixels.PixelBuffer`.)
   */
  class Rgb565Bytes {
    const Width: nat
    const Height: nat
    const Buffer: array<Byte>

    predicate Valid()
    {
      Buffer.Length == Width * Height * BytesPerPixel
    }

    constructor (width: nat, height: nat)
      ensures Valid() && Width == width && Height == height && fresh(Buffer)
    {
      Width, Height := width, height;
      Buffer := new Byte[width * height * BytesPerPixel];
    }
  }

  /**
   * `Array.Copy(source, sourceIndex, destination, destinationIndex, length)`: the destination
   * range receives what the source range held before the call (also when the two ranges
   * overlap in one array); nothing else changes. Out-of-range arguments throw in C#; here
   * they are excluded.
   */
  method ArrayCopy(source: array<Byte>, sourceIndex: int, destination: array<Byte>, destinationIndex: int, length: int)
    requires 0 <= length
    requires 0 <= sourceIndex && sourceIndex + length <= source.Length
    requires 0 <= destinationIndex && destinationIndex + length <= destination.Length
    modifies destination
    ensures forall i :: destinationIndex <= i < destinationIndex + length ==>
      destination[i] == old(source[sourceIndex + (i - destinationIndex)])
    ensures forall i :: 0 <= i < destination.Length && !(destinationIndex <= i < destinationIndex + length) ==>
      destination[i] == old(destination[i])
  {
    var snapshot := source[..];
    forall k | 0 <= k < length {
      destination[destinationIndex + k] := snapshot[sourceIndex + k];
    }
  }
}

=== FILE: displays.dfy ===
/**
 * The two `IGladeDisplay` implementations (Glade2d.Displays/GladeSt7789.cs and
 * Glade2d.Monogame/MonogameGladeDisplay.cs). `WriteSection` clamps a rectangle to the screen,
 * packs its rows one after another into a section buffer and hands the packed bytes on: over
 * SPI after an ST7789 address window, or to the inner Monogame display. The SPI bus and the
 * inner display are modelled as logs of what is sent to them.
 */
module Displays {
  import opened Wrappers
  import opened Arithmetic
  import opened Bytes

  /** A section by its edges. The packed data spans Right - Left columns and Bottom - Top rows. */
  datatype Section = Section(Left: int, Top: int, Right: int, Bottom: int)
  {
    function Width(): int { Right - Left }

    function Height(): int { Bottom - Top }

    /** `sectionWidth <= 0 || sectionHeight <= 0`: the section is off the pixel buffer. */
    predicate IsEmpty() { Width() <= 0 || Height() <= 0 }

    /** `bytesPerSectionRow`. */
    function RowBytes(): int { Width() * BytesPerPixel }

    /** The length of the span that is sent: `sectionWidth * sectionHeight * BytesPerPixel`. */
    function ByteLength(): int { Width() * Height() * BytesPerPixel }
  }

  /**
   * The clamping at the head of both `WriteSection`s: left and top become at least 0, right
   * and bottom at most the last column and row.
   */
  function Clamp(width: int, height: int, left: int, top: int, right: int, bottom: int): (s: Section)
    ensures s.Left >= 0 && s.Left >= left && (s.Left == left || s.Left == 0)
    ensures s.Top >= 0 && s.Top >= top && (s.Top == top || s.Top == 0)
    ensures s.Right <= width - 1 && s.Right <= right && (s.Right == right || s.Right == width - 1)
    ensures s.Bottom <= height - 1 && s.Bottom <= bottom && (s.Bottom == bottom || s.Bottom == height - 1)
  {
    Section(Max(left, 0), Max(top, 0), Min(right, width - 1), Min(bottom, height - 1))
  }

  /** Clamping an already clamped section changes nothing. */
  lemma ClampIdempotent(width: int, height: int, left: int, top: int, right: int, bottom: int)
    ensures var s := Clamp(width, height, left, top, right, bottom);
      Clamp(width, height, s.Left, s.Top, s.Right, s.Bottom) == s
  {
  }

  /** The section lies in a row-major RGB565 buffer `width` pixels wide and `length` bytes long. */
  predicate Fits(s: Section, width: int, length: int)
  {
    0 <= s.Left && 0 < s.Width() && s.Right <= width &&
    0 <= s.Top && 0 < s.Height() && s.Bottom * (width * BytesPerPixel) <= length
  }

  /** A non-empty clamped section fits the pixel buffer, and its packed bytes fit a section buffer of the screen's size. */
  lemma ClampedFits(width: int, height: int, left: int, top: int, right: int, bottom: int)
    requires !Clamp(width, height, left, top, right, bottom).IsEmpty()
    ensures var s := Clamp(width, height, left, top, right, bottom);
      Fits(s, width, width * height * BytesPerPixel) && 0 < s.ByteLength() <= width * height * BytesPerPixel
  {
    var s := Clamp(width, height, left, top, right, bottom);
    MulMonotone(s.Bottom, height, width * BytesPerPixel);
    assert height * (width * BytesPerPixel) == width * height * BytesPerPixel;
    MulMonotone(s.Width(), width, s.Height());
    MulMonotone(s.Height(), height, width);
    MulAtLeast(s.Width(), s.Height());
  }

  /** `sourceStart` of packed row `row`: the byte of pixel (Left, Top + row). */
  function RowStart(width: int, s: Section, row: int): int
  {
    s.Top * (width * BytesPerPixel) + row * (width * BytesPerPixel) + s.Left * BytesPerPixel
  }

  /** Source row `row` of the section lies inside the first Top + row + 1 rows of the buffer. */
  lemma RowInside(width: int, s: Section, length: int, row: int)
    requires Fits(s, width, length) && 0 <= row < s.Height()
    ensures 0 <= RowStart(width, s, row)
    ensures RowStart(width, s, row) + s.RowBytes() <= (s.Top + row + 1) * (width * BytesPerPixel) <= length
  {
    var full := width * BytesPerPixel;
    assert RowStart(width, s, row) == (s.Top + row) * full + s.Left * BytesPerPixel;
    assert RowStart(width, s, row) + s.RowBytes() == (s.Top + row) * full + s.Right * BytesPerPixel;
    MulMonotone(0, s.Top + row, full);
    MulMonotone(s.Top + row + 1, s.Bottom, full);
  }

  /** The first `rows` packed rows of the section, as bytes. */
  function PackedRows(pixels: seq<Byte>, width: int, s: Section, rows: int): (r: seq<Byte>)
    requires Fits(s, width, |pixels|) && 0 <= rows <= s.Height()
    ensures |r| == rows * s.RowBytes()
    decreases rows
  {
    if rows == 0 then []
    else
      RowInside(width, s, |pixels|, rows - 1);
      var start := RowStart(width, s, rows - 1);
      PackedRows(pixels, width, s, rows - 1) + pixels[start..start + s.RowBytes()]
  }

  /** The whole section packed: `_sectionBuffer[..sectionWidth * sectionHeight * 2]` after the copy loop. */
  function Packed(pixels: seq<Byte>, width: int, s: Section): (r: seq<Byte>)
    requires Fits(s, width, |pixels|)
    ensures |r| == s.ByteLength()
  {
    PackedRows(pixels, width, s, s.Height())
  }

  /** Byte k of pixel (c, r) in a buffer `w` pixels wide is byte c * 2 + k of row r. */
  lemma PixelByteInRow(w: int, r: int, c: int, k: int)
    ensures PixelByte(w, r, c, k) == r * (w * BytesPerPixel) + (c * BytesPerPixel + k)
  {
    assert (r * w + c) * BytesPerPixel == r * w * BytesPerPixel + c * BytesPerPixel;
  }

  /** Byte k of screen pixel (Left + c, Top + r) is byte c * 2 + k from the start of source row r. */
  lemma SourceByteInRow(width: int, s: Section, r: int, c: int, k: int)
    ensures PixelByte(width, s.Top + r, s.Left + c, k) == RowStart(width, s, r) + (c * BytesPerPixel + k)
  {
    PixelByteInRow(width, s.Top + r, s.Left + c, k);
    assert (s.Top + r) * (width * BytesPerPixel) == s.Top * (width * BytesPerPixel) + r * (width * BytesPerPixel);
  }

  /** Byte j of a row lies before the next row, and rows before `rows` lie in the first `rows` rows. */
  lemma InRows(r: int, rows: int, rb: int, j: int)
    requires 0 <= r < rows && 0 <= j < rb
    ensures 0 <= r * rb + j < rows * rb
  {
    MulMonotone(0, r, rb);
    MulMonotone(r + 1, rows, rb);
  }

  /**
   * Byte k of pixel (c, r) of the packed section, a row-major buffer Width() pixels wide, is
   * byte k of pixel (Left + c, Top + r) of the screen.
   */
  lemma {:induction false} PackedPixel(pixels: seq<Byte>, width: int, s: Section, rows: int, r: int, c: int, k: int)
    requires Fits(s, width, |pixels|) && 0 <= rows <= s.Height()
    requires 0 <= r < rows && 0 <= c < s.Width() && 0 <= k < BytesPerPixel
    ensures 0 <= PixelByte(s.Width(), r, c, k) < |PackedRows(pixels, width, s, rows)|
    ensures 0 <= PixelByte(width, s.Top + r, s.Left + c, k) < |pixels|
    ensures PackedRows(pixels, width, s, rows)[PixelByte(s.Width(), r, c, k)] ==
            pixels[PixelByte(width, s.Top + r, s.Left + c, k)]
  {
    var rb := s.RowBytes();
    var j := c * BytesPerPixel + k;
    PixelByteInRow(s.Width(), r, c, k);
    SourceByteInRow(width, s, r, c, k);
    InRows(r, rows, rb, j);
    RowInside(width, s, |pixels|, r);
    if r == rows - 1 {
      var start := RowStart(width, s, r);
      assert PackedRows(pixels, width, s, rows) == PackedRows(pixels, width, s, r) + pixels[start..start + rb];
    } else {
      PackedPixel(pixels, width, s, rows - 1, r, c, k);
    }
  }

  /**
   * After one row copy, the packed prefix grows by the copied row and the bytes beyond it still
   * hold what they held at the start.
   */
  lemma CopiedRow(original: seq<Byte>, before: seq<Byte>, after: seq<Byte>, source: seq<Byte>,
                  targetStart: int, sourceStart: int, length: int, prefix: seq<Byte>)
    requires 0 <= targetStart && 0 <= length && targetStart + length <= |before| == |after| == |original|
    requires 0 <= sourceStart && sourceStart + length <= |source|
    requires before[..targetStart] == prefix && before[targetStart..] == original[targetStart..]
    requires forall i :: targetStart <= i < targetStart + length ==> after[i] == source[sourceStart + (i - targetStart)]
    requires forall i :: 0 <= i < |after| && !(targetStart <= i < targetStart + length) ==> after[i] == before[i]
    ensures after[..targetStart + length] == prefix + source[sourceStart..sourceStart + length]
    ensures after[targetStart + length..] == original[targetStart + length..]
  {
    var next := targetStart + length;
    forall i | 0 <= i < next
      ensures after[i] == (prefix + source[sourceStart..sourceStart + length])[i]
    {
      if i < targetStart {
        assert before[..targetStart][i] == before[i];
      }
    }
    forall i | 0 <= i < |after| - next
      ensures after[next..][i] == original[next..][i]
    {
      assert before[targetStart..][i + length] == original[targetStart..][i + length];
    }
  }

  /** The packed span is `Height()` rows of `RowBytes()` bytes each. */
  lemma SectionRows(s: Section)
    ensures s.ByteLength() == s.Height() * s.RowBytes()
  {
  }

  /** Row `row`'s copy reads inside the source row and writes inside the packed span. */
  lemma RowCopyBounds(width: int, s: Section, sourceLength: int, targetLength: int, row: int)
    requires Fits(s, width, sourceLength) && s.ByteLength() <= targetLength && 0 <= row < s.Height()
    ensures 0 <= RowStart(width, s, row) && RowStart(width, s, row) + s.RowBytes() <= sourceLength
    ensures 0 <= row * s.RowBytes() && (row + 1) * s.RowBytes() == row * s.RowBytes() + s.RowBytes()
    ensures (row + 1) * s.RowBytes() <= targetLength
  {
    RowInside(width, s, sourceLength, row);
    SectionRows(s);
    MulMonotone(0, row, s.RowBytes());
    MulMonotone(row + 1, s.Height(), s.RowBytes());
  }

  /** Copying row `row` into place after the rows before it packs one more row. */
  lemma RowPacked(original: seq<Byte>, before: seq<Byte>, after: seq<Byte>, source: seq<Byte>,
                  width: int, s: Section, row: int)
    requires Fits(s, width, |source|) && 0 <= row < s.Height()
    requires 0 <= RowStart(width, s, row) && RowStart(width, s, row) + s.RowBytes() <= |source|
    requires 0 <= row * s.RowBytes() && (row + 1) * s.RowBytes() == row * s.RowBytes() + s.RowBytes()
    requires (row + 1) * s.RowBytes() <= |before| == |after| == |original|
    requires before[..row * s.RowBytes()] == PackedRows(source, width, s, row)
    requires before[row * s.RowBytes()..] == original[row * s.RowBytes()..]
    requires forall i :: row * s.RowBytes() <= i < row * s.RowBytes() + s.RowBytes() ==>
      after[i] == source[RowStart(width, s, row) + (i - row * s.RowBytes())]
    requires forall i :: 0 <= i < |after| && !(row * s.RowBytes() <= i < row * s.RowBytes() + s.RowBytes()) ==>
      after[i] == before[i]
    ensures after[..(row + 1) * s.RowBytes()] == PackedRows(source, width, s, row + 1)
    ensures after[(row + 1) * s.RowBytes()..] == original[(row + 1) * s.RowBytes()..]
  {
    CopiedRow(original, before, after, source, row * s.RowBytes(), RowStart(width, s, row), s.RowBytes(),
              PackedRows(source, width, s, row));
  }

  /**
   * The row loop of `WriteSection`: copies each row of the section to its packed place in
   * `target`; the bytes of `target` beyond the packed span keep their values.
   */
  method PackSection(source: array<Byte>, width: int, s: Section, target: array<Byte>)
    requires source != target && Fits(s, width, source.Length) && s.ByteLength() <= target.Length
    modifies target
    ensures target[..s.ByteLength()] == Packed(source[..], width, s)
    ensures target[s.ByteLength()..] == old(target[s.ByteLength()..])
  {
    var bytesPerFullRow := width * BytesPerPixel;
    var bytesPerSectionRow := s.Width() * BytesPerPixel;
    ghost var original := target[..];
    SectionRows(s);
    for row := 0 to s.Height()
      invariant target[..row * bytesPerSectionRow] == PackedRows(source[..], width, s, row)
      invariant target[row * bytesPerSectionRow..] == original[row * bytesPerSectionRow..]
    {
      var sourceStart := s.Top * bytesPerFullRow + row * bytesPerFullRow + s.Left * BytesPerPixel;
      var targetStart := row * bytesPerSectionRow;
      RowCopyBounds(width, s, source.Length, target.Length, row);
      ghost var before := target[..];
      ArrayCopy(source, sourceStart, target, targetStart, bytesPerSectionRow);
      RowPacked(original, before, target[..], source[..], width, s, row);
    }
  }

  /** What is written to the SPI bus: a command byte (data/command pin low) or data bytes. */
  datatype Transmission = Command(Code: Byte) | Data(Bytes: seq<Byte>)

  /** ST7789 column address set. */
  const CASET: Byte := 0x2A

  /** ST7789 row address set. */
  const RASET: Byte := 0x2B

  /** ST7789 memory write. */
  const RAMWR: Byte := 0x2C

  /**
   * `(byte)(v >> 8)`: arithmetic shift, then truncation to the low eight bits. It is the
   * upper byte of the low sixteen bits of `v`, whatever the sign of `v`.
   */
  function HighByte(v: int): (r: Byte)
    ensures r == (v % 0x10000) / 0x100
  {
    LowWordBytes(v);
    (v / 0x100) % 0x100
  }

  /** `(byte)(v & 0xff)`: the lower byte of the low sixteen bits of `v`. */
  function LowByte(v: int): (r: Byte)
    ensures r == (v % 0x10000) % 0x100
  {
    LowWordBytes(v);
    v % 0x100
  }

  /** Shifting and masking `v` gives the same bytes as splitting its low sixteen bits. */
  lemma LowWordBytes(v: int)
    ensures (v / 0x100) % 0x100 == (v % 0x10000) / 0x100
    ensures v % 0x100 == (v % 0x10000) % 0x100
  {
    var q, w := v / 0x10000, v % 0x10000;
    var high, low := w / 0x100, w % 0x100;
    assert w == high * 0x100 + low;
    assert high < 0x100;
    assert v == (q * 0x100 + high) * 0x100 + low;
    DivModUnique(v, 0x100, q * 0x100 + high, low);
    DivModUnique(q * 0x100 + high, 0x100, q, high);
  }

  /** A 16-bit value from its big-endian bytes. */
  function Word(high: Byte, low: Byte): int
  {
    high * 0x100 + low
  }

  /** The two bytes of a coordinate give back its low sixteen bits. */
  lemma WordOfBytes(v: int)
    ensures Word(HighByte(v), LowByte(v)) == v % 0x10000
  {
    var q := v / 0x100;
    assert v == q * 0x100 + LowByte(v);
    assert q == (q / 0x100) * 0x100 + HighByte(v);
    assert v == (q / 0x100) * 0x10000 + Word(HighByte(v), LowByte(v));
    DivModUnique(v, 0x10000, q / 0x100, Word(HighByte(v), LowByte(v)));
  }

  /** The CASET and RASET payload: two coordinates as big-endian 16-bit pairs. */
  function BigEndianPair(v0: int, v1: int): (r: seq<Byte>)
    ensures |r| == 4
    ensures Word(r[0], r[1]) == v0 % 0x10000 && Word(r[2], r[3]) == v1 % 0x10000
  {
    WordOfBytes(v0);
    WordOfBytes(v1);
    [HighByte(v0), LowByte(v0), HighByte(v1), LowByte(v1)]
  }

  /** What `SetAddressWindow(x0, y0, x1, y1)` writes to the bus. */
  function AddressWindow(x0: int, y0: int, x1: int, y1: int): (r: seq<Transmission>)
    ensures |r| == 5 && r[0] == Command(CASET) && r[2] == Command(RASET) && r[4] == Command(RAMWR)
    ensures r[1].Data? && |r[1].Bytes| == 4
    ensures Word(r[1].Bytes[0], r[1].Bytes[1]) == x0 % 0x10000 && Word(r[1].Bytes[2], r[1].Bytes[3]) == x1 % 0x10000
    ensures r[3].Data? && |r[3].Bytes| == 4
    ensures Word(r[3].Bytes[0], r[3].Bytes[1]) == y0 % 0x10000 && Word(r[3].Bytes[2], r[3].Bytes[3]) == y1 % 0x10000
  {
    [Command(CASET), Data(BigEndianPair(x0, x1)), Command(RASET), Data(BigEndianPair(y0, y1)), Command(RAMWR)]
  }

  /**
   * For a non-empty section of a screen at most 65536 pixels on a side, the window sent starts
   * at the section's first column and row and ends at the clamped right and bottom, which are
   * one beyond the last packed column and row.
   */
  lemma WindowOfSection(width: int, height: int, left: int, top: int, right: int, bottom: int)
    requires width <= 0x10000 && height <= 0x10000
    requires !Clamp(width, height, left, top, right, bottom).IsEmpty()
    ensures var s := Clamp(width, height, left, top, right, bottom);
      var w := AddressWindow(s.Left, s.Top, s.Right, s.Bottom);
      Word(w[1].Bytes[0], w[1].Bytes[1]) == s.Left && Word(w[1].Bytes[2], w[1].Bytes[3]) == s.Left + s.Width() &&
      Word(w[3].Bytes[0], w[3].Bytes[1]) == s.Top && Word(w[3].Bytes[2], w[3].Bytes[3]) == s.Top + s.Height()
  {
    var s := Clamp(width, height, left, top, right, bottom);
    DivModUnique(s.Left, 0x10000, 0, s.Left);
    DivModUnique(s.Top, 0x10000, 0, s.Top);
    DivModUnique(s.Right, 0x10000, 0, s.Right);
    DivModUnique(s.Bottom, 0x10000, 0, s.Bottom);
  }

  /** Display colour modes; the ST7789 wrapper accepts only 16-bit RGB565. */
  datatype ColorMode =
    | Format1bpp | Format4bppGray | Format8bppGray | Format8bppRgb332
    | Format12bppRgb444 | Format16bppRgb565 | Format18bppRgb666 | Format24bppRgb888

  /** `GladeSt7789`: an ST7789 display with an RGB565 pixel buffer and a section buffer of the same size. */
  class St7789 {
    const Width: nat
    const Height: nat
    const PixelBuffer: Rgb565Bytes
    const sectionBuffer: array<Byte>
    /** Everything written to the SPI bus since construction, in order. */
    var Sent: seq<Transmission>

    predicate Valid()
    {
      PixelBuffer.Valid() && PixelBuffer.Width == Width && PixelBuffer.Height == Height &&
      sectionBuffer.Length == Width * Height * BytesPerPixel && PixelBuffer.Buffer != sectionBuffer
    }

    /** The part of construction that cannot fail: the buffers. */
    constructor (width: nat, height: nat)
      ensures Valid() && Width == width && Height == height && Sent == []
      ensures fresh(PixelBuffer) && fresh(PixelBuffer.Buffer) && fresh(sectionBuffer)
    {
      Width, Height := width, height;
      PixelBuffer := new Rgb565Bytes(width, height);
      sectionBuffer := new Byte[width * height * BytesPerPixel];
      Sent := [];
    }

    /**
     * `WriteSection`: nothing happens for an empty clamped section; otherwise its rows are
     * packed into the section buffer and the address window and the packed bytes are sent.
     */
    method WriteSection(left: int, top: int, right: int, bottom: int)
      requires Valid()
      modifies this, sectionBuffer
      ensures Valid()
      ensures var s := Clamp(Width, Height, left, top, right, bottom);
        if s.IsEmpty() then Sent == old(Sent) && sectionBuffer[..] == old(sectionBuffer[..])
        else
          Fits(s, Width, PixelBuffer.Buffer.Length) && s.ByteLength() <= sectionBuffer.Length &&
          sectionBuffer[..s.ByteLength()] == Packed(PixelBuffer.Buffer[..], Width, s) &&
          sectionBuffer[s.ByteLength()..] == old(sectionBuffer[s.ByteLength()..]) &&
          Sent == old(Sent) + AddressWindow(s.Left, s.Top, s.Right, s.Bottom) + [Data(Packed(PixelBuffer.Buffer[..], Width, s))]
    {
      var l, r := Max(left, 0), Min(right, Width - 1);
      var t, b := Max(top, 0), Min(bottom, Height - 1);
      var section := Section(l, t, r, b);
      if section.Width() <= 0 || section.Height() <= 0 {
        return;
      }
      ClampedFits(Width, Height, left, top, right, bottom);
      PackSection(PixelBuffer.Buffer, Width, section, sectionBuffer);
      var bufferToSend := sectionBuffer[..section.ByteLength()];
      SetAddressWindow(l, t, r, b);
      Sent := Sent + [Data(bufferToSend)];
    }

    /** `SetAddressWindow`: CASET with the column pair, RASET with the row pair, then RAMWR. */
    method SetAddressWindow(x0: int, y0: int, x1: int, y1: int)
      modifies this
      ensures Sent == old(Sent) + AddressWindow(x0, y0, x1, y1)
    {
      Sent := Sent + [Command(CASET)];
      var dataPart1 := [HighByte(x0), LowByte(x0), HighByte(x1), LowByte(x1)];
      Sent := Sent + [Data(dataPart1)];
      Sent := Sent + [Command(RASET)];
      var dataPart2 := [HighByte(y0), LowByte(y0), HighByte(y1), LowByte(y1)];
      Sent := Sent + [Data(dataPart2)];
      Sent := Sent + [Command(RAMWR)];
    }
  }

  /** Constructing a `GladeSt7789`: any colour mode but RGB565 throws. */
  method NewSt7789(width: nat, height: nat, colorMode: ColorMode) returns (r: Result<St7789>)
    ensures r.Err? <==> colorMode != Format16bppRgb565
    ensures r.Err? ==> r.error == InvalidOperation("Invalid color mode")
    ensures r.Ok? ==> fresh(r.value) && r.value.Valid() && r.value.Width == width && r.value.Height == height && r.value.Sent == []
  {
    var display := new St7789(width, height);
    if colorMode != Format16bppRgb565 {
      return Err(InvalidOperation("Invalid color mode"));
    }
    return Ok(display);
  }

  /**
   * The constructor taking output ports with its colour mode left out: the default,
   * 12-bit RGB444, is not RGB565, so it always throws.
   */
  method NewSt7789WithDefaultMode(width: nat, height: nat) returns (r: Result<St7789>)
    ensures r == Err(InvalidOperation("Invalid color mode"))
  {
    r := NewSt7789(width, height, Format12bppRgb444);
  }

  /** A call on the inner Monogame display. */
  datatype InnerCall =
    | WriteBuffer(X: int, Y: int, Width: int, Height: int, Bytes: seq<Byte>)
    | Show

  /** `MonogameGladeDisplay`: forwards packed sections to an inner display of the same size. */
  class MonogameGladeDisplay {
    const Width: nat
    const Height: nat
    /** The inner display's pixel buffer. */
    const PixelBuffer: Rgb565Bytes
    const sectionBuffer: array<Byte>
    /** Everything asked of the inner display since construction, in order. */
    var InnerCalls: seq<InnerCall>

    predicate Valid()
    {
      PixelBuffer.Valid() && PixelBuffer.Width == Width && PixelBuffer.Height == Height &&
      sectionBuffer.Length == Width * Height * BytesPerPixel && PixelBuffer.Buffer != sectionBuffer
    }

    /** Wraps an inner display, given by its pixel buffer; the section buffer has the screen's size. */
    constructor (inner: Rgb565Bytes)
      requires inner.Valid()
      ensures Valid() && PixelBuffer == inner && Width == inner.Width && Height == inner.Height
      ensures InnerCalls == [] && fresh(sectionBuffer)
    {
      Width, Height := inner.Width, inner.Height;
      PixelBuffer := inner;
      sectionBuffer := new Byte[inner.Width * inner.Height * BytesPerPixel];
      InnerCalls := [];
    }

    /**
     * `WriteSection`: nothing happens for an empty clamped section; otherwise the packed
     * section goes to the inner display as a Width() x Height() buffer at (Left, Top), and the
     * inner display is shown.
     */
    method WriteSection(left: int, top: int, right: int, bottom: int)
      requires Valid()
      modifies this, sectionBuffer
      ensures Valid()
      ensures var s := Clamp(Width, Height, left, top, right, bottom);
        if s.IsEmpty() then InnerCalls == old(InnerCalls) && sectionBuffer[..] == old(sectionBuffer[..])
        else
          Fits(s, Width, PixelBuffer.Buffer.Length) && s.ByteLength() <= sectionBuffer.Length &&
          sectionBuffer[..s.ByteLength()] == Packed(PixelBuffer.Buffer[..], Width, s) &&
          sectionBuffer[s.ByteLength()..] == old(sectionBuffer[s.ByteLength()..]) &&
          InnerCalls == old(InnerCalls) +
            [WriteBuffer(s.Left, s.Top, s.Width(), s.Height(), Packed(PixelBuffer.Buffer[..], Width, s)), Show]
    {
      var l, r := Max(left, 0), Min(right, Width - 1);
      var t, b := Max(top, 0), Min(bottom, Height - 1);
      var section := Section(l, t, r, b);
      if section.Width() <= 0 || section.Height() <= 0 {
        return;
      }
      ClampedFits(Width, Height, left, top, right, bottom);
      PackSection(PixelBuffer.Buffer, Width, section, sectionBuffer);
      var bufferToSend := sectionBuffer[..section.ByteLength()];
      InnerCalls := InnerCalls + [WriteBuffer(l, t, section.Width(), section.Height(), bufferToSend)];
      ShowAll();
    }

    /** `Show()`: forwarded to the inner display. */
    method ShowAll()
      modifies this
      ensures InnerCalls == old(InnerCalls) + [Show]
    {
      InnerCalls := InnerCalls + [Show];
    }
  }
}

=== FILE: geometry.dfy ===
/**
 * Geometry primitives: points, sizes and the `RenderRegion` record with the comparer
 * that keys the sorted set of modified regions (Glade2d/RenderRegion.cs).
 */
module Geometry {

  /** A point on a pixel grid. */
  datatype Point = Point(X: int, Y: int)

  datatype Dimensions = Dimensions(Width: int, Height: int)

  /** The identity of a `Frame` object: what C#'s `==` compares on a class without an overloaded `==`. */
  type FrameId = nat

  /**
   * A reference to a `Frame` object: `Id` stands for the object's identity, the other fields for
   * the texture name and sub-rectangle it holds when it is read. Two frames with the same
   * contents and different ids are distinct objects; a frame whose fields were changed in place
   * keeps its id.
   */
  datatype Frame = Frame(Id: FrameId, TextureName: string, X: int, Y: int, Width: int, Height: int)

  /** An axis-aligned rectangle in target-buffer coordinates (a C# record struct: value equality). */
  datatype RenderRegion = RenderRegion(X: int, Y: int, Width: int, Height: int)

  /** Whether pixel (x, y) lies inside region `r`. */
  predicate Contains(r: RenderRegion, x: int, y: int)
  {
    r.X <= x < r.X + r.Width && r.Y <= y < r.Y + r.Height
  }

  /** `int.CompareTo`: -1, 0 or 1. */
  function CompareInt(a: int, b: int): (c: int)
    ensures c == -1 || c == 0 || c == 1
    ensures c < 0 <==> a < b
    ensures c == 0 <==> a == b
    ensures c > 0 <==> a > b
  {
    if a < b then -1 else if a > b then 1 else 0
  }

  /**
   * `RenderRegionComparer.Compare`: X, then Y, then Width, then Height, with early returns.
   * It is the lexicographic order, and it answers zero exactly on record equality, so a set
   * keyed by it holds no two equal rectangles.
   */
  function Compare(a: RenderRegion, b: RenderRegion): (c: int)
    ensures c == -1 || c == 0 || c == 1
    ensures c < 0 <==> LexLess(a, b)
    ensures c > 0 <==> LexLess(b, a)
    ensures c == 0 <==> a == b
  {
    var xComparison := CompareInt(a.X, b.X);
    if xComparison != 0 then xComparison
    else
      var yComparison := CompareInt(a.Y, b.Y);
      if yComparison != 0 then yComparison
      else
        var widthComparison := CompareInt(a.Width, b.Width);
        if widthComparison != 0 then widthComparison
        else CompareInt(a.Height, b.Height)
  }

  /** Strict lexicographic order on (X, Y, Width, Height), stated independently of `Compare`. */
  predicate LexLess(a: RenderRegion, b: RenderRegion)
  {
    || a.X < b.X
    || (a.X == b.X && a.Y < b.Y)
    || (a.X == b.X && a.Y == b.Y && a.Width < b.Width)
    || (a.X == b.X && a.Y == b.Y && a.Width == b.Width && a.Height < b.Height)
  }

  /** Antisymmetry: swapping the arguments negates the result. */
  lemma CompareAntisymmetric(a: RenderRegion, b: RenderRegion)
    ensures Compare(a, b) == -Compare(b, a)
  {
  }

  /** Transitivity of the strict order the comparer induces. */
  lemma CompareTransitive(a: RenderRegion, b: RenderRegion, c: RenderRegion)
    requires Compare(a, b) < 0 && Compare(b, c) < 0
    ensures Compare(a, c) < 0
  {
  }

  /** Transitivity of the non-strict order (`Compare <= 0`). */
  lemma CompareTransitiveNonStrict(a: RenderRegion, b: RenderRegion, c: RenderRegion)
    requires Compare(a, b) <= 0 && Compare(b, c) <= 0
    ensures Compare(a, c) <= 0
  {
  }

  /** Totality (trichotomy): exactly one of less, equal, greater. */
  lemma CompareTotal(a: RenderRegion, b: RenderRegion)
    ensures Compare(a, b) < 0 || a == b || Compare(b, a) < 0
  {
  }
}

=== FILE: layer.dfy ===
/**
 * `Layer` (Glade2d/Graphics/Layers/Layer.cs): a pixel buffer whose content can be scrolled
 * without moving pixels. The layer keeps an internal origin: logical layer pixel (x, y) is
 * stored at buffer pixel ((x + originX) mod W, (y + originY) mod H). Drawing splits a texture
 * around that origin; rendering cuts the buffer into four quadrants at the origin and
 * places them on the target at the camera offset.
 */
module Layers {
  import opened Wrappers
  import opened Geometry
  import opened Arithmetic
  import opened Pixels
  import opened LayerGeometry

  /** Where `Shift` leaves one coordinate of the origin: `origin - amount` wrapped into [0, dimension). */
  function ShiftedOrigin(origin: int, amount: int, dimension: int): (r: int)
    requires dimension > 0
    ensures 0 <= r < dimension
    ensures (r - (origin - amount)) % dimension == 0
  {
    var k := origin - amount;
    DivModUnique(-(k / dimension) * dimension, dimension, -(k / dimension), 0);
    k % dimension
  }

  /** Shifting by an amount and then by its negation restores the origin. */
  lemma ShiftRoundTrip(origin: int, amount: int, dimension: int)
    requires dimension > 0 && 0 <= origin < dimension
    ensures ShiftedOrigin(ShiftedOrigin(origin, amount, dimension), -amount, dimension) == origin
  {
    ModAddLeft(origin - amount, amount, dimension);
    DivModUnique(origin, dimension, 0, origin);
  }

  /** After a shift, logical coordinate v is stored where logical coordinate v - amount was stored before. */
  lemma ShiftIndex(v: int, origin: int, amount: int, dimension: int)
    requires dimension > 0
    ensures (v + ShiftedOrigin(origin, amount, dimension)) % dimension
         == ((v - amount) % dimension + origin) % dimension
  {
    var s := ShiftedOrigin(origin, amount, dimension);
    ModSumsAgree(origin - amount, v, v - amount, origin, dimension);
    assert v + s == s + v;
  }

  /**
   * One pair of the normalising loops of `Shift`: adds or subtracts the dimension until the
   * coordinate lies in [0, dimension), which leaves it congruent to where it started.
   */
  method WrapCoordinate(v: int, dimension: int) returns (r: int)
    requires dimension > 0
    ensures 0 <= r < dimension && r == ShiftedOrigin(v, 0, dimension)
  {
    r := v;
    while r < 0
      invariant r % dimension == v % dimension
      decreases -r
    {
      ModAddMultiple(r, dimension, 1);
      r := r + dimension;
    }
    while r >= dimension
      invariant 0 <= r && r % dimension == v % dimension
      decreases r
    {
      ModAddMultiple(r - dimension, dimension, 1);
      r := r - dimension;
    }
    DivModUnique(r, dimension, 0, r);
  }

  /** Whether a draw of `drawSize` at `topLeft` overlaps a width x height layer at all. */
  predicate OverlapsLayer(topLeft: Point, drawSize: Dimensions, width: int, height: int)
  {
    Max(topLeft.X, 0) < Min(topLeft.X + drawSize.Width, width) &&
    Max(topLeft.Y, 0) < Min(topLeft.Y + drawSize.Height, height)
  }

  /**
   * Whether the layer's footprint on the camera lies wholly off a target of the given size.
   * When it holds, no pixel of the footprint is on the target; when it does not, the
   * footprint's top-left pixel on the target is one of the layer's, unless the footprint ends
   * exactly at the target's left or top edge.
   */
  predicate OffTarget(camera: Point, width: int, height: int, targetWidth: int, targetHeight: int): (r: bool)
    ensures r ==> forall x, y :: 0 <= x < targetWidth && 0 <= y < targetHeight ==>
      !InRect(camera, Dimensions(width, height), x, y)
    ensures !r && 0 < width && 0 < height && 0 < targetWidth && 0 < targetHeight &&
            camera.X + width != 0 && camera.Y + height != 0 ==>
      var x, y := Max(camera.X, 0), Max(camera.Y, 0);
      x < targetWidth && y < targetHeight && InRect(camera, Dimensions(width, height), x, y)
  {
    height + camera.Y < 0 || width + camera.X < 0 || camera.Y >= targetHeight || camera.X >= targetWidth
  }

  /**
   * The off-target test compares strictly: a layer whose footprint ends exactly at the
   * target's top edge counts as on the target although none of its pixels lands there.
   */
  lemma EndingAtTopEdgeIsOnTarget(camera: Point, width: int, height: int, targetWidth: int, targetHeight: int)
    requires 0 < width && 0 < height && camera.Y + height == 0 && 0 <= camera.X < targetWidth && 0 < targetHeight
    ensures !OffTarget(camera, width, height, targetWidth, targetHeight)
    ensures forall x, y :: 0 <= x < targetWidth && 0 <= y < targetHeight ==>
      !InRect(camera, Dimensions(width, height), x, y)
  {
  }

  /**
   * A pixel's value after one piece is blitted from `texture`: the texture pixel the piece maps
   * to it when the piece covers it and that pixel is not skipped, otherwise `previous`.
   */
  ghost function Painted(piece: Option<Piece>, x: int, y: int, texture: array2<Pixel>, transparency: Option<Pixel>,
                         previous: Pixel): Pixel
    reads texture
  {
    if PieceCovers(piece, x, y) then
      var t := PieceTexturePoint(piece.value, x, y);
      if 0 <= t.X < texture.Length0 && 0 <= t.Y < texture.Length1 && !Skipped(transparency, texture[t.X, t.Y])
      then texture[t.X, t.Y] else previous
    else previous
  }

  /** Painting with pieces that do not overlap at (x, y) amounts to painting with the one that covers it. */
  lemma PaintedOnce(w: WrapPieces, x: int, y: int, texture: array2<Pixel>, transparency: Option<Pixel>, previous: Pixel)
    requires CoverCount(w, x, y) <= 1
    ensures Painted(w.TopLeft, x, y, texture, transparency,
              Painted(w.TopRight, x, y, texture, transparency,
                Painted(w.BottomLeft, x, y, texture, transparency,
                  Painted(w.BottomRight, x, y, texture, transparency, previous))))
         == Painted(CoveringPiece(w, x, y), x, y, texture, transparency, previous)
  {
  }

  /**
   * The four pieces of a non-empty clipped draw, painted in turn onto the buffer pixel that
   * stores logical pixel (x, y), leave there the texture pixel at the offset of (x, y) in the
   * draw when (x, y) lies in it and that texture pixel is not skipped, and the previous value
   * otherwise.
   */
  lemma PaintedLogical(c: ClippedDraw, origin: Point, width: int, height: int, x: int, y: int,
                       texture: array2<Pixel>, transparency: Option<Pixel>, previous: Pixel)
    requires OnLayer(c, width, height)
    requires 0 <= origin.X < width && 0 <= origin.Y < height
    requires 0 <= x < width && 0 <= y < height
    requires 0 <= c.TopLeftOnTexture.X && c.TopLeftOnTexture.X + c.DrawSize.Width <= texture.Length0
    requires 0 <= c.TopLeftOnTexture.Y && c.TopLeftOnTexture.Y + c.DrawSize.Height <= texture.Length1
    ensures var w := SplitDraw(c, origin, width, height);
      var px, py := (x + origin.X) % width, (y + origin.Y) % height;
      var tx, ty := c.TopLeftOnTexture.X + x - c.TopLeftOnLayer.X, c.TopLeftOnTexture.Y + y - c.TopLeftOnLayer.Y;
      Painted(w.TopLeft, px, py, texture, transparency,
        Painted(w.TopRight, px, py, texture, transparency,
          Painted(w.BottomLeft, px, py, texture, transparency,
            Painted(w.BottomRight, px, py, texture, transparency, previous))))
      == if InRect(c.TopLeftOnLayer, c.DrawSize, x, y) && !Skipped(transparency, texture[tx, ty])
         then texture[tx, ty] else previous
  {
    var w := SplitDraw(c, origin, width, height);
    var px, py := (x + origin.X) % width, (y + origin.Y) % height;
    StoredCoordinate(x, origin.X, width);
    StoredCoordinate(y, origin.Y, height);
    SplitDrawPartition(c, origin, width, height, x, y, px, py);
    PaintedOnce(w, px, py, texture, transparency, previous);
  }

  /**
   * A target pixel's value after one quadrant of `layer`, placed at targetOrigin + camera, is
   * blitted onto it: the quadrant pixel at the same offset when the placed quadrant covers it
   * and that pixel is not skipped, otherwise `previous`.
   */
  ghost function Placed(quadrant: DrawableRectangle, targetOrigin: Point, camera: Point, x: int, y: int,
                        layer: array2<Pixel>, transparency: Option<Pixel>, previous: Pixel): Pixel
    reads layer
  {
    var start := Point(targetOrigin.X + camera.X, targetOrigin.Y + camera.Y);
    var lx, ly := quadrant.Start.X + x - start.X, quadrant.Start.Y + y - start.Y;
    if InRect(start, quadrant.Dimensions, x, y) && 0 <= lx < layer.Length0 && 0 <= ly < layer.Length1
       && !Skipped(transparency, layer[lx, ly])
    then layer[lx, ly] else previous
  }

  /**
   * The four origin quadrants blitted in turn at their placements show, at target pixel (x, y),
   * the layer pixel stored for logical pixel (x - cameraX, y - cameraY) when that lies on the
   * layer and is not skipped, and leave the pixel as it was otherwise.
   */
  lemma PlacedLogical(origin: Point, width: int, height: int, camera: Point, x: int, y: int,
                      layer: array2<Pixel>, transparency: Option<Pixel>, previous: Pixel)
    requires 0 <= origin.X < width && 0 <= origin.Y < height
    requires layer.Length0 == width && layer.Length1 == height
    ensures var q := RenderQuadrants(origin, width, height);
      var right, below := q.BottomRight.Dimensions.Width, q.BottomRight.Dimensions.Height;
      var lx, ly := (x - camera.X + origin.X) % width, (y - camera.Y + origin.Y) % height;
      Placed(q.TopLeft, Point(right, below), camera, x, y, layer, transparency,
        Placed(q.TopRight, Point(0, below), camera, x, y, layer, transparency,
          Placed(q.BottomLeft, Point(right, 0), camera, x, y, layer, transparency,
            Placed(q.BottomRight, Point(0, 0), camera, x, y, layer, transparency, previous))))
      == if InRect(camera, Dimensions(width, height), x, y) && !Skipped(transparency, layer[lx, ly])
         then layer[lx, ly] else previous
  {
    PlacementAxis(origin.X, width, camera.X, x);
    PlacementAxis(origin.Y, height, camera.Y, y);
  }

  class Layer {
    const buffer: PixelBuffer
    var internalOrigin: Point
    var cameraOffset: Point
    var hasRenderChanges: bool
    var BackgroundColor: Pixel
    var TransparentColor: Pixel
    var DrawLayerWithTransparency: bool

    /** The buffer is well formed and the origin lies on it ((0, 0) for an empty layer). */
    predicate Valid()
      reads this
    {
      && buffer.Valid()
      && (if buffer.Width > 0 && buffer.Height > 0
          then 0 <= internalOrigin.X < buffer.Width && 0 <= internalOrigin.Y < buffer.Height
          else internalOrigin == Point(0, 0))
    }

    /** The logical layer pixel (x, y): where it is stored depends on the internal origin. */
    ghost function LogicalPixel(x: int, y: int): Pixel
      requires Valid() && 0 <= x < buffer.Width && 0 <= y < buffer.Height
      reads this, buffer.Pixels
    {
      buffer.Pixels[(x + internalOrigin.X) % buffer.Width, (y + internalOrigin.Y) % buffer.Height]
    }

    /** `Layer.Create`: a fresh buffer of the given size, origin and camera offset at (0, 0). */
    constructor Create(dimensions: Dimensions)
      requires dimensions.Width >= 0 && dimensions.Height >= 0
      ensures Valid() && fresh(buffer) && fresh(buffer.Pixels)
      ensures buffer.Width == dimensions.Width && buffer.Height == dimensions.Height
      ensures internalOrigin == Point(0, 0) && cameraOffset == Point(0, 0) && !hasRenderChanges
      ensures BackgroundColor == Black && TransparentColor == Magenta && !DrawLayerWithTransparency
    {
      buffer := new PixelBuffer(dimensions.Width, dimensions.Height);
      internalOrigin, cameraOffset, hasRenderChanges := Point(0, 0), Point(0, 0), false;
      BackgroundColor, TransparentColor, DrawLayerWithTransparency := Black, Magenta, false;
    }

    /** `Layer.FromExistingBuffer`: a layer over a buffer someone else owns (the sprite layer). */
    constructor FromExistingBuffer(pixelBuffer: PixelBuffer)
      requires pixelBuffer.Valid()
      ensures Valid() && buffer == pixelBuffer
      ensures internalOrigin == Point(0, 0) && cameraOffset == Point(0, 0) && !hasRenderChanges
      ensures BackgroundColor == Black && TransparentColor == Magenta && !DrawLayerWithTransparency
    {
      buffer := pixelBuffer;
      internalOrigin, cameraOffset, hasRenderChanges := Point(0, 0), Point(0, 0), false;
      BackgroundColor, TransparentColor, DrawLayerWithTransparency := Black, Magenta, false;
    }

    /** The `CameraOffset` setter: always marks the layer as changed. */
    method SetCameraOffset(value: Point)
      modifies this
      ensures cameraOffset == value && hasRenderChanges
      ensures internalOrigin == old(internalOrigin) && BackgroundColor == old(BackgroundColor)
      ensures TransparentColor == old(TransparentColor) && DrawLayerWithTransparency == old(DrawLayerWithTransparency)
    {
      cameraOffset := value;
      hasRenderChanges := true;
    }

    /** `Clear`: every pixel becomes the background colour, and the layer is marked as changed. */
    method Clear()
      requires Valid()
      modifies this, buffer.Pixels
      ensures Valid() && hasRenderChanges
      ensures forall x, y :: 0 <= x < buffer.Width && 0 <= y < buffer.Height ==> LogicalPixel(x, y) == BackgroundColor
      ensures internalOrigin == old(internalOrigin) && cameraOffset == old(cameraOffset)
      ensures BackgroundColor == old(BackgroundColor) && TransparentColor == old(TransparentColor)
      ensures DrawLayerWithTransparency == old(DrawLayerWithTransparency)
    {
      buffer.Fill(BackgroundColor);
      hasRenderChanges := true;
    }

    /**
     * `Shift`: moves the origin by the opposite of the amount, normalised into the layer by
     * the four loops of the source. The content seen through the origin moves by the amount,
     * wrapping around, and the layer is marked as changed when the amount is not zero.
     */
    method Shift(dx: int, dy: int)
      requires Valid() && buffer.Width > 0 && buffer.Height > 0
      modifies this
      ensures Valid()
      ensures internalOrigin == Point(ShiftedOrigin(old(internalOrigin.X), dx, buffer.Width),
                                      ShiftedOrigin(old(internalOrigin.Y), dy, buffer.Height))
      ensures forall x, y :: 0 <= x < buffer.Width && 0 <= y < buffer.Height ==>
        LogicalPixel(x, y) == old(LogicalPixel((x - dx) % buffer.Width, (y - dy) % buffer.Height))
      ensures hasRenderChanges == (old(hasRenderChanges) || dx != 0 || dy != 0)
      ensures cameraOffset == old(cameraOffset) && BackgroundColor == old(BackgroundColor)
      ensures TransparentColor == old(TransparentColor) && DrawLayerWithTransparency == old(DrawLayerWithTransparency)
    {
      var w, h := buffer.Width, buffer.Height;
      ghost var ox, oy := internalOrigin.X, internalOrigin.Y;
      var originX := WrapCoordinate(internalOrigin.X - dx, w);
      var originY := WrapCoordinate(internalOrigin.Y - dy, h);
      internalOrigin := Point(originX, originY);
      if dx != 0 || dy != 0 {
        hasRenderChanges := true;
      }
      forall x, y | 0 <= x < w && 0 <= y < h
        ensures LogicalPixel(x, y) == old(LogicalPixel((x - dx) % w, (y - dy) % h))
      {
        ShiftIndex(x, ox, dx, w);
        ShiftIndex(y, oy, dy, h);
        var ux, uy := (x - dx) % w, (y - dy) % h;
        assert LogicalPixel(x, y) == buffer.Pixels[(x + originX) % w, (y + originY) % h];
        assert old(LogicalPixel(ux, uy)) == old(buffer.Pixels[(ux + ox) % w, (uy + oy) % h]);
      }
    }

    /** One blit of `DrawTexture` from the texture onto the layer buffer, when the piece is issued. */
    method DrawPiece(texture: PixelBuffer, piece: Option<Piece>, transparency: Option<Pixel>)
      requires Valid() && texture.Valid() && texture.Pixels != buffer.Pixels
      requires piece.Some? && piece.value.Size.Width > 0 && piece.value.Size.Height > 0 ==>
        RectInside(piece.value.LayerStart, piece.value.Size, buffer) &&
        RectInside(piece.value.TextureStart, piece.value.Size, texture)
      modifies buffer.Pixels
      ensures forall x, y :: 0 <= x < buffer.Width && 0 <= y < buffer.Height ==>
        buffer.Pixels[x, y] == Painted(piece, x, y, texture.Pixels, transparency, old(buffer.Pixels[x, y]))
    {
      if piece.Some? {
        ExecuteOperation(Operation(texture, buffer, piece.value.TextureStart, piece.value.LayerStart,
                                   piece.value.Size, transparency));
      }
    }

    /** The four blits of `DrawTexture`, in its order: each pixel ends up painted by the pieces in turn. */
    method DrawPieces(texture: PixelBuffer, pieces: WrapPieces, c: ClippedDraw, transparency: Option<Pixel>)
      requires Valid() && texture.Valid() && texture.Pixels != buffer.Pixels
      requires RectInside(c.TopLeftOnTexture, c.DrawSize, texture)
      requires PieceInside(pieces.BottomRight, c, buffer.Width, buffer.Height)
      requires PieceInside(pieces.BottomLeft, c, buffer.Width, buffer.Height)
      requires PieceInside(pieces.TopRight, c, buffer.Width, buffer.Height)
      requires PieceInside(pieces.TopLeft, c, buffer.Width, buffer.Height)
      modifies buffer.Pixels
      ensures forall x, y :: 0 <= x < buffer.Width && 0 <= y < buffer.Height ==>
        buffer.Pixels[x, y] ==
          Painted(pieces.TopLeft, x, y, texture.Pixels, transparency,
            Painted(pieces.TopRight, x, y, texture.Pixels, transparency,
              Painted(pieces.BottomLeft, x, y, texture.Pixels, transparency,
                Painted(pieces.BottomRight, x, y, texture.Pixels, transparency, old(buffer.Pixels[x, y])))))
    {
      DrawPiece(texture, pieces.BottomRight, transparency);
      DrawPiece(texture, pieces.BottomLeft, transparency);
      DrawPiece(texture, pieces.TopRight, transparency);
      DrawPiece(texture, pieces.TopLeft, transparency);
    }

    /** The blits of a clipped, non-empty draw, split around the origin as `DrawTexture` does. */
    method DrawClipped(texture: PixelBuffer, c: ClippedDraw, transparency: Option<Pixel>)
      requires Valid() && texture.Valid() && texture.Pixels != buffer.Pixels
      requires OnLayer(c, buffer.Width, buffer.Height)
      requires RectInside(c.TopLeftOnTexture, c.DrawSize, texture)
      modifies buffer.Pixels
      ensures forall x, y :: 0 <= x < buffer.Width && 0 <= y < buffer.Height ==>
        LogicalPixel(x, y) ==
          var tx, ty := c.TopLeftOnTexture.X + x - c.TopLeftOnLayer.X, c.TopLeftOnTexture.Y + y - c.TopLeftOnLayer.Y;
          if InRect(c.TopLeftOnLayer, c.DrawSize, x, y) && !Skipped(transparency, texture.Pixels[tx, ty])
          then texture.Pixels[tx, ty]
          else old(LogicalPixel(x, y))
    {
      var w, h, o := buffer.Width, buffer.Height, internalOrigin;
      var pieces := SplitDraw(c, o, w, h);
      SplitDrawInside(c, o, w, h);
      SplitDrawDisjoint(c, o, w, h);
      DrawPieces(texture, pieces, c, transparency);
      forall x, y | 0 <= x < w && 0 <= y < h
        ensures LogicalPixel(x, y) ==
          var tx, ty := c.TopLeftOnTexture.X + x - c.TopLeftOnLayer.X, c.TopLeftOnTexture.Y + y - c.TopLeftOnLayer.Y;
          if InRect(c.TopLeftOnLayer, c.DrawSize, x, y) && !Skipped(transparency, texture.Pixels[tx, ty])
          then texture.Pixels[tx, ty]
          else old(LogicalPixel(x, y))
      {
        var px, py := (x + o.X) % w, (y + o.Y) % h;
        PaintedLogical(c, o, w, h, x, y, texture.Pixels, transparency, old(buffer.Pixels[px, py]));
        assert LogicalPixel(x, y) == buffer.Pixels[px, py];
        assert old(LogicalPixel(x, y)) == old(buffer.Pixels[px, py]);
      }
    }

    /**
     * `DrawTexture`: paints the drawSize rectangle of the texture at topLeftOnTexture onto the
     * layer at logical position topLeftOnLayer. The part off the layer is dropped, pixels of the
     * transparent colour are skipped unless transparency is ignored, and wherever the origin
     * lies the texture lands at the same logical coordinates. The layer is marked as changed
     * only when something overlapped the layer and resetRenderFlag is set.
     */
    method DrawTexture(texture: PixelBuffer, topLeftOnTexture: Point, topLeftOnLayer: Point, drawSize: Dimensions,
                       ignoreTransparency: bool, resetRenderFlag: bool)
      requires Valid() && texture.Valid() && texture.Pixels != buffer.Pixels
      requires var c := ClipToLayer(topLeftOnTexture, topLeftOnLayer, drawSize, buffer.Width, buffer.Height);
        c.DrawSize.Width > 0 && c.DrawSize.Height > 0 ==> RectInside(c.TopLeftOnTexture, c.DrawSize, texture)
      modifies this, buffer.Pixels
      ensures Valid()
      ensures forall x, y :: 0 <= x < buffer.Width && 0 <= y < buffer.Height ==>
        LogicalPixel(x, y) ==
          var tx, ty := topLeftOnTexture.X + x - topLeftOnLayer.X, topLeftOnTexture.Y + y - topLeftOnLayer.Y;
          if InRect(topLeftOnLayer, drawSize, x, y)
             && !Skipped(if ignoreTransparency then None else Some(TransparentColor), texture.Pixels[tx, ty])
          then texture.Pixels[tx, ty]
          else old(LogicalPixel(x, y))
      ensures hasRenderChanges ==
        (old(hasRenderChanges) || (resetRenderFlag && OverlapsLayer(topLeftOnLayer, drawSize, buffer.Width, buffer.Height)))
      ensures internalOrigin == old(internalOrigin) && cameraOffset == old(cameraOffset)
      ensures BackgroundColor == old(BackgroundColor) && TransparentColor == old(TransparentColor)
      ensures DrawLayerWithTransparency == old(DrawLayerWithTransparency)
    {
      var w, h := buffer.Width, buffer.Height;
      var c := ClipToLayer(topLeftOnTexture, topLeftOnLayer, drawSize, w, h);
      if c.DrawSize.Width <= 0 || c.DrawSize.Height <= 0 {
        return;
      }
      var transparency := if ignoreTransparency then None else Some(TransparentColor);
      DrawClipped(texture, c, transparency);
      forall x, y | 0 <= x < w && 0 <= y < h
        ensures InRect(c.TopLeftOnLayer, c.DrawSize, x, y) <==> InRect(topLeftOnLayer, drawSize, x, y)
        ensures c.TopLeftOnTexture.X + x - c.TopLeftOnLayer.X == topLeftOnTexture.X + x - topLeftOnLayer.X
        ensures c.TopLeftOnTexture.Y + y - c.TopLeftOnLayer.Y == topLeftOnTexture.Y + y - topLeftOnLayer.Y
      {
      }
      if resetRenderFlag {
        hasRenderChanges := true;
      }
    }

    /** `DrawTexture(Frame, Point)`: the frame's rectangle of its texture, with transparency, marking a change. */
    method DrawFrame(texture: PixelBuffer, frame: Frame, topLeftOnLayer: Point)
      requires Valid() && texture.Valid() && texture.Pixels != buffer.Pixels
      requires var c := ClipToLayer(Point(frame.X, frame.Y), topLeftOnLayer, Dimensions(frame.Width, frame.Height),
                                    buffer.Width, buffer.Height);
        c.DrawSize.Width > 0 && c.DrawSize.Height > 0 ==> RectInside(c.TopLeftOnTexture, c.DrawSize, texture)
      modifies this, buffer.Pixels
      ensures Valid()
      ensures forall x, y :: 0 <= x < buffer.Width && 0 <= y < buffer.Height ==>
        LogicalPixel(x, y) ==
          var tx, ty := frame.X + x - topLeftOnLayer.X, frame.Y + y - topLeftOnLayer.Y;
          if InRect(topLeftOnLayer, Dimensions(frame.Width, frame.Height), x, y)
             && !Skipped(Some(TransparentColor), texture.Pixels[tx, ty])
          then texture.Pixels[tx, ty]
          else old(LogicalPixel(x, y))
      ensures hasRenderChanges ==
        (old(hasRenderChanges) || OverlapsLayer(topLeftOnLayer, Dimensions(frame.Width, frame.Height), buffer.Width, buffer.Height))
      ensures internalOrigin == old(internalOrigin) && cameraOffset == old(cameraOffset)
      ensures BackgroundColor == old(BackgroundColor) && TransparentColor == old(TransparentColor)
      ensures DrawLayerWithTransparency == old(DrawLayerWithTransparency)
    {
      DrawTexture(texture, Point(frame.X, frame.Y), topLeftOnLayer, Dimensions(frame.Width, frame.Height), false, true);
    }

    /** The local `PerformDraw`: one quadrant placed at targetOrigin + camera offset, clipped to the target. */
    method PerformDraw(quadrant: DrawableRectangle, target: PixelBuffer, targetOrigin: Point, transparency: Option<Pixel>)
      requires Valid() && target.Valid() && target.Pixels != buffer.Pixels
      requires 0 <= quadrant.Start.X && quadrant.Start.X + quadrant.Dimensions.Width <= buffer.Width
      requires 0 <= quadrant.Start.Y && quadrant.Start.Y + quadrant.Dimensions.Height <= buffer.Height
      modifies target.Pixels
      ensures forall x, y :: 0 <= x < target.Width && 0 <= y < target.Height ==>
        target.Pixels[x, y] ==
          Placed(quadrant, targetOrigin, cameraOffset, x, y, buffer.Pixels, transparency, old(target.Pixels[x, y]))
    {
      var operation := CalculateDrawOperation(quadrant, target.Width, target.Height, targetOrigin, cameraOffset);
      if operation.Some? {
        var p := operation.value;
        ExecuteOperation(Operation(buffer, target, p.LayerStart, p.TargetStart, p.Size, transparency));
      }
    }

    /** The four `PerformDraw` calls of `RenderToBuffer`, in the source's order, at their placements. */
    method DrawQuadrants(target: PixelBuffer, q: Quadrants, transparency: Option<Pixel>)
      requires Valid() && target.Valid() && target.Pixels != buffer.Pixels
      requires q == RenderQuadrants(internalOrigin, buffer.Width, buffer.Height)
      modifies target.Pixels
      ensures forall x, y :: 0 <= x < target.Width && 0 <= y < target.Height ==>
        var right, below := q.BottomRight.Dimensions.Width, q.BottomRight.Dimensions.Height;
        target.Pixels[x, y] ==
          Placed(q.TopLeft, Point(right, below), cameraOffset, x, y, buffer.Pixels, transparency,
            Placed(q.TopRight, Point(0, below), cameraOffset, x, y, buffer.Pixels, transparency,
              Placed(q.BottomLeft, Point(right, 0), cameraOffset, x, y, buffer.Pixels, transparency,
                Placed(q.BottomRight, Point(0, 0), cameraOffset, x, y, buffer.Pixels, transparency,
                  old(target.Pixels[x, y])))))
    {
      var right, below := q.BottomRight.Dimensions.Width, q.BottomRight.Dimensions.Height;
      PerformDraw(q.BottomRight, target, Point(0, 0), transparency);
      PerformDraw(q.BottomLeft, target, Point(right, 0), transparency);
      PerformDraw(q.TopRight, target, Point(0, below), transparency);
      PerformDraw(q.TopLeft, target, Point(right, below), transparency);
    }

    /** The layer as seen through its origin, drawn onto the target with its logical (0, 0) at the camera offset. */
    method DrawSeenThroughOrigin(target: PixelBuffer, transparency: Option<Pixel>)
      requires Valid() && target.Valid() && target.Pixels != buffer.Pixels
      modifies target.Pixels
      ensures forall x, y :: 0 <= x < target.Width && 0 <= y < target.Height ==>
        target.Pixels[x, y] ==
          if InRect(cameraOffset, Dimensions(buffer.Width, buffer.Height), x, y)
             && !Skipped(transparency, LogicalPixel(x - cameraOffset.X, y - cameraOffset.Y))
          then LogicalPixel(x - cameraOffset.X, y - cameraOffset.Y)
          else old(target.Pixels[x, y])
    {
      var w, h := buffer.Width, buffer.Height;
      var o, cam := internalOrigin, cameraOffset;
      var q := RenderQuadrants(o, w, h);
      DrawQuadrants(target, q, transparency);
      forall x, y | 0 <= x < target.Width && 0 <= y < target.Height
        ensures target.Pixels[x, y] ==
          if InRect(cam, Dimensions(w, h), x, y)
             && !Skipped(transparency, LogicalPixel(x - cam.X, y - cam.Y))
          then LogicalPixel(x - cam.X, y - cam.Y)
          else old(target.Pixels[x, y])
      {
        if w > 0 && h > 0 {
          PlacedLogical(o, w, h, cam, x, y, buffer.Pixels, transparency, old(target.Pixels[x, y]));
        }
      }
    }

    /**
     * `RenderToBuffer`: copies the layer onto the target as seen through the origin, with the
     * layer's logical (0, 0) at the camera offset, skipping transparent pixels when the layer
     * is drawn with transparency. Nothing is drawn onto the layer's own buffer or when the
     * layer lies wholly off the target. With changes pending, the result is the footprint of
     * the layer clipped to the target and the change flag is cleared; otherwise the result is
     * `None`.
     */
    method RenderToBuffer(target: PixelBuffer) returns (r: Option<RenderRegion>)
      requires Valid() && target.Valid()
      requires target != buffer ==> target.Pixels != buffer.Pixels
      modifies this, target.Pixels
      ensures Valid()
      ensures target == buffer || OffTarget(cameraOffset, buffer.Width, buffer.Height, target.Width, target.Height) ==>
        forall x, y :: 0 <= x < target.Width && 0 <= y < target.Height ==> target.Pixels[x, y] == old(target.Pixels[x, y])
      ensures target != buffer ==>
        forall x, y :: 0 <= x < target.Width && 0 <= y < target.Height ==>
          target.Pixels[x, y] ==
            if InRect(cameraOffset, Dimensions(buffer.Width, buffer.Height), x, y)
               && !Skipped(if DrawLayerWithTransparency then Some(TransparentColor) else None,
                           LogicalPixel(x - cameraOffset.X, y - cameraOffset.Y))
            then LogicalPixel(x - cameraOffset.X, y - cameraOffset.Y)
            else old(target.Pixels[x, y])
      ensures r.Some? <==>
        target != buffer && !OffTarget(cameraOffset, buffer.Width, buffer.Height, target.Width, target.Height) && old(hasRenderChanges)
      ensures r.Some? ==>
        && r.value.X == Max(cameraOffset.X, 0) && r.value.Y == Max(cameraOffset.Y, 0)
        && (forall x, y :: Contains(r.value, x, y) <==>
              0 <= x < target.Width && 0 <= y < target.Height &&
              InRect(cameraOffset, Dimensions(buffer.Width, buffer.Height), x, y))
      ensures r.Some? ==>
        && r.value.Width == Min(cameraOffset.X + buffer.Width, target.Width) - Max(cameraOffset.X, 0)
        && r.value.Height == Min(cameraOffset.Y + buffer.Height, target.Height) - Max(cameraOffset.Y, 0)
      ensures hasRenderChanges ==
        (old(hasRenderChanges) && (target == buffer || OffTarget(cameraOffset, buffer.Width, buffer.Height, target.Width, target.Height)))
      ensures internalOrigin == old(internalOrigin) && cameraOffset == old(cameraOffset)
      ensures BackgroundColor == old(BackgroundColor) && TransparentColor == old(TransparentColor)
      ensures DrawLayerWithTransparency == old(DrawLayerWithTransparency)
    {
      if target == buffer {
        return None;
      }
      var w, h := buffer.Width, buffer.Height;
      var cam := cameraOffset;
      if OffTarget(cam, w, h, target.Width, target.Height) {
        return None;
      }
      var transparency := if DrawLayerWithTransparency then Some(TransparentColor) else None;
      DrawSeenThroughOrigin(target, transparency);
      if !hasRenderChanges {
        return None;
      }
      var startX := Max(cam.X, 0);
      var startY := Max(cam.Y, 0);
      var endX := Min(cam.X + w, target.Width);
      var endY := Min(cam.Y + h, target.Height);
      hasRenderChanges := false;
      r := Some(RenderRegion(startX, startY, endX - startX, endY - startY));
    }
  }
}

=== FILE: layer_geometry.dfy ===
/**
 * The pure rectangle arithmetic of `Layer` (Glade2d/Graphics/Layers/Layer.cs): clipping a
 * texture draw against the layer, splitting it into up to four pieces around the internal
 * origin, cutting the layer into four origin quadrants for rendering, and clipping each
 * quadrant against the render target.
 */
module LayerGeometry {
  import opened Wrappers
  import opened Geometry
  import opened Arithmetic
  import opened Pixels

  /** A rectangle on a layer: its top-left corner and its size. */
  datatype DrawableRectangle = DrawableRectangle(Start: Point, Dimensions: Dimensions)

  // ---------------------------------------------------------------------------------------
  // DrawTexture: clipping against the layer
  // ---------------------------------------------------------------------------------------

  /** The arguments of a texture draw after the parts that fall off the layer are trimmed. */
  datatype ClippedDraw = ClippedDraw(TopLeftOnTexture: Point, TopLeftOnLayer: Point, DrawSize: Dimensions)

  /**
   * The four edge clips of `DrawTexture`, left, right, top, bottom. The clipped rectangle is
   * the intersection of the requested one with the layer, and the texture start moves by
   * exactly what was trimmed from the left and the top.
   */
  function ClipToLayer(topLeftOnTexture: Point, topLeftOnLayer: Point, drawSize: Dimensions,
                       width: int, height: int): (c: ClippedDraw)
    ensures c.TopLeftOnLayer.X == Max(topLeftOnLayer.X, 0)
    ensures c.TopLeftOnLayer.X + c.DrawSize.Width == Min(topLeftOnLayer.X + drawSize.Width, width)
    ensures c.TopLeftOnLayer.Y == Max(topLeftOnLayer.Y, 0)
    ensures c.TopLeftOnLayer.Y + c.DrawSize.Height == Min(topLeftOnLayer.Y + drawSize.Height, height)
    ensures c.TopLeftOnTexture.X - c.TopLeftOnLayer.X == topLeftOnTexture.X - topLeftOnLayer.X
    ensures c.TopLeftOnTexture.Y - c.TopLeftOnLayer.Y == topLeftOnTexture.Y - topLeftOnLayer.Y
    ensures 0 <= c.TopLeftOnLayer.X && c.TopLeftOnLayer.X + c.DrawSize.Width <= width
    ensures 0 <= c.TopLeftOnLayer.Y && c.TopLeftOnLayer.Y + c.DrawSize.Height <= height
  {
    var c0 := ClippedDraw(topLeftOnTexture, topLeftOnLayer, drawSize);
    var c1 :=
      if c0.TopLeftOnLayer.X < 0 then
        var moveCount := -c0.TopLeftOnLayer.X;
        ClippedDraw(Point(c0.TopLeftOnTexture.X + moveCount, c0.TopLeftOnTexture.Y),
                    Point(0, c0.TopLeftOnLayer.Y),
                    Dimensions(c0.DrawSize.Width - moveCount, c0.DrawSize.Height))
      else c0;
    var c2 :=
      if c1.TopLeftOnLayer.X + c1.DrawSize.Width >= width then
        var moveCount := c1.TopLeftOnLayer.X + c1.DrawSize.Width - width;
        c1.(DrawSize := Dimensions(c1.DrawSize.Width - moveCount, c1.DrawSize.Height))
      else c1;
    var c3 :=
      if c2.TopLeftOnLayer.Y < 0 then
        var moveCount := -c2.TopLeftOnLayer.Y;
        // `new Point(topLeftOnLayer.X)`: the one-argument constructor leaves Y at 0
        ClippedDraw(Point(c2.TopLeftOnTexture.X, c2.TopLeftOnTexture.Y + moveCount),
                    Point(c2.TopLeftOnLayer.X, 0),
                    Dimensions(c2.DrawSize.Width, c2.DrawSize.Height - moveCount))
      else c2;
    var c4 :=
      if c3.TopLeftOnLayer.Y + c3.DrawSize.Height >= height then
        var moveCount := c3.TopLeftOnLayer.Y + c3.DrawSize.Height - height;
        c3.(DrawSize := Dimensions(c3.DrawSize.Width, c3.DrawSize.Height - moveCount))
      else c3;
    c4
  }

  // ---------------------------------------------------------------------------------------
  // DrawTexture: splitting around the internal origin
  // ---------------------------------------------------------------------------------------

  /**
   * One axis of a clipped draw once shifted by the internal origin: the shifted start, how far
   * the start itself lies past the layer edge (under-draw), how much of the draw lies past the
   * edge (overdraw), and where on the texture the wrapped part begins.
   */
  datatype AxisSplit = AxisSplit(Adjusted: int, UnderDraw: int, Overdraw: int, OverdrawTextureStart: int)

  /**
   * Splitting one axis: the wrapped part is never longer than the draw, and there is one
   * exactly when the shifted draw runs past the layer edge.
   */
  function SplitAxis(layerStart: int, textureStart: int, size: int, origin: int, dimension: int): (s: AxisSplit)
    ensures 0 <= s.Overdraw <= Max(size, 0)
    ensures 0 < size ==> (s.Overdraw == 0 <==> layerStart + origin + size <= dimension)
  {
    var adjusted := layerStart + origin;
    var underDraw := Max(adjusted - dimension, 0);
    var overdraw := Max(adjusted + size - dimension - underDraw, 0);
    AxisSplit(adjusted, underDraw, overdraw, textureStart + size - overdraw)
  }

  /** One blit of a texture draw: texture start, layer start and size. */
  datatype Piece = Piece(TextureStart: Point, LayerStart: Point, Size: Dimensions)

  /** The pieces `DrawTexture` blits, in its order; `None` for a piece it skips. */
  datatype WrapPieces = WrapPieces(
    BottomRight: Option<Piece>,
    BottomLeft: Option<Piece>,
    TopRight: Option<Piece>,
    TopLeft: Option<Piece>)

  /**
   * The four conditional blits of `DrawTexture`, with the conditions under which each is
   * issued. The wrapped pieces appear only for a draw that runs past the right or the bottom
   * edge once shifted by the origin; a draw that does not is one blit of the whole clipped
   * rectangle at its shifted position.
   */
  function SplitDraw(c: ClippedDraw, origin: Point, width: int, height: int): (w: WrapPieces)
    ensures 0 < c.DrawSize.Width && (w.BottomLeft.Some? || w.TopLeft.Some?) ==>
      c.TopLeftOnLayer.X + origin.X + c.DrawSize.Width > width
    ensures 0 < c.DrawSize.Height && (w.TopRight.Some? || w.TopLeft.Some?) ==>
      c.TopLeftOnLayer.Y + origin.Y + c.DrawSize.Height > height
    ensures 0 < c.DrawSize.Width && 0 < c.DrawSize.Height &&
            c.TopLeftOnLayer.X + origin.X + c.DrawSize.Width <= width &&
            c.TopLeftOnLayer.Y + origin.Y + c.DrawSize.Height <= height ==>
      w == WrapPieces(Some(Piece(c.TopLeftOnTexture, Point(c.TopLeftOnLayer.X + origin.X, c.TopLeftOnLayer.Y + origin.Y),
                                 c.DrawSize)),
                      None, None, None)
  {
    var h := SplitAxis(c.TopLeftOnLayer.X, c.TopLeftOnTexture.X, c.DrawSize.Width, origin.X, width);
    var v := SplitAxis(c.TopLeftOnLayer.Y, c.TopLeftOnTexture.Y, c.DrawSize.Height, origin.Y, height);
    WrapPieces(
      if h.Adjusted < width && v.Adjusted < height then
        Some(Piece(c.TopLeftOnTexture, Point(h.Adjusted, v.Adjusted),
                   Dimensions(c.DrawSize.Width - h.Overdraw, c.DrawSize.Height - v.Overdraw)))
      else None,
      if h.Overdraw > 0 && v.Adjusted < height then
        Some(Piece(Point(h.OverdrawTextureStart, c.TopLeftOnTexture.Y), Point(h.UnderDraw, v.Adjusted),
                   Dimensions(h.Overdraw, c.DrawSize.Height - v.Overdraw)))
      else None,
      if v.Overdraw > 0 then
        Some(Piece(Point(c.TopLeftOnTexture.X, v.OverdrawTextureStart), Point(h.Adjusted, v.UnderDraw),
                   Dimensions(c.DrawSize.Width - h.Overdraw, v.Overdraw)))
      else None,
      if h.Overdraw > 0 && v.Overdraw > 0 then
        Some(Piece(Point(h.OverdrawTextureStart, v.OverdrawTextureStart), Point(h.UnderDraw, v.UnderDraw),
                   Dimensions(h.Overdraw, v.Overdraw)))
      else None)
  }

  /** Whether a (possibly skipped) piece writes layer pixel (x, y). */
  predicate PieceCovers(p: Option<Piece>, x: int, y: int)
  {
    p.Some? && InRect(p.value.LayerStart, p.value.Size, x, y)
  }

  /** The texture pixel a piece copies to layer pixel (x, y). */
  function PieceTexturePoint(p: Piece, x: int, y: int): Point
  {
    Point(p.TextureStart.X + x - p.LayerStart.X, p.TextureStart.Y + y - p.LayerStart.Y)
  }

  /** How many of the four pieces write layer pixel (x, y). */
  function CoverCount(w: WrapPieces, x: int, y: int): nat
  {
    (if PieceCovers(w.BottomRight, x, y) then 1 else 0) + (if PieceCovers(w.BottomLeft, x, y) then 1 else 0)
    + (if PieceCovers(w.TopRight, x, y) then 1 else 0) + (if PieceCovers(w.TopLeft, x, y) then 1 else 0)
  }

  /** The piece that writes layer pixel (x, y), when pieces never overlap. */
  function CoveringPiece(w: WrapPieces, x: int, y: int): Option<Piece>
  {
    if PieceCovers(w.BottomRight, x, y) then w.BottomRight
    else if PieceCovers(w.BottomLeft, x, y) then w.BottomLeft
    else if PieceCovers(w.TopRight, x, y) then w.TopRight
    else w.TopLeft
  }

  /** No two pieces write the same pixel of a width x height layer. */
  predicate Disjoint(w: WrapPieces, width: int, height: int)
  {
    forall x, y :: 0 <= x < width && 0 <= y < height ==> CoverCount(w, x, y) <= 1
  }

  /**
   * A piece that is skipped or empty, or that lies on a layer of the given size and reads
   * only from the clipped texture rectangle.
   */
  predicate PieceInside(p: Option<Piece>, c: ClippedDraw, width: int, height: int)
  {
    p.Some? && p.value.Size.Width > 0 && p.value.Size.Height > 0 ==>
      && 0 <= p.value.LayerStart.X && p.value.LayerStart.X + p.value.Size.Width <= width
      && 0 <= p.value.LayerStart.Y && p.value.LayerStart.Y + p.value.Size.Height <= height
      && c.TopLeftOnTexture.X <= p.value.TextureStart.X
      && p.value.TextureStart.X + p.value.Size.Width <= c.TopLeftOnTexture.X + c.DrawSize.Width
      && c.TopLeftOnTexture.Y <= p.value.TextureStart.Y
      && p.value.TextureStart.Y + p.value.Size.Height <= c.TopLeftOnTexture.Y + c.DrawSize.Height
  }

  /** If the piece writes layer pixel (x, y), it writes texture pixel t there. */
  predicate PieceMapsTo(p: Option<Piece>, x: int, y: int, t: Point)
  {
    PieceCovers(p, x, y) ==> PieceTexturePoint(p.value, x, y) == t
  }

  /** A clipped draw that is not empty and lies on a layer of the given size. */
  predicate OnLayer(c: ClippedDraw, width: int, height: int)
  {
    && 0 <= c.TopLeftOnLayer.X && 0 < c.DrawSize.Width && c.TopLeftOnLayer.X + c.DrawSize.Width <= width
    && 0 <= c.TopLeftOnLayer.Y && 0 < c.DrawSize.Height && c.TopLeftOnLayer.Y + c.DrawSize.Height <= height
  }

  /** The segment right of the edge and the wrapped segment of one axis stay on the layer. */
  lemma SplitAxisInside(start: int, textureStart: int, size: int, origin: int, dimension: int)
    requires 0 <= start && 0 < size && start + size <= dimension && 0 <= origin < dimension
    ensures var s := SplitAxis(start, textureStart, size, origin, dimension);
      && 0 <= s.Overdraw <= size
      && (s.Adjusted >= dimension ==> s.Overdraw == size)
      && (size - s.Overdraw > 0 ==> 0 <= s.Adjusted && s.Adjusted + size - s.Overdraw <= dimension)
      && (s.Overdraw > 0 ==> 0 <= s.UnderDraw && s.UnderDraw + s.Overdraw <= dimension)
  {
  }

  /**
   * Where logical coordinate v is stored once the origin is added: v + origin itself, or that
   * minus the dimension when it runs past the edge.
   */
  lemma StoredCoordinate(v: int, origin: int, dimension: int)
    requires 0 <= v < dimension && 0 <= origin < dimension
    ensures var p := (v + origin) % dimension;
      0 <= p < dimension && (p == v + origin || p == v + origin - dimension)
  {
    if v + origin < dimension {
      DivModUnique(v + origin, dimension, 0, v + origin);
    } else {
      DivModUnique(v + origin, dimension, 1, v + origin - dimension);
    }
  }

  /** Whether buffer coordinate p stores logical coordinate v for the given origin. */
  predicate StoredAt(v: int, origin: int, dimension: int, p: int)
  {
    0 <= p < dimension && (p == v + origin || p == v + origin - dimension)
  }

  /**
   * One axis, for logical coordinate v stored at buffer coordinate p: p is written by at most
   * one of the two segments, it is written exactly when v lies in the clipped draw, and the
   * texture coordinate it receives is the start plus the offset of v in the draw.
   */
  lemma SplitAxisCovers(start: int, textureStart: int, size: int, origin: int, dimension: int, v: int, p: int)
    requires 0 <= start && 0 < size && start + size <= dimension && 0 <= origin < dimension
    requires 0 <= v < dimension && StoredAt(v, origin, dimension, p)
    ensures var s := SplitAxis(start, textureStart, size, origin, dimension);
      var inMain := s.Adjusted <= p < s.Adjusted + size - s.Overdraw;
      var inWrapped := s.UnderDraw <= p < s.UnderDraw + s.Overdraw;
      && !(inMain && inWrapped)
      && ((inMain || inWrapped) <==> start <= v < start + size)
      && (inMain ==> textureStart + p - s.Adjusted == textureStart + v - start)
      && (inWrapped ==> s.OverdrawTextureStart + p - s.UnderDraw == textureStart + v - start)
  {
  }

  /** Every piece of a non-empty clipped draw lies on the layer and reads only the clipped texture rectangle. */
  lemma SplitDrawInside(c: ClippedDraw, origin: Point, width: int, height: int)
    requires OnLayer(c, width, height)
    requires 0 <= origin.X < width && 0 <= origin.Y < height
    ensures var w := SplitDraw(c, origin, width, height);
      && PieceInside(w.BottomRight, c, width, height) && PieceInside(w.BottomLeft, c, width, height)
      && PieceInside(w.TopRight, c, width, height) && PieceInside(w.TopLeft, c, width, height)
  {
    SplitAxisInside(c.TopLeftOnLayer.X, c.TopLeftOnTexture.X, c.DrawSize.Width, origin.X, width);
    SplitAxisInside(c.TopLeftOnLayer.Y, c.TopLeftOnTexture.Y, c.DrawSize.Height, origin.Y, height);
  }

  /** The pieces of a non-empty clipped draw cover the buffer pixel storing (x, y) exactly when (x, y) lies in the draw. */
  lemma SplitDrawCovers(c: ClippedDraw, origin: Point, width: int, height: int, x: int, y: int, px: int, py: int)
    requires OnLayer(c, width, height)
    requires 0 <= origin.X < width && 0 <= origin.Y < height
    requires 0 <= x < width && 0 <= y < height
    requires StoredAt(x, origin.X, width, px) && StoredAt(y, origin.Y, height, py)
    ensures var w := SplitDraw(c, origin, width, height);
      PieceCovers(CoveringPiece(w, px, py), px, py) <==> InRect(c.TopLeftOnLayer, c.DrawSize, x, y)
  {
    SplitAxisInside(c.TopLeftOnLayer.X, c.TopLeftOnTexture.X, c.DrawSize.Width, origin.X, width);
    SplitAxisInside(c.TopLeftOnLayer.Y, c.TopLeftOnTexture.Y, c.DrawSize.Height, origin.Y, height);
    SplitAxisCovers(c.TopLeftOnLayer.X, c.TopLeftOnTexture.X, c.DrawSize.Width, origin.X, width, x, px);
    SplitAxisCovers(c.TopLeftOnLayer.Y, c.TopLeftOnTexture.Y, c.DrawSize.Height, origin.Y, height, y, py);
  }

  /** The piece covering the buffer pixel storing (x, y) reads the texture at the offset of (x, y) in the draw. */
  lemma SplitDrawTexturePoint(c: ClippedDraw, origin: Point, width: int, height: int, x: int, y: int, px: int, py: int)
    requires OnLayer(c, width, height)
    requires 0 <= origin.X < width && 0 <= origin.Y < height
    requires 0 <= x < width && 0 <= y < height
    requires StoredAt(x, origin.X, width, px) && StoredAt(y, origin.Y, height, py)
    ensures var w := SplitDraw(c, origin, width, height);
      var p := CoveringPiece(w, px, py);
      PieceCovers(p, px, py) ==>
        PieceTexturePoint(p.value, px, py) ==
        Point(c.TopLeftOnTexture.X + x - c.TopLeftOnLayer.X, c.TopLeftOnTexture.Y + y - c.TopLeftOnLayer.Y)
  {
    SplitAxisInside(c.TopLeftOnLayer.X, c.TopLeftOnTexture.X, c.DrawSize.Width, origin.X, width);
    SplitAxisInside(c.TopLeftOnLayer.Y, c.TopLeftOnTexture.Y, c.DrawSize.Height, origin.Y, height);
    SplitAxisCovers(c.TopLeftOnLayer.X, c.TopLeftOnTexture.X, c.DrawSize.Width, origin.X, width, x, px);
    SplitAxisCovers(c.TopLeftOnLayer.Y, c.TopLeftOnTexture.Y, c.DrawSize.Height, origin.Y, height, y, py);
  }

  /**
   * The pieces of a non-empty clipped draw, at the buffer pixel that stores logical pixel
   * (x, y): it is written at most once, it is written exactly when (x, y) lies in the clipped
   * draw, and it then receives the texture pixel at the offset of (x, y) in the draw.
   */
  lemma SplitDrawPartition(c: ClippedDraw, origin: Point, width: int, height: int, x: int, y: int, px: int, py: int)
    requires OnLayer(c, width, height)
    requires 0 <= origin.X < width && 0 <= origin.Y < height
    requires 0 <= x < width && 0 <= y < height
    requires StoredAt(x, origin.X, width, px) && StoredAt(y, origin.Y, height, py)
    ensures var w := SplitDraw(c, origin, width, height);
      var p := CoveringPiece(w, px, py);
      && CoverCount(w, px, py) <= 1
      && (PieceCovers(p, px, py) <==> InRect(c.TopLeftOnLayer, c.DrawSize, x, y))
      && (PieceCovers(p, px, py) ==>
            PieceTexturePoint(p.value, px, py) ==
            Point(c.TopLeftOnTexture.X + x - c.TopLeftOnLayer.X, c.TopLeftOnTexture.Y + y - c.TopLeftOnLayer.Y))
  {
    SplitDrawDisjoint(c, origin, width, height);
    SplitDrawCovers(c, origin, width, height, x, y, px, py);
    SplitDrawTexturePoint(c, origin, width, height, x, y, px, py);
  }

  /** One axis: the segment right of the edge and the wrapped segment never share a coordinate. */
  lemma SplitAxisDisjoint(start: int, textureStart: int, size: int, origin: int, dimension: int, p: int)
    requires 0 <= start && 0 < size && start + size <= dimension && 0 <= origin < dimension
    requires 0 <= p < dimension
    ensures var s := SplitAxis(start, textureStart, size, origin, dimension);
      !(s.Adjusted <= p < s.Adjusted + size - s.Overdraw && s.UnderDraw <= p < s.UnderDraw + s.Overdraw)
  {
  }

  /** The pieces of a non-empty clipped draw never write the same layer pixel twice. */
  lemma SplitDrawDisjoint(c: ClippedDraw, origin: Point, width: int, height: int)
    requires OnLayer(c, width, height)
    requires 0 <= origin.X < width && 0 <= origin.Y < height
    ensures Disjoint(SplitDraw(c, origin, width, height), width, height)
  {
    forall x, y | 0 <= x < width && 0 <= y < height
      ensures CoverCount(SplitDraw(c, origin, width, height), x, y) <= 1
    {
      SplitAxisDisjoint(c.TopLeftOnLayer.X, c.TopLeftOnTexture.X, c.DrawSize.Width, origin.X, width, x);
      SplitAxisDisjoint(c.TopLeftOnLayer.Y, c.TopLeftOnTexture.Y, c.DrawSize.Height, origin.Y, height, y);
    }
  }

  // ---------------------------------------------------------------------------------------
  // RenderToBuffer: origin quadrants and their placement on the target
  // ---------------------------------------------------------------------------------------

  datatype Quadrants = Quadrants(
    TopLeft: DrawableRectangle,
    TopRight: DrawableRectangle,
    BottomLeft: DrawableRectangle,
    BottomRight: DrawableRectangle)

  /**
   * The layer cut at its internal origin into four quadrants: the bottom-right one starts at
   * the origin, the left and right columns together span the width, and the top and bottom
   * rows together span the height.
   */
  function RenderQuadrants(origin: Point, width: int, height: int): (q: Quadrants)
    ensures q.BottomRight.Start == origin && q.TopLeft.Start == Point(0, 0)
    ensures q.TopLeft.Dimensions.Width + q.TopRight.Dimensions.Width == width
    ensures q.BottomLeft.Dimensions.Width + q.BottomRight.Dimensions.Width == width
    ensures q.TopLeft.Dimensions.Height + q.BottomLeft.Dimensions.Height == height
    ensures q.TopRight.Dimensions.Height + q.BottomRight.Dimensions.Height == height
  {
    Quadrants(
      DrawableRectangle(Point(0, 0), Dimensions(origin.X, origin.Y)),
      DrawableRectangle(Point(origin.X, 0), Dimensions(width - origin.X, origin.Y)),
      DrawableRectangle(Point(0, origin.Y), Dimensions(origin.X, height - origin.Y)),
      DrawableRectangle(origin, Dimensions(width - origin.X, height - origin.Y)))
  }

  /**
   * Where each quadrant goes on the target, before the camera offset, in drawing order:
   * bottom-right at (0, 0), bottom-left right of it, top-right below it, top-left diagonally.
   */
  function QuadrantPlacements(q: Quadrants): (ps: seq<(DrawableRectangle, Point)>)
    ensures |ps| == 4 && ps[0] == (q.BottomRight, Point(0, 0))
    ensures {ps[0].0, ps[1].0, ps[2].0, ps[3].0} == {q.TopLeft, q.TopRight, q.BottomLeft, q.BottomRight}
  {
    [ (q.BottomRight, Point(0, 0)),
      (q.BottomLeft, Point(q.BottomRight.Dimensions.Width, 0)),
      (q.TopRight, Point(0, q.BottomRight.Dimensions.Height)),
      (q.TopLeft, Point(q.BottomRight.Dimensions.Width, q.BottomRight.Dimensions.Height)) ]
  }

  predicate InDrawable(r: DrawableRectangle, x: int, y: int)
  {
    InRect(r.Start, r.Dimensions, x, y)
  }

  /**
   * The quadrants partition the layer, each lies on it, and the placements put layer pixel
   * (x, y) at ((x - originX) mod width, (y - originY) mod height): the internal origin becomes
   * the top-left corner of what is rendered.
   */
  lemma RenderQuadrantsPartition(origin: Point, width: int, height: int, x: int, y: int)
    requires 0 <= origin.X < width && 0 <= origin.Y < height
    requires 0 <= x < width && 0 <= y < height
    ensures var ps := QuadrantPlacements(RenderQuadrants(origin, width, height));
      && |set k | 0 <= k < 4 && InDrawable(ps[k].0, x, y)| == 1
      && (forall k :: 0 <= k < 4 ==>
            0 <= ps[k].0.Start.X && ps[k].0.Start.X + ps[k].0.Dimensions.Width <= width &&
            0 <= ps[k].0.Start.Y && ps[k].0.Start.Y + ps[k].0.Dimensions.Height <= height)
      && (forall k :: 0 <= k < 4 && InDrawable(ps[k].0, x, y) ==>
            ps[k].1.X + x - ps[k].0.Start.X == (x - origin.X) % width &&
            ps[k].1.Y + y - ps[k].0.Start.Y == (y - origin.Y) % height)
  {
    var ps := QuadrantPlacements(RenderQuadrants(origin, width, height));
    var inX := x >= origin.X;
    var inY := y >= origin.Y;
    var k := if inX && inY then 0 else if inY then 1 else if inX then 2 else 3;
    assert forall m :: 0 <= m < 4 ==> (InDrawable(ps[m].0, x, y) <==> m == k);
    assert (set m | 0 <= m < 4 && InDrawable(ps[m].0, x, y)) == {k};
    if inX {
      DivModUnique(x - origin.X, width, 0, x - origin.X);
    } else {
      DivModUnique(x - origin.X, width, -1, x - origin.X + width);
    }
    if inY {
      DivModUnique(y - origin.Y, height, 0, y - origin.Y);
    } else {
      DivModUnique(y - origin.Y, height, -1, y - origin.Y + height);
    }
  }

  /** The part of one axis of a quadrant that lands on the target. */
  datatype AxisSpan = AxisSpan(LayerStart: int, TargetStart: int, Dimension: int)

  /**
   * `CalculateAxis`: the quadrant's axis placed at targetOrigin + offset, intersected with
   * [0, targetDimension). `None` exactly when the two do not meet; otherwise the span is the
   * intersection and the layer start moves by what was cut off at the low end.
   */
  function CalculateAxis(layerStart: int, offset: int, quadrantDimension: int, targetDimension: int,
                         targetOrigin: int): (r: Option<AxisSpan>)
    ensures r.None? <==> targetOrigin + offset >= targetDimension || targetOrigin + offset + quadrantDimension <= 0
    ensures r.Some? ==>
      && r.value.TargetStart == Max(targetOrigin + offset, 0)
      && r.value.TargetStart + r.value.Dimension == Min(targetOrigin + offset + quadrantDimension, targetDimension)
      && r.value.LayerStart - layerStart == r.value.TargetStart - (targetOrigin + offset)
    ensures r.Some? && targetDimension > 0 && quadrantDimension > 0 ==>
      0 <= r.value.TargetStart && 0 < r.value.Dimension && r.value.TargetStart + r.value.Dimension <= targetDimension
  {
    var targetStart := targetOrigin + offset;
    var targetEnd := targetStart + quadrantDimension;
    if targetStart >= targetDimension || targetEnd <= 0 then None
    else
      var layerStart' := if targetStart < 0 then layerStart + -targetStart else layerStart;
      var targetStart' := if targetStart < 0 then 0 else targetStart;
      var dimension := targetEnd - targetStart';
      var overdraw := (targetStart' + dimension) - targetDimension;
      var dimension' := if overdraw > 0 then dimension - overdraw else dimension;
      Some(AxisSpan(layerStart', targetStart', dimension'))
  }

  /** The blit `CalculateDrawOperation` describes: layer start, target start and size. */
  datatype Placement = Placement(LayerStart: Point, TargetStart: Point, Size: Dimensions)

  /** Whether a (possibly absent) placement writes target pixel (x, y). */
  predicate PlacementCovers(p: Option<Placement>, x: int, y: int)
  {
    p.Some? && InRect(p.value.TargetStart, p.value.Size, x, y)
  }

  /**
   * `CalculateDrawOperation`: the quadrant placed at targetOrigin + camera and clipped to the
   * target. It writes exactly the target pixels the placed quadrant covers, each from the
   * quadrant pixel at the same offset, and stays inside both the quadrant and the target.
   */
  function CalculateDrawOperation(quadrant: DrawableRectangle, targetWidth: int, targetHeight: int,
                                  targetOrigin: Point, camera: Point): (r: Option<Placement>)
    requires targetWidth >= 0 && targetHeight >= 0
    ensures forall x, y :: PlacementCovers(r, x, y) <==>
      0 <= x < targetWidth && 0 <= y < targetHeight &&
      InRect(Point(targetOrigin.X + camera.X, targetOrigin.Y + camera.Y), quadrant.Dimensions, x, y)
    ensures r.Some? ==>
      && r.value.LayerStart.X - quadrant.Start.X == r.value.TargetStart.X - (targetOrigin.X + camera.X)
      && r.value.LayerStart.Y - quadrant.Start.Y == r.value.TargetStart.Y - (targetOrigin.Y + camera.Y)
      && 0 <= r.value.Size.Width && 0 <= r.value.Size.Height
      && 0 <= r.value.TargetStart.X && r.value.TargetStart.X + r.value.Size.Width <= targetWidth
      && 0 <= r.value.TargetStart.Y && r.value.TargetStart.Y + r.value.Size.Height <= targetHeight
      && quadrant.Start.X <= r.value.LayerStart.X
      && r.value.LayerStart.X + r.value.Size.Width <= quadrant.Start.X + quadrant.Dimensions.Width
      && quadrant.Start.Y <= r.value.LayerStart.Y
      && r.value.LayerStart.Y + r.value.Size.Height <= quadrant.Start.Y + quadrant.Dimensions.Height
  {
    if quadrant.Dimensions.Width <= 0 || quadrant.Dimensions.Height <= 0 then None
    else
      var horizontal := CalculateAxis(quadrant.Start.X, camera.X, quadrant.Dimensions.Width, targetWidth, targetOrigin.X);
      var vertical := CalculateAxis(quadrant.Start.Y, camera.Y, quadrant.Dimensions.Height, targetHeight, targetOrigin.Y);
      if horizontal.None? || vertical.None? then None
      else
        Some(Placement(
          Point(horizontal.value.LayerStart, vertical.value.LayerStart),
          Point(horizontal.value.TargetStart, vertical.value.TargetStart),
          Dimensions(horizontal.value.Dimension, vertical.value.Dimension)))
  }

  /**
   * Target side of the placement, one axis: the quadrant right of the origin, placed at
   * `camera`, and the quadrant left of it, placed at camera + dimension - origin, cover each
   * target coordinate v at most once, together exactly [camera, camera + dimension), and v then
   * shows layer coordinate (v - camera + origin) mod dimension.
   */
  lemma PlacementAxis(origin: int, dimension: int, camera: int, v: int)
    requires 0 <= origin < dimension
    ensures var inRight := camera <= v < camera + (dimension - origin);
      var inLeft := camera + (dimension - origin) <= v < camera + (dimension - origin) + origin;
      && !(inRight && inLeft)
      && ((inRight || inLeft) <==> camera <= v < camera + dimension)
      && (inRight ==> origin + v - camera == (v - camera + origin) % dimension)
      && (inLeft ==> 0 + v - (camera + (dimension - origin)) == (v - camera + origin) % dimension)
  {
    var k := v - camera + origin;
    if camera <= v < camera + (dimension - origin) {
      DivModUnique(k, dimension, 0, k);
    } else if camera + (dimension - origin) <= v < camera + dimension {
      DivModUnique(k, dimension, 1, k - dimension);
    }
  }
}

=== FILE: pixels.dfy ===
/**
 * RGB565 pixel buffers and the blit primitive the layer code is built on
 * (`BufferRgb565` and `Drawing.ExecuteOperation`, which are outside this model and are
 * given here by their contracts).
 */
module Pixels {
  import opened Wrappers
  import opened Geometry

  /** A 16-bit 5:6:5 colour value. */
  type Pixel = p: int | 0 <= p < 0x1_0000

  /** `Color.Black` in RGB565. */
  const Black: Pixel := 0x0000
  /** `Color.Magenta` (255, 0, 255) in RGB565. */
  const Magenta: Pixel := 0xF81F

  /** A Width x Height grid of pixels, addressed as `Pixels[x, y]`. */
  class PixelBuffer {
    const Width: nat
    const Height: nat
    const Pixels: array2<Pixel>

    predicate Valid()
    {
      Pixels.Length0 == Width && Pixels.Length1 == Height
    }

    constructor (width: nat, height: nat)
      ensures Valid() && Width == width && Height == height && fresh(Pixels)
    {
      Width, Height := width, height;
      Pixels := new Pixel[width, height];
    }

    /** `BufferRgb565.Clear(color)`: every pixel becomes `color`. */
    method Fill(color: Pixel)
      requires Valid()
      modifies Pixels
      ensures forall x, y :: 0 <= x < Width && 0 <= y < Height ==> Pixels[x, y] == color
    {
      forall x, y | 0 <= x < Width && 0 <= y < Height {
        Pixels[x, y] := color;
      }
    }
  }

  /** Whether (x, y) lies in the rectangle with top-left `start` and size `size`. */
  predicate InRect(start: Point, size: Dimensions, x: int, y: int)
  {
    start.X <= x < start.X + size.Width && start.Y <= y < start.Y + size.Height
  }

  /** Whether a rectangle lies inside a buffer. */
  predicate RectInside(start: Point, size: Dimensions, b: PixelBuffer)
  {
    0 <= start.X && start.X + size.Width <= b.Width && 0 <= start.Y && start.Y + size.Height <= b.Height
  }

  /** A source pixel is skipped when a transparent colour is given and the pixel has it. */
  predicate Skipped(transparency: Option<Pixel>, p: Pixel)
  {
    transparency.Some? && p == transparency.value
  }

  /** `Drawing.Operation`: copy a Size rectangle from Source at SourceStart to Target at TargetStart. */
  datatype Operation = Operation(
    Source: PixelBuffer,
    Target: PixelBuffer,
    SourceStart: Point,
    TargetStart: Point,
    Size: Dimensions,
    Transparency: Option<Pixel>)

  /**
   * `Drawing.ExecuteOperation`: every target pixel of the rectangle receives the source pixel
   * at the same offset in the source rectangle, except source pixels equal to the transparent
   * colour; nothing else changes. A rectangle of zero or negative size is a no-op; a
   * non-empty one must lie inside both buffers.
   */
  method ExecuteOperation(op: Operation)
    requires op.Source.Valid() && op.Target.Valid()
    requires op.Size.Width > 0 && op.Size.Height > 0 ==>
               RectInside(op.SourceStart, op.Size, op.Source) && RectInside(op.TargetStart, op.Size, op.Target)
    modifies op.Target.Pixels
    ensures forall x, y :: 0 <= x < op.Target.Width && 0 <= y < op.Target.Height ==>
      op.Target.Pixels[x, y] ==
        if InRect(op.TargetStart, op.Size, x, y)
           && !Skipped(op.Transparency,
                       old(op.Source.Pixels[op.SourceStart.X + x - op.TargetStart.X,
                                            op.SourceStart.Y + y - op.TargetStart.Y]))
        then old(op.Source.Pixels[op.SourceStart.X + x - op.TargetStart.X,
                                  op.SourceStart.Y + y - op.TargetStart.Y])
        else old(op.Target.Pixels[x, y])
  {
    var src, dst := op.Source, op.Target;
    var dx, dy := op.SourceStart.X - op.TargetStart.X, op.SourceStart.Y - op.TargetStart.Y;
    forall x, y | 0 <= x < dst.Width && 0 <= y < dst.Height && InRect(op.TargetStart, op.Size, x, y)
                  && !Skipped(op.Transparency, src.Pixels[x + dx, y + dy])
    {
      dst.Pixels[x, y] := src.Pixels[x + dx, y + dy];
    }
  }
}

=== FILE: scoreboard.dfy ===
/**
 * The four-character LED scoreboard of the sample game
 * (Samples/GladeInvade.ProjectLab/Ht16k33LedScoreboard.cs). Each printable ASCII character
 * maps through a table to a 14-segment pattern, and each set bit of the pattern turns on one
 * LED of the character's slot on an HT16K33 driver.
 */
module Scoreboards {
  import opened Bytes

  /** The LED of segment a..n in slot 0; slot s uses the LED s further on. */
  const SegmentIndices: seq<int> := [0, 16, 32, 48, 64, 80, 96, 20, 4, 36, 52, 68, 84, 100]

  /** A C# `ushort` that fits in fourteen bits, one per segment. */
  type Pattern = d: bv16 | d < 0x4000

  /** The segment pattern of ASCII 32..127, bit 0 for segment a up to bit 13 for segment n; every entry fits in fourteen bits. */
  const FourteenSegmentAscii: seq<Pattern> := [
    0x0000, 0x0208, 0x0202, 0x134E, 0x136D, 0x2424, 0x0CD9, 0x0200,
    0x0039, 0x000F, 0x3E80, 0x1340, 0x2000, 0x0140, 0x0000, 0x2400,
    0x003F, 0x0406, 0x015B, 0x014F, 0x0166, 0x016D, 0x017D, 0x1401,
    0x017F, 0x0167, 0x0000, 0x2200, 0x0C00, 0x0148, 0x1080, 0x1103,
    0x033B, 0x0177, 0x130F, 0x0039, 0x120F, 0x0179, 0x0171, 0x013D,
    0x0176, 0x1209, 0x001E, 0x0C70, 0x0038, 0x04B6, 0x08B6, 0x003F,
    0x0173, 0x083F, 0x0973, 0x018D, 0x1201, 0x003E, 0x2430, 0x2836,
    0x2C80, 0x1480, 0x2409, 0x0039, 0x0880, 0x000F, 0x2800, 0x0008,
    0x0080, 0x015F, 0x0878, 0x0158, 0x210E, 0x0079, 0x0071, 0x018F,
    0x0174, 0x1000, 0x000E, 0x1E00, 0x1200, 0x1154, 0x0850, 0x015C,
    0x0471, 0x0963, 0x0050, 0x018D, 0x0078, 0x001C, 0x2010, 0x2814,
    0x2C80, 0x030E, 0x2409, 0x20C9, 0x1200, 0x0D09, 0x0152, 0x3FFF
  ]

  /** Number of character slots. */
  const Slots: int := 4

  /** `((data >> bit) & 1) != 0`. */
  predicate BitSet(data: bv16, bit: int)
    requires 0 <= bit < 16
  {
    (data >> bit) & 1 != 0
  }

  /** A character the table covers: `32 <= character <= 126`. */
  predicate Printable(c: char)
  {
    32 <= c as int <= 126
  }

  /** The table covers ASCII 32..127, so `character - 32` for a character up to 126 is in bounds. */
  lemma TableCovers(c: char)
    requires Printable(c)
    ensures 0 <= c as int - 32 < |FourteenSegmentAscii| - 1
  {
  }

  /** A fourteen-bit pattern has only bits below 14 set, so `SegmentIndices[bit]` stays in bounds. */
  lemma SetBitsBelow14(data: Pattern, bit: int)
    requires 0 <= bit < 16 && BitSet(data, bit)
    ensures bit < |SegmentIndices|
  {
  }

  /** `(byte)(SegmentIndices[bit] + slot)`. */
  function LedIndex(bit: int, slot: Byte): Byte
    requires 0 <= bit < |SegmentIndices|
  {
    (SegmentIndices[bit] + slot) % 0x100
  }

  /** In a valid slot the cast never wraps: the LED index is at most 103 and lies in the slot's column. */
  lemma LedIndexInSlot(bit: int, slot: Byte)
    requires 0 <= bit < |SegmentIndices| && slot < Slots
    ensures LedIndex(bit, slot) == SegmentIndices[bit] + slot <= 103
    ensures LedIndex(bit, slot) % Slots == slot
  {
  }

  /** Every segment's LED in slot 0 is a multiple of 4 no larger than 100, so in slot `slot` it lies in that slot's column. */
  lemma SegmentColumn(b: int, slot: int)
    requires 0 <= b < |SegmentIndices| && 0 <= slot < Slots
    ensures 0 <= SegmentIndices[b] + slot <= 103 && (SegmentIndices[b] + slot) % Slots == slot
  {
  }

  /** No two segments share a LED. */
  lemma SegmentsDistinct(b: int, b': int)
    requires 0 <= b < |SegmentIndices| && 0 <= b' < |SegmentIndices| && SegmentIndices[b] == SegmentIndices[b']
    ensures b == b'
  {
  }

  /** The LEDs of the set bits below `n` of a pattern, in a slot. */
  function Lit(data: bv16, slot: int, n: int): set<int>
    requires n <= 16
    decreases n
  {
    if n <= 0 then {}
    else Lit(data, slot, n - 1) + if n - 1 < |SegmentIndices| && BitSet(data, n - 1) then {SegmentIndices[n - 1] + slot} else {}
  }

  /** A LED is lit by the bits below n exactly when it belongs to one of them that is set. */
  lemma {:induction false} LitMembers(data: bv16, slot: int, n: int, l: int)
    requires n <= 16
    ensures l in Lit(data, slot, n) <==>
      exists b :: 0 <= b < n && b < |SegmentIndices| && BitSet(data, b) && l == SegmentIndices[b] + slot
  {
    if n > 0 {
      LitMembers(data, slot, n - 1, l);
      var below := exists b :: 0 <= b < n - 1 && b < |SegmentIndices| && BitSet(data, b) && l == SegmentIndices[b] + slot;
      var last := n - 1 < |SegmentIndices| && BitSet(data, n - 1) && l == SegmentIndices[n - 1] + slot;
      assert l in Lit(data, slot, n) <==> below || last;
      if below {
        var b :| 0 <= b < n - 1 && b < |SegmentIndices| && BitSet(data, b) && l == SegmentIndices[b] + slot;
        assert 0 <= b < n;
      } else if last {
        assert 0 <= n - 1 < n;
      } else {
        forall b | 0 <= b < n && b < |SegmentIndices| && BitSet(data, b)
          ensures l != SegmentIndices[b] + slot
        {
          if b < n - 1 {
            assert !(0 <= b < n - 1 && b < |SegmentIndices| && BitSet(data, b) && l == SegmentIndices[b] + slot);
          }
        }
      }
    }
  }

  /** Every LED a pattern lights in a valid slot is in that slot's column and at most 103. */
  lemma {:induction false} LitInSlot(data: bv16, slot: int, n: int)
    requires 0 <= slot < Slots && n <= 16
    ensures forall l :: l in Lit(data, slot, n) ==> 0 <= l <= 103 && l % Slots == slot
  {
    if n > 0 {
      LitInSlot(data, slot, n - 1);
      if n - 1 < |SegmentIndices| {
        SegmentColumn(n - 1, slot);
      }
    }
  }

  /** Bits 14 and 15 have no segment, so a 16-bit scan lights what a 14-bit one does. */
  lemma LitPastSegments(data: bv16, slot: int)
    ensures Lit(data, slot, 16) == Lit(data, slot, |SegmentIndices|)
  {
    assert Lit(data, slot, 16) == Lit(data, slot, 15);
  }

  /** One more bit of the loop: its LED joins the lit ones if the bit is set. */
  lemma LitAdvance(base: set<int>, data: bv16, slot: int, bit: int, before: set<int>, after: set<int>)
    requires 0 <= bit < 16
    requires before == base + Lit(data, slot, bit)
    requires after == before + if bit < |SegmentIndices| && BitSet(data, bit) then {SegmentIndices[bit] + slot} else {}
    ensures after == base + Lit(data, slot, bit + 1)
  {
  }

  /**
   * The LEDs `DisplayCharacter(c, slot)` turns on: none for a slot of 4 or more or a character
   * outside 32..126, and otherwise those of the character's pattern in that slot.
   */
  function Glyph(c: char, slot: int): (r: set<int>)
    ensures forall l :: l in r ==> 0 <= slot < Slots && Printable(c) && 0 <= l <= 103 && l % Slots == slot
  {
    if slot < 0 || slot >= Slots || !Printable(c) then {}
    else
      LitInSlot(FourteenSegmentAscii[c as int - 32], slot, |SegmentIndices|);
      Lit(FourteenSegmentAscii[c as int - 32], slot, |SegmentIndices|)
  }

  /** A printable character in a valid slot lights segment b's LED exactly when bit b of its pattern is set. */
  lemma GlyphSegments(c: char, slot: int, b: int)
    requires 0 <= slot < Slots && Printable(c) && 0 <= b < |SegmentIndices|
    ensures SegmentIndices[b] + slot in Glyph(c, slot) <==> BitSet(FourteenSegmentAscii[c as int - 32], b)
  {
    var data := FourteenSegmentAscii[c as int - 32];
    LitMembers(data, slot, |SegmentIndices|, SegmentIndices[b] + slot);
    if SegmentIndices[b] + slot in Glyph(c, slot) {
      var b' :| 0 <= b' < |SegmentIndices| && BitSet(data, b') && SegmentIndices[b'] + slot == SegmentIndices[b] + slot;
      SegmentsDistinct(b, b');
    }
  }

  /** Characters in different slots light disjoint LEDs. */
  lemma GlyphsDisjoint(c: char, s: int, d: char, t: int)
    requires s != t
    ensures Glyph(c, s) !! Glyph(d, t)
  {
  }

  /** The LEDs lit by the first n characters of a string, each in its own slot. */
  function Characters(characters: string, n: int): set<int>
    decreases n
  {
    if n <= 0 then {}
    else Characters(characters, n - 1) + (if n - 1 < |characters| then Glyph(characters[n - 1], n - 1) else {})
  }

  /** What `SetDisplay` lights: the first four characters, or fewer if the string is shorter. */
  function Shown(characters: string): set<int>
  {
    Characters(characters, if |characters| < Slots then |characters| else Slots)
  }

  /** The LEDs of the first n characters in slot i are those of character i when i < n, and none otherwise. */
  lemma {:induction false} CharactersInSlot(characters: string, n: int, i: int, l: int)
    requires 0 <= i < Slots
    ensures l in Characters(characters, n) && l % Slots == i <==>
      0 <= i < n && i < |characters| && l in Glyph(characters[i], i)
  {
    if n > 0 {
      CharactersInSlot(characters, n - 1, i, l);
    }
  }

  /**
   * After `SetDisplay(characters)` slot i shows character i of the string if there is one,
   * and nothing otherwise.
   */
  lemma ShownSlots(characters: string, i: int)
    requires 0 <= i < Slots
    ensures (set l | l in Shown(characters) && l % Slots == i) ==
            if i < |characters| then Glyph(characters[i], i) else {}
  {
    var n := if |characters| < Slots then |characters| else Slots;
    forall l
      ensures l in Shown(characters) && l % Slots == i <==> i < |characters| && l in Glyph(characters[i], i)
    {
      CharactersInSlot(characters, n, i, l);
    }
  }

  /** Nothing the first n characters light lies outside the four slots' LEDs 0..103. */
  lemma {:induction false} CharactersInRange(characters: string, n: int)
    ensures forall l :: l in Characters(characters, n) ==> 0 <= l <= 103
  {
    if n > 0 {
      CharactersInRange(characters, n - 1);
    }
  }

  /** The HT16K33 driver as far as the scoreboard uses it: a buffer of LED states and the pushes to the chip. */
  class Ht16k33 {
    /** The LEDs that are on in the display buffer. */
    var Leds: set<int>
    /** The buffer pushed to the chip by each `UpdateDisplay`, in order. */
    var Pushed: seq<set<int>>

    constructor ()
      ensures Leds == {} && Pushed == []
    {
      Leds, Pushed := {}, [];
    }

    /** `SetLed(index, on)`. */
    method SetLed(index: Byte, on: bool)
      modifies this
      ensures Leds == if on then old(Leds) + {index} else old(Leds) - {index}
      ensures Pushed == old(Pushed)
    {
      if on {
        Leds := Leds + {index};
      } else {
        Leds := Leds - {index};
      }
    }

    /** `ClearDisplay`: every LED off. */
    method ClearDisplay()
      modifies this
      ensures Leds == {} && Pushed == old(Pushed)
    {
      Leds := {};
    }

    /** `UpdateDisplay`: the buffer goes to the chip. */
    method UpdateDisplay()
      modifies this
      ensures Leds == old(Leds) && Pushed == old(Pushed) + [Leds]
    {
      Pushed := Pushed + [Leds];
    }
  }

  /** `Ht16k33LedScoreboard`. */
  class Ht16k33LedScoreboard {
    const display: Ht16k33

    /** Takes the driver and clears its buffer (turning it on and dimming it are not modelled). */
    constructor (display: Ht16k33)
      modifies display
      ensures this.display == display
      ensures display.Leds == {} && display.Pushed == old(display.Pushed)
    {
      this.display := display;
      new;
      ClearDisplay();
    }

    /** `ClearDisplay`: forwarded to the driver. */
    method ClearDisplay()
      modifies display
      ensures display.Leds == {} && display.Pushed == old(display.Pushed)
    {
      display.ClearDisplay();
    }

    /** `SetDisplay`: clears, lights the first four characters in their slots, and pushes the buffer once. */
    method SetDisplay(characters: string)
      modifies display
      ensures display.Leds == Shown(characters)
      ensures display.Pushed == old(display.Pushed) + [Shown(characters)]
    {
      ClearDisplay();
      for index := 0 to 4
        invariant index <= |characters|
        invariant display.Leds == Characters(characters, index)
        invariant display.Pushed == old(display.Pushed)
      {
        if |characters| <= index {
          break;
        }
        DisplayCharacter(characters[index], index);
      }
      display.UpdateDisplay();
    }

    /** `DisplayCharacter`: turns on the LEDs of the character's pattern in the slot, if both are valid. */
    method DisplayCharacter(character: char, slot: Byte)
      modifies display
      ensures display.Leds == old(display.Leds) + Glyph(character, slot)
      ensures display.Pushed == old(display.Pushed)
    {
      if slot >= 4 {
        return;
      }
      if character as int < 32 || character as int > 126 {
        return;
      }
      TableCovers(character);
      LightPattern(FourteenSegmentAscii[character as int - 32], slot);
      LitPastSegments(FourteenSegmentAscii[character as int - 32], slot);
    }

    /** The bit loop of `DisplayCharacter`: one `SetLed` per set bit of the pattern. */
    method LightPattern(data: Pattern, slot: Byte)
      requires slot < Slots
      modifies display
      ensures display.Leds == old(display.Leds) + Lit(data, slot, 16)
      ensures display.Pushed == old(display.Pushed)
    {
      for bit := 0 to 16
        invariant display.Leds == old(display.Leds) + Lit(data, slot, bit)
        invariant display.Pushed == old(display.Pushed)
      {
        ghost var before := display.Leds;
        if (data >> bit) & 1 != 0 {
          SetBitsBelow14(data, bit);
          LedIndexInSlot(bit, slot);
          var index := LedIndex(bit, slot);
          display.SetLed(index, true);
        }
        LitAdvance(old(display.Leds), data, slot, bit, before, display.Leds);
      }
    }
  }
}

=== FILE: screen.dfy ===
/**
 * `Screen` (Glade2d/Screens/Screen.cs): the scene graph. A list of sprites kept in layer order
 * by a deferred stable sort, a per-frame update that drops destroyed sprites and moves the
 * others, and the set of rectangles that changed in the last update. `ModifiedRegions` is a
 * `SortedSet` under `RenderRegionComparer`, whose zero answer is record equality
 * (`Geometry.Compare`), so it is modelled as a set.
 */
module Screens {
  import opened Wrappers
  import opened Geometry
  import opened Sprites

  /** No sprite appears twice. */
  predicate Distinct(ss: seq<Sprite>)
  {
    forall i, j :: 0 <= i < j < |ss| ==> ss[i] != ss[j]
  }

  /** Layers never decrease along the list. */
  predicate SortedByLayer(ss: seq<Sprite>)
    reads ss
  {
    forall i, j :: 0 <= i < j < |ss| ==> ss[i].Layer <= ss[j].Layer
  }

  /** Inserts s before the first sprite whose layer is not below its own. */
  function InsertByLayer(s: Sprite, sorted: seq<Sprite>): (r: seq<Sprite>)
    reads s, sorted
    ensures forall x :: x in r ==> x == s || x in sorted
  {
    if |sorted| == 0 then [s]
    else if s.Layer <= sorted[0].Layer then [s] + sorted
    else
      assert sorted == [sorted[0]] + sorted[1..];
      [sorted[0]] + InsertByLayer(s, sorted[1..])
  }

  /** `sprites.OrderBy(s => s.Layer).ToList()`: a stable sort by layer. */
  function SortByLayer(ss: seq<Sprite>): (r: seq<Sprite>)
    reads set x | x in ss
    ensures forall x :: x in r ==> x in ss
  {
    if |ss| == 0 then []
    else
      var rest := SortByLayer(ss[1..]);
      assert forall x :: x in rest ==> x in ss[1..] && x in ss;
      InsertByLayer(ss[0], rest)
  }

  /** The sprites of one layer, in list order. */
  function OnLayer(ss: seq<Sprite>, layer: real): seq<Sprite>
    reads ss
  {
    if |ss| == 0 then []
    else (if ss[0].Layer == layer then [ss[0]] else []) + OnLayer(ss[1..], layer)
  }

  /** Inserting adds exactly one occurrence of the sprite. */
  lemma {:induction false} InsertByLayerPermutes(s: Sprite, sorted: seq<Sprite>)
    ensures multiset(InsertByLayer(s, sorted)) == multiset{s} + multiset(sorted)
  {
    if |sorted| > 0 && s.Layer > sorted[0].Layer {
      InsertByLayerPermutes(s, sorted[1..]);
      assert sorted == [sorted[0]] + sorted[1..];
    }
  }

  /** The sort only reorders the list. */
  lemma {:induction false} SortByLayerPermutes(ss: seq<Sprite>)
    ensures multiset(SortByLayer(ss)) == multiset(ss)
  {
    if |ss| > 0 {
      SortByLayerPermutes(ss[1..]);
      InsertByLayerPermutes(ss[0], SortByLayer(ss[1..]));
      assert ss == [ss[0]] + ss[1..];
    }
  }

  /** Inserting into a sorted list keeps it sorted. */
  lemma {:induction false} InsertByLayerSorted(s: Sprite, sorted: seq<Sprite>)
    requires SortedByLayer(sorted)
    ensures SortedByLayer(InsertByLayer(s, sorted))
  {
    if |sorted| > 0 && s.Layer > sorted[0].Layer {
      var rest := InsertByLayer(s, sorted[1..]);
      InsertByLayerSorted(s, sorted[1..]);
      var r := [sorted[0]] + rest;
      forall i, j | 0 <= i < j < |r|
        ensures r[i].Layer <= r[j].Layer
      {
        if i == 0 {
          assert r[j] == rest[j - 1] && rest[j - 1] in rest;
          if r[j] != s {
            var k :| 0 <= k < |sorted[1..]| && sorted[1..][k] == r[j];
            assert sorted[k + 1] == r[j];
          }
        }
      }
    }
  }

  /** The sprites of one layer in a list with one more sprite at its head. */
  lemma OnLayerCons(x: Sprite, t: seq<Sprite>, layer: real)
    ensures OnLayer([x] + t, layer) == (if x.Layer == layer then [x] else []) + OnLayer(t, layer)
  {
    var r := [x] + t;
    assert r[0] == x && r[1..] == t;
  }

  /** Inserting s adds it to its own layer ahead of that layer's sprites, and leaves other layers alone. */
  lemma {:induction false} InsertByLayerOnLayer(s: Sprite, sorted: seq<Sprite>, layer: real)
    ensures OnLayer(InsertByLayer(s, sorted), layer) == (if s.Layer == layer then [s] else []) + OnLayer(sorted, layer)
  {
    if |sorted| == 0 {
      OnLayerCons(s, [], layer);
      assert [s] + [] == [s];
    } else if s.Layer <= sorted[0].Layer {
      OnLayerCons(s, sorted, layer);
    } else {
      var rest := InsertByLayer(s, sorted[1..]);
      InsertByLayerOnLayer(s, sorted[1..], layer);
      OnLayerCons(sorted[0], rest, layer);
      OnLayerCons(sorted[0], sorted[1..], layer);
      assert sorted == [sorted[0]] + sorted[1..];
      var head := if sorted[0].Layer == layer then [sorted[0]] else [];
      var mine := if s.Layer == layer then [s] else [];
      assert head == [] || mine == [];
      assert head + (mine + OnLayer(sorted[1..], layer)) == mine + (head + OnLayer(sorted[1..], layer));
    }
  }

  /**
   * The sort yields a list ordered by layer in which the sprites of each layer keep their
   * relative order (it is a permutation by `SortByLayer`'s own contract).
   */
  lemma {:induction false} SortByLayerStable(ss: seq<Sprite>)
    ensures SortedByLayer(SortByLayer(ss))
    ensures forall layer :: OnLayer(SortByLayer(ss), layer) == OnLayer(ss, layer)
  {
    if |ss| > 0 {
      SortByLayerStable(ss[1..]);
      InsertByLayerSorted(ss[0], SortByLayer(ss[1..]));
      forall layer
        ensures OnLayer(SortByLayer(ss), layer) == OnLayer(ss, layer)
      {
        InsertByLayerOnLayer(ss[0], SortByLayer(ss[1..]), layer);
      }
    }
  }

  /** In a list without repeats every sprite occurs at most once. */
  lemma {:induction false} DistinctCounts(a: seq<Sprite>)
    requires Distinct(a)
    ensures forall x :: multiset(a)[x] <= 1
  {
    if |a| > 0 {
      DistinctCounts(a[1..]);
      assert a == [a[0]] + a[1..];
      assert a[0] !in a[1..];
    }
  }

  /** A sprite at two positions occurs at least twice. */
  lemma RepeatCount(b: seq<Sprite>, i: int, j: int)
    requires 0 <= i < j < |b| && b[i] == b[j]
    ensures multiset(b)[b[i]] >= 2
  {
    assert b == b[..i] + [b[i]] + b[i + 1..j] + [b[j]] + b[j + 1..];
  }

  /** A permutation of a list without repeats has none either. */
  lemma DistinctPermutation(a: seq<Sprite>, b: seq<Sprite>)
    requires Distinct(a) && multiset(a) == multiset(b)
    ensures Distinct(b)
  {
    DistinctCounts(a);
    forall i, j | 0 <= i < j < |b|
      ensures b[i] != b[j]
    {
      if b[i] == b[j] {
        RepeatCount(b, i, j);
        assert false;
      }
    }
  }

  /** The sprites as values, in order. */
  function Views(ss: seq<Sprite>): (r: seq<SpriteView>)
    reads set s | s in ss
    ensures |r| == |ss| && forall k :: 0 <= k < |ss| ==> r[k] == ss[k].View()
  {
    if |ss| == 0 then [] else [ss[0].View()] + Views(ss[1..])
  }

  /** The sprites whose view is not marked destroyed, in order. */
  function Kept(ss: seq<Sprite>, vs: seq<SpriteView>): seq<Sprite>
    requires |vs| == |ss|
  {
    if |ss| == 0 then [] else (if vs[0].Destroyed then [] else [ss[0]]) + Kept(ss[1..], vs[1..])
  }

  /** The surviving sprites after the removal pass: the ones not destroyed, moved. */
  function KeptMoved(vs: seq<SpriteView>, delta: real): seq<SpriteView>
  {
    if |vs| == 0 then [] else (if vs[0].Destroyed then [] else [vs[0].Moved(delta)]) + KeptMoved(vs[1..], delta)
  }

  /** The rectangles the removal pass records: those of the destroyed sprites. */
  function DestroyedRegions(vs: seq<SpriteView>): set<RenderRegion>
  {
    if |vs| == 0 then {} else (if vs[0].Destroyed then {vs[0].Region()} else {}) + DestroyedRegions(vs[1..])
  }

  /** The rectangles the region pass records: those of the sprites that are not settled. */
  function ChangedRegions(vs: seq<SpriteView>): set<RenderRegion>
  {
    if |vs| == 0 then {} else (if vs[0].Settled() then {} else {vs[0].Region()}) + ChangedRegions(vs[1..])
  }

  /** What the removal pass does to one sprite: a destroyed one is checked, any other one moves. */
  function Removal(v: SpriteView, delta: real): SpriteView
  {
    if v.Destroyed then v.Checked() else v.Moved(delta)
  }

  /** The rectangles one update records, from the sprites as they were before it. */
  function FrameRegions(vs: seq<SpriteView>, delta: real): set<RenderRegion>
  {
    DestroyedRegions(vs) + ChangedRegions(KeptMoved(vs, delta))
  }

  /** The change check recorded over two lists is the union of the two. */
  lemma {:induction false} ChangedRegionsAppend(a: seq<SpriteView>, b: seq<SpriteView>)
    ensures ChangedRegions(a + b) == ChangedRegions(a) + ChangedRegions(b)
  {
    if |a| > 0 {
      ChangedRegionsAppend(a[1..], b);
      assert (a + b)[0] == a[0] && (a + b)[1..] == a[1..] + b;
    } else {
      assert a + b == b;
    }
  }

  /** The region pass's record grows by one view at a time. */
  lemma ChangedRegionsStep(views: seq<SpriteView>, x: int)
    requires 0 <= x < |views|
    ensures ChangedRegions(views[..x + 1]) == ChangedRegions(views[..x]) + (if views[x].Settled() then {} else {views[x].Region()})
  {
    ChangedRegionsAppend(views[..x], [views[x]]);
    assert views[..x + 1] == views[..x] + [views[x]];
  }

  /** Membership in the destroyed rectangles, both ways. */
  lemma {:induction false} DestroyedRegionsMembers(vs: seq<SpriteView>, r: RenderRegion)
    ensures r in DestroyedRegions(vs) <==> exists k :: 0 <= k < |vs| && vs[k].Destroyed && vs[k].Region() == r
  {
    if |vs| > 0 {
      DestroyedRegionsMembers(vs[1..], r);
      if r in DestroyedRegions(vs[1..]) {
        var k :| 0 <= k < |vs[1..]| && vs[1..][k].Destroyed && vs[1..][k].Region() == r;
        assert vs[k + 1] == vs[1..][k];
      }
      if exists k :: 0 <= k < |vs| && vs[k].Destroyed && vs[k].Region() == r {
        var k :| 0 <= k < |vs| && vs[k].Destroyed && vs[k].Region() == r;
        if k > 0 {
          assert vs[1..][k - 1] == vs[k];
        }
      }
    }
  }

  /** Membership in the rectangles the region pass records after the move, both ways. */
  lemma {:induction false} MovedRegionsMembers(vs: seq<SpriteView>, delta: real, r: RenderRegion)
    ensures r in ChangedRegions(KeptMoved(vs, delta)) <==>
      exists k :: 0 <= k < |vs| && !vs[k].Destroyed && !vs[k].Moved(delta).Settled() && vs[k].Moved(delta).Region() == r
  {
    if |vs| > 0 {
      var head := if vs[0].Destroyed then [] else [vs[0].Moved(delta)];
      ChangedRegionsAppend(head, KeptMoved(vs[1..], delta));
      MovedRegionsMembers(vs[1..], delta, r);
      if r in ChangedRegions(KeptMoved(vs[1..], delta)) {
        var k :| 0 <= k < |vs[1..]| && !vs[1..][k].Destroyed && !vs[1..][k].Moved(delta).Settled() && vs[1..][k].Moved(delta).Region() == r;
        assert vs[k + 1] == vs[1..][k];
      }
      if exists k :: 0 <= k < |vs| && !vs[k].Destroyed && !vs[k].Moved(delta).Settled() && vs[k].Moved(delta).Region() == r {
        var k :| 0 <= k < |vs| && !vs[k].Destroyed && !vs[k].Moved(delta).Settled() && vs[k].Moved(delta).Region() == r;
        if k > 0 {
          assert vs[1..][k - 1] == vs[k];
        }
      }
    }
  }

  /**
   * An update records exactly the rectangle of every destroyed sprite, and the new rectangle
   * of every other sprite whose move leaves it unsettled.
   */
  lemma FrameRegionsMembers(vs: seq<SpriteView>, delta: real, r: RenderRegion)
    ensures r in FrameRegions(vs, delta) <==>
      exists k :: 0 <= k < |vs| &&
        if vs[k].Destroyed then vs[k].Region() == r
        else !vs[k].Moved(delta).Settled() && vs[k].Moved(delta).Region() == r
  {
    DestroyedRegionsMembers(vs, r);
    MovedRegionsMembers(vs, delta, r);
  }

  /** With nothing destroyed and every sprite still settled after its move, an update records nothing. */
  lemma QuietFrame(vs: seq<SpriteView>, delta: real)
    requires forall k :: 0 <= k < |vs| ==> !vs[k].Destroyed && vs[k].Moved(delta).Settled()
    ensures FrameRegions(vs, delta) == {}
  {
    forall r | r in FrameRegions(vs, delta)
      ensures false
    {
      FrameRegionsMembers(vs, delta, r);
    }
  }

  /**
   * An update leaves every listed sprite settled and not destroyed, so another update with no
   * time elapsed records nothing.
   */
  lemma SecondUpdateQuiet(vs: seq<SpriteView>, delta: real)
    ensures FrameRegions(Checks(KeptMoved(vs, delta)), 0.0) == {}
  {
    var ws := Checks(KeptMoved(vs, delta));
    KeptMovedSurvivors(vs, delta);
    forall k | 0 <= k < |ws|
      ensures !ws[k].Destroyed && ws[k].Moved(0.0).Settled()
    {
      assert ws[k].Moved(0.0) == ws[k];
    }
    QuietFrame(ws, 0.0);
  }

  /** The moved survivors are not destroyed and keep the layer order of the list. */
  lemma {:induction false} KeptMovedSurvivors(vs: seq<SpriteView>, delta: real)
    ensures forall k :: 0 <= k < |KeptMoved(vs, delta)| ==> !KeptMoved(vs, delta)[k].Destroyed
    ensures LayersSorted(vs) ==> LayersSorted(KeptMoved(vs, delta))
  {
    if |vs| > 0 {
      KeptMovedSurvivors(vs[1..], delta);
      KeptMovedLayers(vs[1..], delta);
      var rest := KeptMoved(vs[1..], delta);
      if !vs[0].Destroyed {
        var r := [vs[0].Moved(delta)] + rest;
        assert KeptMoved(vs, delta) == r;
        forall k | 0 <= k < |r|
          ensures !r[k].Destroyed
        {
          if k > 0 {
            assert r[k] == rest[k - 1];
          }
        }
        if LayersSorted(vs) {
          assert LayersSorted(vs[1..]);
          SortedPrepend(vs, vs[0].Moved(delta), rest);
        }
      } else {
        assert LayersSorted(vs) ==> LayersSorted(vs[1..]);
      }
    }
  }

  /**
   * Putting a view on the head's layer in front of a sorted list whose layers all come from the
   * tail keeps it sorted.
   */
  lemma SortedPrepend(vs: seq<SpriteView>, v: SpriteView, rest: seq<SpriteView>)
    requires |vs| > 0 && LayersSorted(vs) && LayersSorted(rest) && v.Layer == vs[0].Layer
    requires forall w :: w in rest ==> w.Layer in Layers(vs[1..])
    ensures LayersSorted([v] + rest)
  {
    var r := [v] + rest;
    forall i, j | 0 <= i < j < |r|
      ensures r[i].Layer <= r[j].Layer
    {
      if i == 0 {
        assert r[j] == rest[j - 1] && rest[j - 1] in rest;
        var m :| 0 <= m < |vs[1..]| && Layers(vs[1..])[m] == r[j].Layer;
        assert vs[m + 1].Layer == r[j].Layer;
      } else {
        assert r[i] == rest[i - 1] && r[j] == rest[j - 1];
      }
    }
  }

  /** The layers of a list of views. */
  function Layers(vs: seq<SpriteView>): seq<real>
  {
    seq(|vs|, k requires 0 <= k < |vs| => vs[k].Layer)
  }

  /** Every survivor's layer is the layer of some view of the list. */
  lemma {:induction false} KeptMovedLayers(vs: seq<SpriteView>, delta: real)
    ensures forall w :: w in KeptMoved(vs, delta) ==> w.Layer in Layers(vs)
  {
    if |vs| > 0 {
      KeptMovedLayers(vs[1..], delta);
      forall w | w in KeptMoved(vs, delta)
        ensures w.Layer in Layers(vs)
      {
        if !vs[0].Destroyed && w == vs[0].Moved(delta) {
          assert Layers(vs)[0] == w.Layer;
        } else {
          assert w in KeptMoved(vs[1..], delta);
          var k :| 0 <= k < |vs[1..]| && Layers(vs[1..])[k] == w.Layer;
          assert Layers(vs)[k + 1] == w.Layer;
        }
      }
    }
  }

  /** An update keeps the listed sprites in the layer order they had. */
  lemma UpdateKeepsLayerOrder(vs: seq<SpriteView>, delta: real)
    requires LayersSorted(vs)
    ensures LayersSorted(Checks(KeptMoved(vs, delta)))
  {
    KeptMovedSurvivors(vs, delta);
    var moved := KeptMoved(vs, delta);
    var checked := Checks(moved);
    forall i, j | 0 <= i < j < |checked|
      ensures checked[i].Layer <= checked[j].Layer
    {
      assert checked[i] == moved[i].Checked() && checked[j] == moved[j].Checked();
    }
  }

  /** The surviving sprites seen after their move are the moved survivors. */
  lemma {:induction false} KeptViews(ss: seq<Sprite>, vs: seq<SpriteView>, delta: real)
    requires |vs| == |ss|
    requires Views(ss) == Removals(vs, delta)
    ensures Views(Kept(ss, vs)) == KeptMoved(vs, delta)
  {
    if |ss| > 0 {
      assert Views(ss)[1..] == Views(ss[1..]);
      assert Removals(vs, delta)[1..] == Removals(vs[1..], delta);
      assert ss[0].View() == Views(ss)[0] == Removal(vs[0], delta);
      KeptViews(ss[1..], vs[1..], delta);
      var head := if vs[0].Destroyed then [] else [ss[0]];
      assert Kept(ss, vs) == head + Kept(ss[1..], vs[1..]);
      ViewsAppend(head, Kept(ss[1..], vs[1..]));
    }
  }

  /** Views of two lists joined. */
  lemma ViewsAppend(a: seq<Sprite>, b: seq<Sprite>)
    ensures Views(a + b) == Views(a) + Views(b)
  {
    var l, r := Views(a + b), Views(a) + Views(b);
    assert |l| == |r|;
    forall k | 0 <= k < |l|
      ensures l[k] == r[k]
    {
      if k < |a| {
      } else {
        assert (a + b)[k] == b[k - |a|];
      }
    }
  }

  /** The kept sprites are sprites of the list. */
  lemma {:induction false} KeptSubset(ss: seq<Sprite>, vs: seq<SpriteView>)
    requires |vs| == |ss|
    ensures forall x :: x in Kept(ss, vs) ==> x in ss
  {
    if |ss| > 0 {
      KeptSubset(ss[1..], vs[1..]);
    }
  }

  /** In a list without repeats, a sprite is kept exactly when its view is not destroyed. */
  lemma {:induction false} KeptMembers(ss: seq<Sprite>, vs: seq<SpriteView>, k: int)
    requires |vs| == |ss| && Distinct(ss) && 0 <= k < |ss|
    ensures ss[k] in Kept(ss, vs) <==> !vs[k].Destroyed
  {
    KeptSubset(ss[1..], vs[1..]);
    if k > 0 {
      KeptMembers(ss[1..], vs[1..], k - 1);
    } else {
      assert ss[0] !in ss[1..];
    }
  }

  /** Dropping sprites from a list sorted by layer leaves it sorted. */
  lemma {:induction false} KeptSorted(ss: seq<Sprite>, vs: seq<SpriteView>)
    requires |vs| == |ss| && SortedByLayer(ss)
    ensures SortedByLayer(Kept(ss, vs))
  {
    if |ss| > 0 {
      KeptSorted(ss[1..], vs[1..]);
      KeptSubset(ss[1..], vs[1..]);
      var rest := Kept(ss[1..], vs[1..]);
      if !vs[0].Destroyed {
        var r := [ss[0]] + rest;
        forall i, j | 0 <= i < j < |r|
          ensures r[i].Layer <= r[j].Layer
        {
          if i == 0 {
            assert r[j] == rest[j - 1] && rest[j - 1] in ss[1..];
          }
        }
      }
    }
  }

  /** The removal pass applied to each view. */
  function Removals(vs: seq<SpriteView>, delta: real): (r: seq<SpriteView>)
    ensures |r| == |vs|
  {
    seq(|vs|, k requires 0 <= k < |vs| => Removal(vs[k], delta))
  }

  /** The removal pass's lists from index i: the sprite at i, then the rest. */
  lemma RemovalUnfold(ss: seq<Sprite>, vs: seq<SpriteView>, i: int)
    requires |vs| == |ss| && 0 <= i < |ss|
    ensures Kept(ss[i..], vs[i..]) == (if vs[i].Destroyed then [] else [ss[i]]) + Kept(ss[i + 1..], vs[i + 1..])
    ensures DestroyedRegions(vs[i..]) == (if vs[i].Destroyed then {vs[i].Region()} else {}) + DestroyedRegions(vs[i + 1..])
  {
    assert ss[i..][1..] == ss[i + 1..] && vs[i..][1..] == vs[i + 1..];
  }

  /** Dropping a destroyed sprite at index i extends the pass's lists by index i. */
  lemma DroppedLists(ss: seq<Sprite>, vs: seq<SpriteView>, i: int)
    requires |vs| == |ss| && 0 <= i < |ss| && vs[i].Destroyed
    ensures ss[..i] + Kept(ss[i + 1..], vs[i + 1..]) == ss[..i] + Kept(ss[i..], vs[i..])
    ensures DestroyedRegions(vs[i + 1..]) + {vs[i].Region()} == DestroyedRegions(vs[i..])
  {
    RemovalUnfold(ss, vs, i);
  }

  /** Keeping a sprite at index i extends the pass's lists by index i. */
  lemma MovedLists(ss: seq<Sprite>, vs: seq<SpriteView>, i: int)
    requires |vs| == |ss| && 0 <= i < |ss| && !vs[i].Destroyed
    ensures ss[..i + 1] + Kept(ss[i + 1..], vs[i + 1..]) == ss[..i] + Kept(ss[i..], vs[i..])
    ensures DestroyedRegions(vs[i + 1..]) == DestroyedRegions(vs[i..])
  {
    RemovalUnfold(ss, vs, i);
    assert ss[..i + 1] == ss[..i] + [ss[i]];
  }

  /** When only the sprite at index i may have changed, the views change only there. */
  lemma ViewsUpdated(ss: seq<Sprite>, before: seq<SpriteView>, i: int)
    requires |before| == |ss| && 0 <= i < |ss|
    requires forall k :: 0 <= k < |ss| && k != i ==> ss[k].View() == before[k]
    ensures Views(ss) == before[i := ss[i].View()]
  {
  }

  /** The reverse pass's lists before its first and after its last step. */
  lemma RemovalEnds(all: seq<Sprite>, views: seq<SpriteView>, delta: real)
    requires |all| == |views|
    ensures all[..|all|] + Kept(all[|all|..], views[|all|..]) == all
    ensures DestroyedRegions(views[|all|..]) == {}
    ensures views[..|all|] + Removals(views[|all|..], delta) == views
    ensures all[..0] + Kept(all[0..], views[0..]) == Kept(all, views)
    ensures DestroyedRegions(views[0..]) == DestroyedRegions(views)
    ensures views[..0] + Removals(views[0..], delta) == Removals(views, delta)
  {
    assert all[..|all|] == all && all[|all|..] == [] && views[..|all|] == views && views[|all|..] == [];
    assert all[..0] == [] && all[0..] == all && views[..0] == [] && views[0..] == views;
  }

  /** One more sprite handled by the reverse pass, as views. */
  lemma RemovalsStep(views: seq<SpriteView>, i: int, delta: real)
    requires 0 <= i < |views|
    ensures (views[..i + 1] + Removals(views[i + 1..], delta))[i := Removal(views[i], delta)]
      == views[..i] + Removals(views[i..], delta)
  {
    var a := (views[..i + 1] + Removals(views[i + 1..], delta))[i := Removal(views[i], delta)];
    var b := views[..i] + Removals(views[i..], delta);
    forall k | 0 <= k < |a|
      ensures a[k] == b[k]
    {
      if k > i {
        assert a[k] == Removals(views[i + 1..], delta)[k - i - 1] == Removal(views[k], delta);
        assert b[k] == Removals(views[i..], delta)[k - i] == Removal(views[k], delta);
      }
    }
  }

  /** One more sprite handled by the region pass, as views. */
  lemma ChecksStep(views: seq<SpriteView>, x: int, s: seq<SpriteView>)
    requires 0 <= x < |views| && s == Checks(views[..x]) + views[x..]
    ensures |s| == |views| && s[x] == views[x]
    ensures s[x := views[x].Checked()] == Checks(views[..x + 1]) + views[x + 1..]
  {
    assert s[x] == views[x..][0];
    var a := s[x := views[x].Checked()];
    var b := Checks(views[..x + 1]) + views[x + 1..];
    forall k | 0 <= k < |a|
      ensures a[k] == b[k]
    {
      if k > x {
        assert a[k] == views[x..][k - x] == views[k];
        assert b[k] == views[x + 1..][k - x - 1] == views[k];
      }
    }
  }

  /** One iteration of the change-check loop: the checked prefix and its regions grow by sprite x. */
  lemma CheckAllStep(views: seq<SpriteView>, x: int, s: seq<SpriteView>)
    requires 0 <= x < |views| && s == Checks(views[..x]) + views[x..]
    ensures |s| == |views| && s[x] == views[x]
    ensures s[x := views[x].Checked()] == Checks(views[..x + 1]) + views[x + 1..]
    ensures ChangedRegions(views[..x + 1]) ==
      ChangedRegions(views[..x]) + (if s[x].Settled() then {} else {s[x].Region()})
  {
    ChecksStep(views, x, s);
    ChangedRegionsStep(views, x);
  }

  /** The region pass's lists before its first and after its last step. */
  lemma ChecksEnds(views: seq<SpriteView>)
    ensures Checks(views[..0]) + views[0..] == views && ChangedRegions(views[..0]) == {}
    ensures Checks(views[..|views|]) + views[|views|..] == Checks(views)
    ensures ChangedRegions(views[..|views|]) == ChangedRegions(views)
  {
    assert views[..0] == [] && views[0..] == views;
    assert views[..|views|] == views && views[|views|..] == [];
  }

  /** The change check applied to each view. */
  function Checks(vs: seq<SpriteView>): (r: seq<SpriteView>)
    ensures |r| == |vs|
  {
    seq(|vs|, k requires 0 <= k < |vs| => vs[k].Checked())
  }

  /** Layers never decrease along a list of views. */
  predicate LayersSorted(vs: seq<SpriteView>)
  {
    forall i, j :: 0 <= i < j < |vs| ==> vs[i].Layer <= vs[j].Layer
  }

  /** Sorting a list of distinct sprites gives distinct sprites, sorted by layer, with views sorted by layer. */
  lemma SortedArrangement(ss: seq<Sprite>)
    requires Distinct(ss)
    ensures Distinct(SortByLayer(ss)) && SortedByLayer(SortByLayer(ss)) && LayersSorted(Views(SortByLayer(ss)))
  {
    SortByLayerPermutes(ss);
    DistinctPermutation(ss, SortByLayer(ss));
    SortByLayerStable(ss);
    ViewsSorted(SortByLayer(ss));
  }

  /** A list sorted by layer has its views sorted by layer. */
  lemma ViewsSorted(ss: seq<Sprite>)
    requires SortedByLayer(ss)
    ensures LayersSorted(Views(ss))
  {
    var vs := Views(ss);
    forall i, j | 0 <= i < j < |vs|
      ensures vs[i].Layer <= vs[j].Layer
    {
      assert vs[i] == ss[i].View() && vs[j] == ss[j].View();
    }
  }

  /** A list whose views are in layer order is sorted by layer. */
  lemma SortedFromViews(ss: seq<Sprite>)
    requires LayersSorted(Views(ss))
    ensures SortedByLayer(ss)
  {
    forall i, j | 0 <= i < j < |ss|
      ensures ss[i].Layer <= ss[j].Layer
    {
      assert ss[i].View() == Views(ss)[i] && ss[j].View() == Views(ss)[j];
    }
  }

  class Screen {
    var sprites: seq<Sprite>
    var listSortNeeded: bool
    var ModifiedRegions: set<RenderRegion>

    predicate Valid()
      reads this
    {
      Distinct(sprites)
    }

    constructor ()
      ensures Valid() && sprites == [] && !listSortNeeded && ModifiedRegions == {}
    {
      sprites, listSortNeeded, ModifiedRegions := [], false, {};
    }

    /** The list the update works on: sorted by layer first when a sprite was added. */
    function Arranged(): seq<Sprite>
      reads this`listSortNeeded, this`sprites, sprites
    {
      if listSortNeeded then SortByLayer(sprites) else sprites
    }

    /**
     * `Update`: clears the recorded rectangles, sorts the list if a sprite was added, drops the
     * destroyed sprites (recording their rectangles) while moving the others, and then records the
     * rectangle of every remaining sprite whose change check reports one.
     */
    method Update(delta: real)
      requires Valid()
      modifies this, set s | s in sprites
      ensures Valid() && !listSortNeeded
      ensures sprites == Kept(old(Arranged()), old(Views(Arranged())))
      ensures Views(sprites) == Checks(KeptMoved(old(Views(Arranged())), delta))
      ensures ModifiedRegions == FrameRegions(old(Views(Arranged())), delta)
      ensures old(listSortNeeded) ==> SortedByLayer(sprites)
    {
      ghost var flagged, views := listSortNeeded, Views(Arranged());
      ModifiedRegions := {};
      Arrange();
      Passes(delta, views);
      if flagged {
        UpdateKeepsLayerOrder(views, delta);
        SortedFromViews(sprites);
      }
    }

    /** The first step of `Update`: the deferred sort, when a sprite was added. */
    method Arrange()
      requires Valid()
      modifies this
      ensures Valid() && !listSortNeeded && sprites == old(Arranged()) && ModifiedRegions == old(ModifiedRegions)
      ensures old(listSortNeeded) ==> SortedByLayer(sprites) && LayersSorted(Views(sprites))
      ensures forall x :: x in sprites ==> x in old(sprites)
      ensures Views(sprites) == old(Views(Arranged()))
    {
      if listSortNeeded {
        SortedArrangement(sprites);
        sprites := SortByLayer(sprites);
        listSortNeeded := false;
      }
    }

    /** The two passes of `Update` over the arranged list, given the sprites' views before them. */
    method Passes(delta: real, ghost views: seq<SpriteView>)
      requires Valid() && views == Views(sprites)
      modifies this, set s | s in sprites
      ensures Valid() && listSortNeeded == old(listSortNeeded)
      ensures sprites == Kept(old(sprites), views)
      ensures Views(sprites) == Checks(KeptMoved(views, delta))
      ensures ModifiedRegions == old(ModifiedRegions) + FrameRegions(views, delta)
    {
      ghost var arranged := sprites;
      RemovalPass(delta, views);
      KeptSubset(arranged, views);
      KeptViews(arranged, views, delta);
      RegionPass(KeptMoved(views, delta));
    }

    /** The reverse pass of `Update` over the list, given the sprites' views before it. */
    method RemovalPass(delta: real, ghost views: seq<SpriteView>)
      requires Valid() && views == Views(sprites)
      modifies this, sprites
      ensures Valid() && listSortNeeded == old(listSortNeeded)
      ensures sprites == Kept(old(sprites), views)
      ensures ModifiedRegions == old(ModifiedRegions) + DestroyedRegions(views)
      ensures Views(old(sprites)) == Removals(views, delta)
    {
      ghost var all, recorded := sprites, ModifiedRegions;
      var i := |sprites| - 1;
      RemovalEnds(all, views, delta);
      while i > -1
        invariant -1 <= i < |all| && Distinct(all)
        invariant Valid() && listSortNeeded == old(listSortNeeded)
        invariant sprites == all[..i + 1] + Kept(all[i + 1..], views[i + 1..])
        invariant ModifiedRegions == recorded + DestroyedRegions(views[i + 1..])
        invariant Views(all) == views[..i + 1] + Removals(views[i + 1..], delta)
      {
        RemovalNext(i, delta, all, views, recorded);
        i := i - 1;
      }
    }

    /** One iteration of the reverse pass, stated on the suffix of sprites it has handled. */
    method RemovalNext(i: int, delta: real, ghost all: seq<Sprite>, ghost views: seq<SpriteView>, ghost recorded: set<RenderRegion>)
      requires Valid() && |views| == |all| && 0 <= i < |all| && Distinct(all)
      requires sprites == all[..i + 1] + Kept(all[i + 1..], views[i + 1..])
      requires ModifiedRegions == recorded + DestroyedRegions(views[i + 1..])
      requires Views(all) == views[..i + 1] + Removals(views[i + 1..], delta)
      modifies this, all[i]
      ensures Valid() && listSortNeeded == old(listSortNeeded)
      ensures sprites == all[..i] + Kept(all[i..], views[i..])
      ensures ModifiedRegions == recorded + DestroyedRegions(views[i..])
      ensures Views(all) == views[..i] + Removals(views[i..], delta)
    {
      assert Views(all)[i] == views[i];
      RemovalStep(i, delta, all, views, recorded);
      RemovalsStep(views, i, delta);
    }

    /** One step of the reverse pass: the sprite at index i is dropped and checked, or moved. */
    method RemovalStep(i: int, delta: real, ghost all: seq<Sprite>, ghost views: seq<SpriteView>, ghost recorded: set<RenderRegion>)
      requires Valid() && |views| == |all| && 0 <= i < |all|
      requires sprites == all[..i + 1] + Kept(all[i + 1..], views[i + 1..])
      requires ModifiedRegions == recorded + DestroyedRegions(views[i + 1..])
      requires Distinct(all) && Views(all)[i] == views[i]
      modifies this, all[i]
      ensures Valid() && listSortNeeded == old(listSortNeeded)
      ensures Views(all) == old(Views(all))[i := Removal(views[i], delta)]
      ensures sprites == all[..i] + Kept(all[i..], views[i..])
      ensures ModifiedRegions == recorded + DestroyedRegions(views[i..])
    {
      assert sprites[i] == all[i];
      if sprites[i].Destroyed {
        DropDestroyed(i, all, views, recorded);
        DroppedLists(all, views, i);
      } else {
        MoveKept(i, delta, all, views);
        MovedLists(all, views, i);
      }
    }

    /** The sprite at index i is destroyed: it leaves the list and its change check is recorded. */
    method DropDestroyed(i: int, ghost all: seq<Sprite>, ghost views: seq<SpriteView>, ghost recorded: set<RenderRegion>)
      requires Valid() && |views| == |all| && 0 <= i < |all| && views[i].Destroyed
      requires sprites == all[..i + 1] + Kept(all[i + 1..], views[i + 1..])
      requires ModifiedRegions == recorded + DestroyedRegions(views[i + 1..])
      requires Distinct(all) && Views(all)[i] == views[i]
      modifies this, all[i]
      ensures Valid() && listSortNeeded == old(listSortNeeded)
      ensures Views(all) == old(Views(all))[i := views[i].Checked()]
      ensures sprites == all[..i] + Kept(all[i + 1..], views[i + 1..])
      ensures ModifiedRegions == recorded + DestroyedRegions(views[i + 1..]) + {views[i].Region()}
    {
      ghost var before := Views(all);
      var current := sprites[i];
      assert sprites[..i] == all[..i] && sprites[i + 1..] == Kept(all[i + 1..], views[i + 1..]);
      RemoveSpriteAt(i);
      var region := current.GetRenderRegionIfChanged();
      if region.Old.Some? {
        ModifiedRegions := ModifiedRegions + {region.Old.value};
      }
      forall k | 0 <= k < |all| && k != i
        ensures all[k].View() == before[k]
      {
        assert all[k] != all[i];
      }
      ViewsUpdated(all, before, i);
    }

    /** The sprite at index i stays: it moves by its velocity. */
    method MoveKept(i: int, delta: real, ghost all: seq<Sprite>, ghost views: seq<SpriteView>)
      requires Valid() && |views| == |all| && 0 <= i < |all|
      requires sprites == all[..i + 1] + Kept(all[i + 1..], views[i + 1..])
      requires Distinct(all) && Views(all)[i] == views[i]
      modifies all[i]
      ensures Valid()
      ensures Views(all) == old(Views(all))[i := views[i].Moved(delta)]
      ensures sprites == all[..i + 1] + Kept(all[i + 1..], views[i + 1..])
    {
      ghost var before := Views(all);
      sprites[i].Update(delta);
      forall k | 0 <= k < |all| && k != i
        ensures all[k].View() == before[k]
      {
        assert all[k] != all[i];
      }
      ViewsUpdated(all, before, i);
    }

    /** The forward pass of `Update`, given the sprites' views before it: records Old and New of each sprite whose check reports New. */
    method RegionPass(ghost views: seq<SpriteView>)
      requires Valid() && views == Views(sprites)
      modifies this, sprites
      ensures Valid() && sprites == old(sprites) && listSortNeeded == old(listSortNeeded)
      ensures ModifiedRegions == old(ModifiedRegions) + ChangedRegions(views)
      ensures Views(sprites) == Checks(views)
    {
      var found := CheckAll(views);
      ModifiedRegions := ModifiedRegions + found;
    }

    /**
     * The loop of the forward pass: runs the change check on every sprite in order and gathers
     * the rectangles the checks report, which the pass then adds to `ModifiedRegions` (no step of
     * the pass reads them).
     */
    method CheckAll(ghost views: seq<SpriteView>) returns (found: set<RenderRegion>)
      requires Valid() && views == Views(sprites)
      modifies this, sprites
      ensures sprites == old(sprites) && listSortNeeded == old(listSortNeeded) && ModifiedRegions == old(ModifiedRegions)
      ensures found == ChangedRegions(views)
      ensures Views(sprites) == Checks(views)
    {
      found := {};
      ChecksEnds(views);
      for x := 0 to |sprites|
        invariant sprites == old(sprites) && listSortNeeded == old(listSortNeeded) && ModifiedRegions == old(ModifiedRegions)
        invariant Valid() && |sprites| == |views|
        invariant found == ChangedRegions(views[..x])
        invariant Views(sprites) == Checks(views[..x]) + views[x..]
      {
        var regions := CheckNext(x, views);
        found := found + regions;
      }
    }

    /** One iteration of the forward pass, stated on the prefix of sprites it has checked. */
    method CheckNext(x: int, ghost views: seq<SpriteView>) returns (regions: set<RenderRegion>)
      requires Valid() && 0 <= x < |views| == |sprites|
      requires Views(sprites) == Checks(views[..x]) + views[x..]
      modifies sprites[x]
      ensures ChangedRegions(views[..x + 1]) == ChangedRegions(views[..x]) + regions
      ensures Views(sprites) == Checks(views[..x + 1]) + views[x + 1..]
    {
      ghost var checked := Views(sprites);
      CheckAllStep(views, x, checked);
      regions := RegionStep(x, checked);
    }

    /**
     * One step of the forward pass: the change check on the sprite at index x, whose view is v,
     * and the rectangles it reports (Old and New when New is reported). Only that sprite changes.
     */
    method RegionStep(x: int, ghost before: seq<SpriteView>) returns (regions: set<RenderRegion>)
      requires Valid() && 0 <= x < |sprites| && Views(sprites) == before
      modifies sprites[x]
      ensures regions == if before[x].Settled() then {} else {before[x].Region()}
      ensures Views(sprites) == before[x := before[x].Checked()]
    {
      var changes := sprites[x].GetRenderRegionIfChanged();
      forall k | 0 <= k < |sprites| && k != x
        ensures sprites[k].View() == before[k]
      {
        assert sprites[k] != sprites[x];
      }
      ViewsUpdated(sprites, before, x);
      before[x].CheckReports();
      regions := {};
      if changes.New.Some? {
        if changes.Old.Some? {
          regions := regions + {changes.Old.value};
        }
        regions := regions + {changes.New.value};
      }
    }

    /**
     * `AddSprite`: appends a sprite that is not yet listed and flags the list for sorting;
     * a listed sprite changes nothing. Returns its argument.
     */
    method AddSprite(sprite: Sprite) returns (r: Sprite)
      requires Valid()
      modifies this
      ensures Valid() && r == sprite && ModifiedRegions == old(ModifiedRegions)
      ensures sprite in old(sprites) ==> sprites == old(sprites) && listSortNeeded == old(listSortNeeded)
      ensures sprite !in old(sprites) ==> sprites == old(sprites) + [sprite] && listSortNeeded
    {
      if sprite !in sprites {
        sprites := sprites + [sprite];
        listSortNeeded := true;
      }
      return sprite;
    }

    /** `RemoveSprite(Sprite)`: removes the sprite if it is listed; records no region. */
    method RemoveSprite(sprite: Sprite)
      requires Valid()
      modifies this
      ensures Valid() && sprite !in sprites
      ensures listSortNeeded == old(listSortNeeded) && ModifiedRegions == old(ModifiedRegions)
      ensures sprite !in old(sprites) ==> sprites == old(sprites)
      ensures forall k :: 0 <= k < |old(sprites)| && old(sprites)[k] == sprite ==>
        sprites == old(sprites)[..k] + old(sprites)[k + 1..]
    {
      if sprite in sprites {
        var k :| 0 <= k < |sprites| && sprites[k] == sprite;
        RemoveSpriteAt(k);
      }
    }

    /** `RemoveSprite(int)`: removes the sprite at an index of the list. */
    method RemoveSpriteAt(index: int)
      requires Valid() && 0 <= index < |sprites|
      modifies this
      ensures Valid() && sprites == old(sprites)[..index] + old(sprites)[index + 1..]
      ensures old(sprites)[index] !in sprites
      ensures listSortNeeded == old(listSortNeeded) && ModifiedRegions == old(ModifiedRegions)
    {
      ghost var before := sprites;
      sprites := sprites[..index] + sprites[index + 1..];
      assert forall i :: 0 <= i < |sprites| ==> sprites[i] == (if i < index then before[i] else before[i + 1]);
    }
  }
}

=== FILE: sprite.dfy ===
/**
 * `Sprite` (Glade2d/Graphics/Sprite.cs): a positioned frame with the bookkeeping that tells
 * the screen which rectangle to redraw. Positions, velocities and layers are C# floats and
 * are modelled as reals; the frame time is a parameter.
 */
module Sprites {
  import opened Wrappers
  import opened Geometry

  /** The C# `(int)` conversion of a float: truncation toward zero. */
  function TruncateTowardZero(x: real): (r: int)
    ensures 0.0 <= x ==> 0 <= r && r as real <= x < r as real + 1.0
    ensures x < 0.0 ==> r <= 0 && r as real - 1.0 < x <= r as real
  {
    if x >= 0.0 then x.Floor else -((-x).Floor)
  }

  /** `Sprite.RegionChanges`: where the sprite was drawn, and where it must be drawn now, if anywhere. */
  datatype RegionChanges = RegionChanges(Old: Option<RenderRegion>, New: Option<RenderRegion>)

  /**
   * The two private fields the change check keeps: `_lastFrame` and `_lastRenderRegion` (None
   * for null). `_lastFrame` is a reference, so the tracker keeps the frame's identity.
   */
  datatype Tracker = Tracker(LastFrame: Option<FrameId>, LastRegion: Option<RenderRegion>)

  /**
   * The change check on values: with the current frame and candidate rectangle, the new
   * tracker and the reported changes. The stored rectangle is overwritten before it is
   * returned, so Old is always the current rectangle and never the previous position; New is
   * reported exactly when the tracker changes. Frames are compared by identity, as `==` on a
   * reference does, not by contents.
   */
  function Track(t: Tracker, frame: Frame, candidate: RenderRegion): (r: (Tracker, RegionChanges))
    ensures r.0 == Tracker(Some(frame.Id), Some(candidate))
    ensures r.1.Old == Some(candidate)
    ensures r.1.New.None? <==> t == r.0
    ensures r.1.New.Some? ==> r.1.New == r.1.Old
  {
    var newRegion := Some(candidate);
    if t.LastFrame == Some(frame.Id) && newRegion == t.LastRegion then
      (Tracker(Some(frame.Id), t.LastRegion), RegionChanges(t.LastRegion, None))
    else
      (Tracker(Some(frame.Id), newRegion), RegionChanges(newRegion, newRegion))
  }

  /** A second check with nothing changed in between reports nothing and keeps the tracker. */
  lemma TrackIdempotent(t: Tracker, frame: Frame, candidate: RenderRegion)
    ensures Track(Track(t, frame, candidate).0, frame, candidate) ==
            (Track(t, frame, candidate).0, RegionChanges(Some(candidate), None))
  {
  }

  /**
   * After a check, a second check with the same rectangle reports a change exactly when the
   * frame is a different object: a new frame with equal contents is a change, and a frame whose
   * X or Y was changed in place is not.
   */
  lemma TrackComparesIdentity(t: Tracker, frame: Frame, other: Frame, candidate: RenderRegion)
    ensures Track(Track(t, frame, candidate).0, other, candidate).1.New.None? <==> other.Id == frame.Id
    ensures other.Id != frame.Id && other.(Id := frame.Id) == frame ==>
            Track(Track(t, frame, candidate).0, other, candidate).1.New == Some(candidate)
    ensures other.Id == frame.Id && other.(X := frame.X, Y := frame.Y) == frame ==>
            Track(Track(t, frame, candidate).0, other, candidate).1.New.None?
  {
  }

  /** A sprite's fields as a value, so that what an update does can be stated on sequences of values. */
  datatype SpriteView = SpriteView(
    X: real, Y: real, VelocityX: real, VelocityY: real, Layer: real,
    Destroyed: bool, CurrentFrame: Frame, State: Tracker)
  {
    /** The rectangle the sprite covers: truncated position, frame size. */
    function Region(): (r: RenderRegion)
      ensures r.Width == CurrentFrame.Width && r.Height == CurrentFrame.Height
      ensures r.X == TruncateTowardZero(X) && r.Y == TruncateTowardZero(Y)
    {
      RenderRegion(TruncateTowardZero(X), TruncateTowardZero(Y), CurrentFrame.Width, CurrentFrame.Height)
    }

    /** The tracker already holds the current frame and rectangle, so a change check reports nothing. */
    predicate Settled()
    {
      State == Tracker(Some(CurrentFrame.Id), Some(Region()))
    }

    /**
     * `Sprite.Update`: the position advances by velocity times the frame time; nothing but
     * the position changes, and a zero frame time leaves the sprite as it is.
     */
    function Moved(delta: real): (r: SpriteView)
      ensures r.(X := X, Y := Y) == this
      ensures delta == 0.0 ==> r == this
    {
      this.(X := X + VelocityX * delta, Y := Y + VelocityY * delta)
    }

    /** Two updates in a row move a sprite as far as one update over both frame times. */
    lemma MovedTwice(first: real, second: real)
      ensures Moved(first).Moved(second) == Moved(first + second)
    {
      var m := Moved(first);
      assert m.VelocityX == VelocityX && m.VelocityY == VelocityY;
      calc {
        m.X + m.VelocityX * second;
        X + VelocityX * first + VelocityX * second;
        { RealDistributes(VelocityX, first, second); }
        X + VelocityX * (first + second);
      }
      calc {
        m.Y + m.VelocityY * second;
        Y + VelocityY * first + VelocityY * second;
        { RealDistributes(VelocityY, first, second); }
        Y + VelocityY * (first + second);
      }
    }

    /** The sprite after a change check: only the tracker differs, and it is settled. */
    function Checked(): (r: SpriteView)
      ensures r.Settled() && r.Region() == Region()
      ensures r.(State := State) == this
      ensures Settled() ==> r == this
    {
      this.(State := Track(State, CurrentFrame, Region()).0)
    }

    /** A change check reports a new rectangle exactly when the sprite is not settled, and then its own one. */
    lemma CheckReports()
      ensures Track(State, CurrentFrame, Region()).1.New == if Settled() then None else Some(Region())
      ensures Track(State, CurrentFrame, Region()).1.Old == Some(Region())
    {
    }
  }

  class Sprite {
    var X: real
    var Y: real
    var VelocityX: real
    var VelocityY: real
    var Layer: real
    var Destroyed: bool
    var CurrentFrame: Frame
    var lastFrame: Option<FrameId>
    var lastRenderRegion: Option<RenderRegion>

    /** `Sprite(Frame frame)`: everything else at its default. */
    constructor (frame: Frame)
      ensures CurrentFrame == frame && !Destroyed
      ensures X == 0.0 && Y == 0.0 && VelocityX == 0.0 && VelocityY == 0.0 && Layer == 0.0
      ensures lastFrame == None && lastRenderRegion == None
    {
      X, Y, VelocityX, VelocityY, Layer := 0.0, 0.0, 0.0, 0.0, 0.0;
      Destroyed := false;
      CurrentFrame := frame;
      lastFrame, lastRenderRegion := None, None;
    }

    /** The private change-tracking state. */
    function State(): Tracker
      reads this
    {
      Tracker(lastFrame, lastRenderRegion)
    }

    /** All fields as a value. */
    function View(): SpriteView
      reads this
    {
      SpriteView(X, Y, VelocityX, VelocityY, Layer, Destroyed, CurrentFrame, State())
    }

    /** `Update`: moves by velocity times the frame time (a parameter here). */
    method Update(delta: real)
      modifies this
      ensures View() == old(View()).Moved(delta)
    {
      X := X + VelocityX * delta;
      Y := Y + VelocityY * delta;
    }

    /** `Destroy`: marks the sprite for removal and changes nothing else. */
    method Destroy()
      modifies this
      ensures View() == old(View()).(Destroyed := true)
    {
      Destroyed := true;
    }

    /** `Die`: the base behaviour delegates to `Destroy`. */
    method Die()
      modifies this
      ensures View() == old(View()).(Destroyed := true)
    {
      Destroy();
    }

    /** `GetRenderRegionIfChanged`: the change check on this sprite's own state. */
    method GetRenderRegionIfChanged() returns (changes: RegionChanges)
      modifies this
      ensures (State(), changes) == Track(old(State()), old(CurrentFrame), old(View().Region()))
      ensures View() == old(View()).Checked()
    {
      var newRegion := Some(View().Region());
      if lastFrame == Some(CurrentFrame.Id) && newRegion == lastRenderRegion {
        newRegion := None;
      } else {
        lastRenderRegion := newRegion;
      }
      lastFrame := Some(CurrentFrame.Id);
      changes := RegionChanges(lastRenderRegion, newRegion);
    }
  }

  /** Multiplication distributes over addition on reals. */
  lemma RealDistributes(v: real, a: real, b: real)
    ensures v * a + v * b == v * (a + b)
  {
  }
}

=== FILE: transferrer.dfy ===
/**
 * `NoRotationBufferTransferrer` (Glade2d/Graphics/BufferTransferring/NoRotationBufferTransferrer.cs):
 * nearest-neighbour upscaling of the composed frame into the device buffer, byte by byte.
 *
 * For every source row in the loop bounds, the column loop writes `scale` copies of each
 * source pixel into target row `row * scale`; then `Array.Copy` duplicates the first
 * `EndCol * scale` pixels' worth of bytes starting at that row's first written byte, to just
 * after them, `scale - 1` times over, always to the same place. Without a region that is the
 * next target row, so rows `row * scale + 2` onwards are never written. With a region, its
 * Width and Height are used as end coordinates.
 */
module Transferring {
  import opened Wrappers
  import opened Geometry
  import opened Arithmetic
  import opened Bytes

  /**
   * A region the transfer can be limited to without the pointer writes and the vertical
   * copies leaving the buffers: rows from Y up to Height lie on the source, and X + Width
   * does not exceed the source width.
   */
  predicate RegionFits(region: RenderRegion, width: int, height: int)
  {
    && 0 <= region.X && 0 <= region.Width && region.X + region.Width <= width
    && 0 <= region.Y && region.Height <= height
  }

  /** The loops' bounds: rows StartRow up to EndRow, columns StartCol up to EndCol, both exclusive. */
  datatype Bounds = Bounds(StartRow: int, EndRow: int, StartCol: int, EndCol: int)

  /**
   * Rows from the region's Y up to its Height and columns from its X up to its Width, or the
   * whole source without a region.
   */
  function LoopBounds(width: int, height: int, region: Option<RenderRegion>): (b: Bounds)
    ensures region.None? && 0 <= width && 0 <= height ==> BoundsFit(b, width, height)
    ensures region.Some? && RegionFits(region.value, width, height) ==> BoundsFit(b, width, height)
  {
    match region
    case None => Bounds(0, height, 0, width)
    case Some(r) => Bounds(r.Y, r.Height, r.X, r.Width)
  }

  /** Bounds that keep every access of the transfer inside buffers of width x height pixels. */
  predicate BoundsFit(b: Bounds, width: int, height: int)
  {
    && 0 <= b.StartCol && 0 <= b.EndCol && b.StartCol + b.EndCol <= width
    && 0 <= b.StartRow && b.EndRow <= height
  }

  /** Target pixels the column loop writes for one row: `scale` for each column. */
  function ScaledPixels(columns: int, scale: int): int
  {
    if columns > 0 && scale > 0 then columns * scale else 0
  }

  /** One column more adds `scale` pixels (none for a non-positive scale). */
  lemma ScaledPixelsStep(columns: int, scale: int)
    requires 0 <= columns
    ensures ScaledPixels(columns + 1, scale) == ScaledPixels(columns, scale) + Max(scale, 0)
  {
  }

  /** More columns, at least as many pixels. */
  lemma ScaledPixelsMonotone(columns: int, more: int, scale: int)
    requires 0 <= columns <= more
    ensures ScaledPixels(columns, scale) <= ScaledPixels(more, scale)
  {
    if scale > 0 {
      MulMonotone(columns, more, scale);
    }
  }

  /**
   * `targetRegionByteLength`: the length of each vertical copy, from EndCol and not
   * EndCol - StartCol. It is the scaled row the column loop writes plus StartCol * scale
   * pixels more, so it runs past that row whenever the region does not start at column 0.
   */
  function RegionBytes(b: Bounds, scale: int): (n: int)
    ensures 0 <= b.StartCol <= b.EndCol && 0 <= scale ==>
      n == (ScaledPixels(b.EndCol - b.StartCol, scale) + b.StartCol * scale) * BytesPerPixel
  {
    b.EndCol * scale * BytesPerPixel
  }

  /** Bytes from one target row to the one `scale` rows further down. */
  function RowStride(scale: int, targetWidth: int): int
  {
    scale * (targetWidth * BytesPerPixel)
  }

  /**
   * `targetByte1` (and `arrayCopyStartIndex`) for source row r, as an offset into the target:
   * `r * scale * targetRowByteLength + startCol * scale * BytesPerPixel`.
   */
  function RowStart(b: Bounds, scale: int, targetWidth: int, r: int): int
  {
    r * RowStride(scale, targetWidth) + b.StartCol * scale * BytesPerPixel
  }

  /** `sourceByte1` for source row r, as an offset into the source. */
  function RowSourceStart(b: Bounds, sourceWidth: int, r: int): int
  {
    r * (sourceWidth * BytesPerPixel) + b.StartCol * BytesPerPixel
  }

  /** Byte k after the end of the first copy span of row r: where the vertical copy writes. */
  function CopyOffset(b: Bounds, scale: int, targetWidth: int, r: int, k: int): int
  {
    RowStart(b, scale, targetWidth, r) + RegionBytes(b, scale) + k
  }

  /** How far past its start a row's writes reach. */
  function RowExtent(b: Bounds, scale: int): int
  {
    if scale >= 2 then 2 * RegionBytes(b, scale) else ScaledPixels(b.EndCol - b.StartCol, scale) * BytesPerPixel
  }

  /** Whether the pass for source row r writes target byte i: a scaled pixel, or a duplicated byte. */
  predicate RowTouches(b: Bounds, scale: int, targetWidth: int, r: int, i: int)
  {
    var start := RowStart(b, scale, targetWidth, r);
    || start <= i < start + ScaledPixels(b.EndCol - b.StartCol, scale) * BytesPerPixel
    || (scale >= 2 && start + RegionBytes(b, scale) <= i < start + 2 * RegionBytes(b, scale))
  }

  /**
   * Target pixel j after `targetStart`, for j below `pixels`, holds source pixel j / scale
   * after `sourceStart`, byte for byte.
   */
  ghost predicate PrefixScaled(source: seq<Byte>, target: seq<Byte>, sourceStart: int, targetStart: int,
                               pixels: int, scale: int)
  {
    forall j, k :: 0 < scale && 0 <= j < pixels && 0 <= k < BytesPerPixel ==>
      && 0 <= ByteOffset(targetStart, j, k) < |target|
      && 0 <= ByteOffset(sourceStart, j / scale, k) < |source|
      && target[ByteOffset(targetStart, j, k)] == source[ByteOffset(sourceStart, j / scale, k)]
  }

  /** Only bytes in [lo, hi) may differ between `before` and `after`. */
  ghost predicate UnchangedOutside(before: seq<Byte>, after: seq<Byte>, lo: int, hi: int)
  {
    && |after| == |before|
    && forall i :: 0 <= i < |after| && !(lo <= i < hi) ==> after[i] == before[i]
  }

  /** Growing the window of change composes two changes. */
  lemma UnchangedOutsideChain(a: seq<Byte>, b: seq<Byte>, c: seq<Byte>, lo: int, mid: int, hi: int)
    requires lo <= mid <= hi
    requires UnchangedOutside(a, b, lo, mid) && UnchangedOutside(b, c, mid, hi)
    ensures UnchangedOutside(a, c, lo, hi)
  {
  }

  /** The `count` pixels after `targetByte` all repeat the source pixel at `sourceByte`. */
  ghost predicate Repeated(source: seq<Byte>, target: seq<Byte>, sourceByte: int, targetByte: int, count: int)
  {
    forall j, k :: 0 <= j < count && 0 <= k < BytesPerPixel ==>
      && 0 <= ByteOffset(targetByte, j, k) < |target| && 0 <= sourceByte + k < |source|
      && target[ByteOffset(targetByte, j, k)] == source[sourceByte + k]
  }

  /** The column loop's effect on one row: `pixels` scaled pixels written, nothing else changed. */
  ghost predicate RowScaled(source: seq<Byte>, before: seq<Byte>, after: seq<Byte>,
                            sourceStart: int, targetStart: int, pixels: int, scale: int)
  {
    && PrefixScaled(source, after, sourceStart, targetStart, pixels, scale)
    && UnchangedOutside(before, after, targetStart, targetStart + pixels * BytesPerPixel)
  }

  /** One more column written `scale` times extends the scaled prefix by `scale` pixels. */
  lemma ScaledColumn(source: seq<Byte>, before: seq<Byte>, after: seq<Byte>,
                     sourceStart: int, targetStart: int, column: int, written: int, scale: int)
    requires 0 < scale && 0 <= column && written == column * scale
    requires PrefixScaled(source, before, sourceStart, targetStart, written, scale)
    requires Repeated(source, after, ByteOffset(sourceStart, column, 0), ByteOffset(targetStart, written, 0), scale)
    requires UnchangedOutside(before, after, ByteOffset(targetStart, written, 0), ByteOffset(targetStart, written + scale, 0))
    ensures PrefixScaled(source, after, sourceStart, targetStart, written + scale, scale)
  {
    forall j, k | 0 <= j < written + scale && 0 <= k < BytesPerPixel
      ensures 0 <= ByteOffset(targetStart, j, k) < |after|
      ensures 0 <= ByteOffset(sourceStart, j / scale, k) < |source|
      ensures after[ByteOffset(targetStart, j, k)] == source[ByteOffset(sourceStart, j / scale, k)]
    {
      if j < written {
        assert 0 <= ByteOffset(targetStart, j, k) < |before|;
      } else {
        DivModUnique(j, scale, column, j - written);
        assert ByteOffset(targetStart, j, k) == ByteOffset(ByteOffset(targetStart, written, 0), j - written, k);
      }
    }
  }

  /**
   * The vertical copy loop's effect: with scale >= 2 the `length` bytes after `start + length`
   * repeat the `length` bytes from `start`; nothing else changed.
   */
  ghost predicate Duplicated(before: seq<Byte>, after: seq<Byte>, start: int, length: int, scale: int)
  {
    && UnchangedOutside(before, after, start + length, if scale >= 2 then start + 2 * length else start + length)
    && (scale >= 2 ==> 0 <= start && 0 <= length && start + 2 * length <= |after|)
    && (scale >= 2 ==> forall i :: start + length <= i < start + 2 * length ==> after[i] == before[i - length])
  }

  /**
   * The `scaleX` loop: `count` copies of the two bytes at `sourceByte`, written pixel after
   * pixel from `targetByte` on.
   */
  method RepeatPixel(source: array<Byte>, target: array<Byte>, sourceByte: int, targetByte: int, count: int)
    requires source != target
    requires count > 0 ==>
      && 0 <= sourceByte && sourceByte + BytesPerPixel <= source.Length
      && 0 <= targetByte && targetByte + count * BytesPerPixel <= target.Length
    modifies target
    ensures Repeated(source[..], target[..], sourceByte, targetByte, count)
    ensures UnchangedOutside(old(target[..]), target[..], targetByte, ByteOffset(targetByte, Max(count, 0), 0))
  {
    var scaleX := 0;
    while scaleX < count
      invariant 0 <= scaleX <= Max(count, 0)
      invariant forall j, k :: 0 <= j < scaleX && 0 <= k < BytesPerPixel ==>
        target[ByteOffset(targetByte, j, k)] == source[sourceByte + k]
      invariant forall i :: 0 <= i < target.Length && !(targetByte <= i < targetByte + scaleX * BytesPerPixel) ==>
        target[i] == old(target[i])
    {
      target[ByteOffset(targetByte, scaleX, 0)] := source[sourceByte];
      target[ByteOffset(targetByte, scaleX, 1)] := source[sourceByte + 1];
      scaleX := scaleX + 1;
    }
  }

  /** Column `column` of a row's column loop: its two source bytes and its `scale` target pixels are in bounds. */
  lemma ColumnStep(sourceLength: int, targetLength: int, sourceByte1: int, targetByte1: int, columns: int,
                   column: int, scale: int)
    requires 0 <= column < columns
    requires 0 <= sourceByte1 && sourceByte1 + columns * BytesPerPixel <= sourceLength
    requires ScaledPixels(columns, scale) > 0 ==>
      0 <= targetByte1 && targetByte1 + ScaledPixels(columns, scale) * BytesPerPixel <= targetLength
    ensures Max(scale, 0) > 0 ==>
      && 0 <= ByteOffset(sourceByte1, column, 0) && ByteOffset(sourceByte1, column, 0) + BytesPerPixel <= sourceLength
      && 0 <= ByteOffset(targetByte1, ScaledPixels(column, scale), 0)
      && ByteOffset(targetByte1, ScaledPixels(column, scale), 0) + Max(scale, 0) * BytesPerPixel <= targetLength
  {
    ScaledPixelsStep(column, scale);
    ScaledPixelsMonotone(column + 1, columns, scale);
  }

  /** After column `column` is written, the loop's invariants hold for the next column. */
  lemma ColumnWritten(source: seq<Byte>, original: seq<Byte>, before: seq<Byte>, after: seq<Byte>,
                      sourceByte1: int, targetByte1: int, column: int, written: int, scale: int)
    requires 0 <= column && written == ScaledPixels(column, scale)
    requires scale > 0 ==> PrefixScaled(source, before, sourceByte1, targetByte1, written, scale)
    requires UnchangedOutside(original, before, targetByte1, ByteOffset(targetByte1, written, 0))
    requires Repeated(source, after, ByteOffset(sourceByte1, column, 0), ByteOffset(targetByte1, written, 0), Max(scale, 0))
    requires UnchangedOutside(before, after, ByteOffset(targetByte1, written, 0),
                              ByteOffset(ByteOffset(targetByte1, written, 0), Max(scale, 0), 0))
    ensures written + Max(scale, 0) == ScaledPixels(column + 1, scale)
    ensures scale > 0 ==> PrefixScaled(source, after, sourceByte1, targetByte1, written + Max(scale, 0), scale)
    ensures UnchangedOutside(original, after, targetByte1, ByteOffset(targetByte1, written + Max(scale, 0), 0))
  {
    ScaledPixelsStep(column, scale);
    var next := ByteOffset(targetByte1, written + Max(scale, 0), 0);
    assert ByteOffset(ByteOffset(targetByte1, written, 0), Max(scale, 0), 0) == next;
    if scale > 0 {
      ScaledColumn(source, before, after, sourceByte1, targetByte1, column, written, scale);
    }
    UnchangedOutsideChain(original, before, after, targetByte1, ByteOffset(targetByte1, written, 0), next);
  }

  /**
   * The column loop of one source row: each source pixel from `startCol` up to `endCol` is
   * written `scale` times, two bytes at a time, through advancing offsets.
   */
  method ScaleRow(source: array<Byte>, target: array<Byte>, sourceByte1: int, targetByte1: int,
                  startCol: int, endCol: int, scale: int)
    requires source != target
    requires endCol > startCol ==> 0 <= sourceByte1 && sourceByte1 + (endCol - startCol) * BytesPerPixel <= source.Length
    requires ScaledPixels(endCol - startCol, scale) > 0 ==>
      0 <= targetByte1 && targetByte1 + ScaledPixels(endCol - startCol, scale) * BytesPerPixel <= target.Length
    modifies target
    ensures RowScaled(source[..], old(target[..]), target[..], sourceByte1, targetByte1,
                      ScaledPixels(endCol - startCol, scale), scale)
  {
    var perColumn := Max(scale, 0);
    ghost var written := 0;
    var sourceByte := sourceByte1;
    var targetByte := targetByte1;
    var sourceCol := startCol;
    while sourceCol < endCol
      invariant sourceCol == startCol || startCol < sourceCol <= endCol
      invariant written == ScaledPixels(sourceCol - startCol, scale)
      invariant sourceByte == ByteOffset(sourceByte1, sourceCol - startCol, 0)
      invariant targetByte == ByteOffset(targetByte1, written, 0)
      invariant scale > 0 ==> PrefixScaled(source[..], target[..], sourceByte1, targetByte1, written, scale)
      invariant UnchangedOutside(old(target[..]), target[..], targetByte1, targetByte)
    {
      ghost var before := target[..];
      ColumnStep(source.Length, target.Length, sourceByte1, targetByte1, endCol - startCol, sourceCol - startCol, scale);
      RepeatPixel(source, target, sourceByte, targetByte, perColumn);
      ColumnWritten(source[..], old(target[..]), before, target[..], sourceByte1, targetByte1, sourceCol - startCol, written, scale);
      written := written + perColumn;
      sourceByte := sourceByte + BytesPerPixel;
      targetByte := targetByte + perColumn * BytesPerPixel;
      sourceCol := sourceCol + 1;
    }
  }

  /**
   * The `scaleY` loop: `scale - 1` identical `Array.Copy` calls of `targetRegionByteLength`
   * bytes from `arrayCopyStartIndex` to right after them.
   */
  method DuplicateRow(target: array<Byte>, arrayCopyStartIndex: int, targetRegionByteLength: int, scale: int)
    requires scale >= 2 ==>
      && 0 <= arrayCopyStartIndex && 0 <= targetRegionByteLength
      && arrayCopyStartIndex + 2 * targetRegionByteLength <= target.Length
    modifies target
    ensures Duplicated(old(target[..]), target[..], arrayCopyStartIndex, targetRegionByteLength, scale)
  {
    var scaleY := 1;
    while scaleY < scale
      invariant scaleY == 1 || 1 < scaleY <= scale
      invariant scaleY > 1 ==>
        forall i :: arrayCopyStartIndex + targetRegionByteLength <= i < arrayCopyStartIndex + 2 * targetRegionByteLength ==>
          target[i] == old(target[i - targetRegionByteLength])
      invariant UnchangedOutside(old(target[..]), target[..], arrayCopyStartIndex + targetRegionByteLength,
        if scaleY > 1 then arrayCopyStartIndex + 2 * targetRegionByteLength else arrayCopyStartIndex + targetRegionByteLength)
    {
      ArrayCopy(target, arrayCopyStartIndex, target, arrayCopyStartIndex + targetRegionByteLength, targetRegionByteLength);
      scaleY := scaleY + 1;
    }
  }

  /** One byte of the vertical copy: it repeats the byte `length` before it. */
  lemma DuplicatedAt(before: seq<Byte>, after: seq<Byte>, start: int, length: int, scale: int, i: int)
    requires Duplicated(before, after, start, length, scale)
    requires scale >= 2 && start + length <= i < start + 2 * length
    ensures 0 <= i - length && i < |after| && after[i] == before[i - length]
  {
  }

  /** A window that covers both given windows of change covers their composition. */
  lemma UnchangedOutsideWiden(a: seq<Byte>, b: seq<Byte>, c: seq<Byte>, lo1: int, hi1: int, lo2: int, hi2: int, lo: int, hi: int)
    requires UnchangedOutside(a, b, lo1, hi1) && UnchangedOutside(b, c, lo2, hi2)
    requires lo1 < hi1 ==> lo <= lo1 && hi1 <= hi
    requires lo2 < hi2 ==> lo <= lo2 && hi2 <= hi
    ensures UnchangedOutside(a, c, lo, hi)
  {
  }

  /** A scaled prefix survives changes that all lie after it. */
  lemma PrefixScaledFrame(source: seq<Byte>, t1: seq<Byte>, t2: seq<Byte>, sourceStart: int, targetStart: int,
                          pixels: int, scale: int, lo: int, hi: int)
    requires PrefixScaled(source, t1, sourceStart, targetStart, pixels, scale)
    requires UnchangedOutside(t1, t2, lo, hi)
    requires lo < hi ==> targetStart + pixels * BytesPerPixel <= lo
    ensures PrefixScaled(source, t2, sourceStart, targetStart, pixels, scale)
  {
    forall j, k | 0 < scale && 0 <= j < pixels && 0 <= k < BytesPerPixel
      ensures t2[ByteOffset(targetStart, j, k)] == t1[ByteOffset(targetStart, j, k)]
    {
      assert 0 <= ByteOffset(targetStart, j, k) < |t1|;
    }
  }

  /**
   * What the pass for source row r leaves in the target: its scaled pixels, and with
   * scale >= 2 the `RegionBytes` bytes from the row's first written byte repeated right
   * after them (the scaled pixels where the column loop wrote, the earlier content beyond).
   */
  ghost predicate RowDone(source: seq<Byte>, before: seq<Byte>, after: seq<Byte>, sourceWidth: int,
                          targetWidth: int, scale: int, b: Bounds, r: int)
    requires |after| == |before|
  {
    && PrefixScaled(source, after, RowSourceStart(b, sourceWidth, r), RowStart(b, scale, targetWidth, r),
                    ScaledPixels(b.EndCol - b.StartCol, scale), scale)
    && (scale >= 2 ==> RowCopied(before, after, RowStart(b, scale, targetWidth, r), RegionBytes(b, scale),
                                 ScaledPixels(b.EndCol - b.StartCol, scale) * BytesPerPixel))
  }

  /**
   * The `length` bytes after `start + length` repeat those from `start`: the new bytes for
   * the first `prefix` of them, and the earlier content beyond.
   */
  ghost predicate RowCopied(before: seq<Byte>, after: seq<Byte>, start: int, length: int, prefix: int)
  {
    && |after| == |before|
    && (0 < length ==> 0 <= start && start + 2 * length <= |after|)
    && forall i :: start + length <= i < start + 2 * length ==>
         after[i] == if i < start + length + prefix then after[i - length] else before[i - length]
  }

  /** One byte of a row's copy, at `CopyOffset`. */
  lemma RowCopiedAt(before: seq<Byte>, after: seq<Byte>, b: Bounds, scale: int, targetWidth: int, r: int,
                    prefix: int, k: int)
    requires RowCopied(before, after, RowStart(b, scale, targetWidth, r), RegionBytes(b, scale), prefix)
    requires 0 <= k < RegionBytes(b, scale)
    ensures 0 <= RowStart(b, scale, targetWidth, r) + k && CopyOffset(b, scale, targetWidth, r, k) < |after|
    ensures RowStart(b, scale, targetWidth, r) + k < |before|
    ensures after[CopyOffset(b, scale, targetWidth, r, k)] ==
            if k < prefix then after[RowStart(b, scale, targetWidth, r) + k] else before[RowStart(b, scale, targetWidth, r) + k]
  {
    var start, length := RowStart(b, scale, targetWidth, r), RegionBytes(b, scale);
    assert CopyOffset(b, scale, targetWidth, r, k) == start + length + k;
  }

  /** A row's copy survives changes that all lie after it. */
  lemma RowCopiedFrame(before: seq<Byte>, mid: seq<Byte>, after: seq<Byte>, start: int, length: int, prefix: int,
                       lo: int, hi: int)
    requires RowCopied(before, mid, start, length, prefix)
    requires UnchangedOutside(mid, after, lo, hi)
    requires prefix <= length && (lo < hi ==> start + 2 * length <= lo)
    ensures RowCopied(before, after, start, length, prefix)
  {
    forall i | start + length <= i < start + 2 * length
      ensures after[i] == if i < start + length + prefix then after[i - length] else before[i - length]
    {
      assert after[i] == mid[i] && after[i - length] == mid[i - length];
    }
  }

  /**
   * The transfer's effect on the target bytes for the rows of `b` before `endRow`: every row done, and every
   * byte that no row pass writes unchanged.
   */
  ghost predicate Transferred(source: seq<Byte>, before: seq<Byte>, after: seq<Byte>, sourceWidth: int,
                              targetWidth: int, scale: int, b: Bounds, endRow: int)
  {
    && |after| == |before|
    && (forall r :: b.StartRow <= r < endRow ==> RowDone(source, before, after, sourceWidth, targetWidth, scale, b, r))
    && (forall i :: 0 <= i < |after| && !(exists r :: b.StartRow <= r < endRow && RowTouches(b, scale, targetWidth, r, i)) ==>
          after[i] == before[i])
  }

  /** A row's writes reach no further than its extent. */
  lemma RowTouchesWithin(b: Bounds, scale: int, targetWidth: int, r: int, i: int)
    requires scale >= 2 ==> ScaledPixels(b.EndCol - b.StartCol, scale) * BytesPerPixel <= RegionBytes(b, scale)
    requires RowTouches(b, scale, targetWidth, r, i)
    ensures RowStart(b, scale, targetWidth, r) <= i < RowStart(b, scale, targetWidth, r) + RowExtent(b, scale)
  {
  }

  /** The layout facts a row pass relies on: its writes lie beyond everything earlier rows wrote. */
  predicate RowsApart(b: Bounds, scale: int, targetWidth: int, row: int)
  {
    && (scale >= 2 ==> ScaledPixels(b.EndCol - b.StartCol, scale) * BytesPerPixel <= RegionBytes(b, scale))
    && forall r :: b.StartRow <= r < row ==>
         RowStart(b, scale, targetWidth, r) + RowExtent(b, scale) <= RowStart(b, scale, targetWidth, row)
  }

  /** A row stays done through changes that all lie beyond its extent. */
  lemma RowDoneFrame(source: seq<Byte>, before: seq<Byte>, mid: seq<Byte>, after: seq<Byte>,
                     sourceWidth: int, targetWidth: int, scale: int, b: Bounds, r: int, lo: int, hi: int)
    requires |mid| == |before|
    requires RowDone(source, before, mid, sourceWidth, targetWidth, scale, b, r)
    requires UnchangedOutside(mid, after, lo, hi)
    requires scale >= 2 ==> ScaledPixels(b.EndCol - b.StartCol, scale) * BytesPerPixel <= RegionBytes(b, scale)
    requires lo < hi ==> RowStart(b, scale, targetWidth, r) + RowExtent(b, scale) <= lo
    ensures |after| == |before|
    ensures RowDone(source, before, after, sourceWidth, targetWidth, scale, b, r)
  {
    var start := RowStart(b, scale, targetWidth, r);
    var length := RegionBytes(b, scale);
    var pixels := ScaledPixels(b.EndCol - b.StartCol, scale);
    PrefixScaledFrame(source, mid, after, RowSourceStart(b, sourceWidth, r), start, pixels, scale, lo, hi);
    if scale >= 2 {
      RowCopiedFrame(before, mid, after, start, length, pixels * BytesPerPixel, lo, hi);
    }
  }

  /** Rows passed earlier stay done: the new row's writes lie beyond theirs. */
  lemma EarlierRowsStayDone(source: seq<Byte>, before: seq<Byte>, mid: seq<Byte>, after: seq<Byte>,
                            sourceWidth: int, targetWidth: int, scale: int, b: Bounds, row: int)
    requires RowsApart(b, scale, targetWidth, row)
    requires Transferred(source, before, mid, sourceWidth, targetWidth, scale, b, row)
    requires UnchangedOutside(mid, after, RowStart(b, scale, targetWidth, row),
                              RowStart(b, scale, targetWidth, row) + RowExtent(b, scale))
    ensures forall r :: b.StartRow <= r < row ==>
      RowDone(source, before, after, sourceWidth, targetWidth, scale, b, r)
  {
    var start := RowStart(b, scale, targetWidth, row);
    forall r | b.StartRow <= r < row
      ensures RowDone(source, before, after, sourceWidth, targetWidth, scale, b, r)
    {
      RowDoneFrame(source, before, mid, after, sourceWidth, targetWidth, scale, b, r, start, start + RowExtent(b, scale));
    }
  }

  /** Byte i of the new row's first span was written by no earlier row. */
  lemma NotTouchedEarlier(b: Bounds, scale: int, targetWidth: int, row: int, i: int)
    requires RowsApart(b, scale, targetWidth, row)
    requires RowStart(b, scale, targetWidth, row) <= i
    ensures !(exists r :: b.StartRow <= r < row && RowTouches(b, scale, targetWidth, r, i))
  {
    forall r | b.StartRow <= r < row && RowTouches(b, scale, targetWidth, r, i)
      ensures false
    {
      RowTouchesWithin(b, scale, targetWidth, r, i);
    }
  }

  /** The new row's pass leaves it done. */
  lemma NewRowDone(source: seq<Byte>, before: seq<Byte>, mid: seq<Byte>, scaled: seq<Byte>, after: seq<Byte>,
                   sourceWidth: int, targetWidth: int, scale: int, b: Bounds, row: int)
    requires RowsApart(b, scale, targetWidth, row)
    requires Transferred(source, before, mid, sourceWidth, targetWidth, scale, b, row)
    requires RowScaled(source, mid, scaled, RowSourceStart(b, sourceWidth, row), RowStart(b, scale, targetWidth, row),
                       ScaledPixels(b.EndCol - b.StartCol, scale), scale)
    requires Duplicated(scaled, after, RowStart(b, scale, targetWidth, row), RegionBytes(b, scale), scale)
    ensures |after| == |before|
    ensures RowDone(source, before, after, sourceWidth, targetWidth, scale, b, row)
  {
    var start := RowStart(b, scale, targetWidth, row);
    var pixels := ScaledPixels(b.EndCol - b.StartCol, scale);
    var length := RegionBytes(b, scale);
    PrefixScaledFrame(source, scaled, after, RowSourceStart(b, sourceWidth, row), start,
      pixels, scale, start + length, if scale >= 2 then start + 2 * length else start + length);
    if scale >= 2 {
      forall i | start + length <= i < start + 2 * length
        ensures after[i] == if i < start + length + pixels * BytesPerPixel then after[i - length] else before[i - length]
      {
        DuplicatedAt(scaled, after, start, length, scale, i);
        assert after[i - length] == scaled[i - length];
        if i >= start + length + pixels * BytesPerPixel {
          NotTouchedEarlier(b, scale, targetWidth, row, i - length);
        }
      }
    }
  }

  /**
   * One more row pass: the column loop, then the vertical copies, extend `Transferred` by
   * one row, given that the new row's writes lie beyond everything earlier rows wrote.
   */
  lemma TransferStep(source: seq<Byte>, before: seq<Byte>, mid: seq<Byte>, scaled: seq<Byte>, after: seq<Byte>,
                     sourceWidth: int, targetWidth: int, scale: int, b: Bounds, row: int)
    requires b.StartRow <= row
    requires RowsApart(b, scale, targetWidth, row)
    requires Transferred(source, before, mid, sourceWidth, targetWidth, scale, b, row)
    requires RowScaled(source, mid, scaled, RowSourceStart(b, sourceWidth, row), RowStart(b, scale, targetWidth, row),
                       ScaledPixels(b.EndCol - b.StartCol, scale), scale)
    requires Duplicated(scaled, after, RowStart(b, scale, targetWidth, row), RegionBytes(b, scale), scale)
    ensures Transferred(source, before, after, sourceWidth, targetWidth, scale, b, row + 1)
  {
    var start := RowStart(b, scale, targetWidth, row);
    var length := RegionBytes(b, scale);
    UnchangedOutsideWiden(mid, scaled, after, start, start + ScaledPixels(b.EndCol - b.StartCol, scale) * BytesPerPixel,
      start + length, if scale >= 2 then start + 2 * length else start + length, start, start + RowExtent(b, scale));
    EarlierRowsStayDone(source, before, mid, after, sourceWidth, targetWidth, scale, b, row);
    NewRowDone(source, before, mid, scaled, after, sourceWidth, targetWidth, scale, b, row);
    forall i | 0 <= i < |after| && !(exists r :: b.StartRow <= r < row + 1 && RowTouches(b, scale, targetWidth, r, i))
      ensures after[i] == before[i]
    {
      assert !RowTouches(b, scale, targetWidth, row, i);
    }
  }

  /** A factor of a non-negative product with a positive other factor is non-negative. */
  lemma NonNegativeFactor(a: int, b: int)
    requires a >= 1 && a * b >= 0
    ensures b >= 0
  {
    if b < 0 {
      MulMonotone(1, a, b * -1);
    }
  }

  /** With scale >= 2, a row's scaled columns and their copy fit in one stride of `scale` target rows. */
  lemma WideRowFits(s: int, e: int, w: int, scale: int)
    requires 0 <= s && 0 <= e && s + e <= w && 2 <= scale
    ensures 0 <= s * scale * 2 && 0 <= e * scale * 2
    ensures s * scale * 2 + 2 * (e * scale * 2) <= scale * (w * scale * 2)
  {
    MulMonotone(0, s, scale);
    MulMonotone(0, e, scale);
    MulMonotone(2, scale, w);
    MulMonotone(s + 2 * e, scale * w, scale);
  }

  /** The scaled columns from s up to e are no more than e columns' worth. */
  lemma ScaledPixelsBelow(s: int, e: int, scale: int)
    requires 0 <= s && 0 <= e && 0 <= scale
    ensures 0 <= ScaledPixels(e - s, scale) <= e * scale
  {
    if e - s > 0 && scale > 0 {
      MulMonotone(e - s, e, scale);
      MulMonotone(0, e - s, scale);
    } else {
      MulMonotone(0, e, scale);
    }
  }

  /** Within one target row stride, a row pass's writes fit after its start column. */
  lemma RowSpan(b: Bounds, sourceWidth: int, scale: int)
    requires 0 <= b.StartCol && 0 <= b.EndCol && b.StartCol + b.EndCol <= sourceWidth && 0 <= scale
    ensures 0 <= b.StartCol * scale * BytesPerPixel && 0 <= RowExtent(b, scale)
    ensures b.StartCol * scale * BytesPerPixel + RowExtent(b, scale) <= RowStride(scale, sourceWidth * scale)
    ensures scale >= 2 ==> ScaledPixels(b.EndCol - b.StartCol, scale) * BytesPerPixel <= RegionBytes(b, scale)
  {
    var s, e := b.StartCol, b.EndCol;
    ScaledPixelsBelow(s, e, scale);
    if scale >= 2 {
      WideRowFits(s, e, sourceWidth, scale);
    } else if scale == 1 {
      assert RowStride(scale, sourceWidth * scale) == sourceWidth * 2;
    }
  }

  /** A span of `extent` bytes from `offset` into slot k of n slots of `stride` bytes ends by slot k + 1. */
  lemma SlotBound(k: int, n: int, stride: int, offset: int, extent: int)
    requires 0 <= k < n && 0 <= stride && 0 <= offset && offset + extent <= stride
    ensures 0 <= k * stride + offset
    ensures k * stride + offset + extent <= (k + 1) * stride <= n * stride
  {
    MulMonotone(0, k, stride);
    MulMonotone(k + 1, n, stride);
  }

  /** The target holds `sourceHeight` row strides. */
  lemma TargetLength(sourceHeight: int, scale: int, targetWidth: int, targetHeight: int)
    requires targetHeight == sourceHeight * scale
    ensures sourceHeight * RowStride(scale, targetWidth) == targetWidth * targetHeight * BytesPerPixel
  {
  }

  /** The source holds `sourceHeight` rows. */
  lemma SourceLength(sourceWidth: int, sourceHeight: int)
    ensures sourceHeight * (sourceWidth * BytesPerPixel) == sourceWidth * sourceHeight * BytesPerPixel
  {
  }

  /**
   * Where the pass for `row` reads and writes: inside the source and target buffers, and in
   * the target beyond everything earlier rows wrote.
   */
  lemma RowLayout(b: Bounds, sourceWidth: int, sourceHeight: int, targetWidth: int, targetHeight: int, scale: int, row: int)
    requires BoundsFit(b, sourceWidth, sourceHeight) && 0 <= scale
    requires targetWidth == sourceWidth * scale && targetHeight == sourceHeight * scale
    requires b.StartRow <= row < b.EndRow
    ensures RowsApart(b, scale, targetWidth, row)
    ensures b.EndCol > b.StartCol ==>
      && 0 <= RowSourceStart(b, sourceWidth, row)
      && RowSourceStart(b, sourceWidth, row) + (b.EndCol - b.StartCol) * BytesPerPixel <= sourceWidth * sourceHeight * BytesPerPixel
    ensures 0 <= RowStart(b, scale, targetWidth, row) && 0 <= RegionBytes(b, scale)
    ensures RowStart(b, scale, targetWidth, row) + RowExtent(b, scale) <= targetWidth * targetHeight * BytesPerPixel
  {
    var stride := RowStride(scale, targetWidth);
    var offset := b.StartCol * scale * BytesPerPixel;
    var extent := RowExtent(b, scale);
    RowSpan(b, sourceWidth, scale);
    MulMonotone(0, scale, targetWidth * BytesPerPixel);
    MulMonotone(0, b.EndCol, scale);
    SlotBound(row, sourceHeight, stride, offset, extent);
    TargetLength(sourceHeight, scale, targetWidth, targetHeight);
    forall r | b.StartRow <= r < row
      ensures RowStart(b, scale, targetWidth, r) + RowExtent(b, scale) <= RowStart(b, scale, targetWidth, row)
    {
      SlotBound(r, row, stride, offset, extent);
    }
    SlotBound(row, sourceHeight, sourceWidth * BytesPerPixel, b.StartCol * BytesPerPixel, (b.EndCol - b.StartCol) * BytesPerPixel);
    SourceLength(sourceWidth, sourceHeight);
  }

  /**
   * One pass of the row loop for `sourceRow`: the pointers for the row, the column loop, then
   * the vertical copies.
   */
  method TransferRow(sourceBuffer: array<Byte>, targetBuffer: array<Byte>, sourceWidth: int, sourceHeight: int,
                     targetWidth: int, targetHeight: int, scale: int, b: Bounds, sourceRow: int)
    requires sourceBuffer != targetBuffer
    requires sourceBuffer.Length == sourceWidth * sourceHeight * BytesPerPixel
    requires targetBuffer.Length == targetWidth * targetHeight * BytesPerPixel
    requires targetWidth == sourceWidth * scale && targetHeight == sourceHeight * scale && 0 <= scale
    requires BoundsFit(b, sourceWidth, sourceHeight) && b.StartRow <= sourceRow < b.EndRow
    modifies targetBuffer
    ensures forall before: seq<Byte> ::
      Transferred(sourceBuffer[..], before, old(targetBuffer[..]), sourceWidth, targetWidth, scale, b, sourceRow) ==>
      Transferred(sourceBuffer[..], before, targetBuffer[..], sourceWidth, targetWidth, scale, b, sourceRow + 1)
  {
    var sourceRowByteLength := sourceWidth * BytesPerPixel;
    var targetRowByteLength := targetWidth * BytesPerPixel;
    var targetRegionByteLength := b.EndCol * scale * BytesPerPixel;
    RowLayout(b, sourceWidth, sourceHeight, targetWidth, targetHeight, scale, sourceRow);
    var sourceByte1 := sourceRow * sourceRowByteLength + b.StartCol * BytesPerPixel;
    var targetByte1 := sourceRow * scale * targetRowByteLength + b.StartCol * scale * BytesPerPixel;
    var arrayCopyStartIndex := targetByte1;
    MulAssociative(sourceRow, scale, targetRowByteLength);

    ghost var mid := targetBuffer[..];
    ScaleRow(sourceBuffer, targetBuffer, sourceByte1, targetByte1, b.StartCol, b.EndCol, scale);
    ghost var scaled := targetBuffer[..];
    DuplicateRow(targetBuffer, arrayCopyStartIndex, targetRegionByteLength, scale);
    forall before: seq<Byte> |
      Transferred(sourceBuffer[..], before, mid, sourceWidth, targetWidth, scale, b, sourceRow)
      ensures Transferred(sourceBuffer[..], before, targetBuffer[..], sourceWidth, targetWidth, scale, b, sourceRow + 1)
    {
      TransferStep(sourceBuffer[..], before, mid, scaled, targetBuffer[..], sourceWidth, targetWidth, scale, b, sourceRow);
    }
  }

  /**
   * `TransferBuffer`: the row loop over source rows from the loop bounds' start row up to
   * their end row. Columns run from `region.X` up to `region.Width` and rows from `region.Y`
   * up to `region.Height` when a region is given.
   */
  method TransferBuffer(source: Rgb565Bytes, target: Rgb565Bytes, scale: int, region: Option<RenderRegion>)
    requires source.Valid() && target.Valid() && source.Buffer != target.Buffer
    requires source.Width * scale == target.Width && source.Height * scale == target.Height
    requires region.Some? ==> RegionFits(region.value, source.Width, source.Height)
    modifies target.Buffer
    ensures Transferred(source.Buffer[..], old(target.Buffer[..]), target.Buffer[..], source.Width, target.Width, scale,
                        LoopBounds(source.Width, source.Height, region), LoopBounds(source.Width, source.Height, region).EndRow)
  {
    var b := LoopBounds(source.Width, source.Height, region);
    var sourceRow := b.StartRow;
    while sourceRow < b.EndRow
      invariant sourceRow == b.StartRow || b.StartRow < sourceRow <= b.EndRow
      invariant Transferred(source.Buffer[..], old(target.Buffer[..]), target.Buffer[..], source.Width, target.Width, scale, b, sourceRow)
    {
      NonNegativeFactor(source.Height, scale);
      TransferRow(source.Buffer, target.Buffer, source.Width, source.Height, target.Width, target.Height, scale, b, sourceRow);
      sourceRow := sourceRow + 1;
    }
  }

  /** The value of a decimal digit character. */
  function DigitValue(c: char): int
  {
    c as int - '0' as int
  }

  /** The number a string of decimal digits denotes, most significant digit first. */
  function DecimalValue(s: string): int
  {
    if |s| == 0 then 0 else DecimalValue(s[..|s| - 1]) * 10 + DigitValue(s[|s| - 1])
  }

  /** The number a decimal text with an optional leading '-' denotes. */
  function SignedValue(s: string): int
  {
    if 0 < |s| && s[0] == '-' then -DecimalValue(s[1..]) else DecimalValue(s)
  }

  /**
   * The decimal text of a non-negative number, as C# interpolation writes it: digits only,
   * no leading zero, and reading it back gives the number.
   */
  function NaturalText(n: nat): (r: string)
    ensures 0 < |r| && forall i :: 0 <= i < |r| ==> '0' <= r[i] <= '9'
    ensures r[0] == '0' ==> n == 0
    ensures DecimalValue(r) == n
  {
    var digit := [('0' as int + n % 10) as char];
    if n < 10 then digit
    else
      var r := NaturalText(n / 10) + digit;
      assert r[..|r| - 1] == NaturalText(n / 10);
      r
  }

  /** The decimal text of an integer, with a leading '-' exactly when it is negative. */
  function IntegerText(n: int): (r: string)
    ensures 0 < |r| && (r[0] == '-' <==> n < 0)
    ensures SignedValue(r) == n
  {
    if n < 0 then
      var r := "-" + NaturalText(-n);
      assert r[1..] == NaturalText(-n);
      r
    else NaturalText(n)
  }

  /**
   * The message of the exception thrown on a dimension mismatch: a fixed opening, and the
   * target height as its closing number.
   */
  function DimensionsMessage(scale: int, sourceWidth: int, sourceHeight: int, targetWidth: int, targetHeight: int): (r: string)
    ensures 27 < |r| && r[..27] == "Source dimensions at scale "
    ensures |IntegerText(targetHeight)| < |r| && SignedValue(r[|r| - |IntegerText(targetHeight)|..]) == targetHeight
  {
    var middle := MessageMiddle(scale, sourceWidth, sourceHeight, targetWidth);
    Framed("Source dimensions at scale ", middle, IntegerText(targetHeight));
    "Source dimensions at scale " + middle + IntegerText(targetHeight)
  }

  /** The dimensions message between its opening and the target height. */
  function MessageMiddle(scale: int, sourceWidth: int, sourceHeight: int, targetWidth: int): string
  {
    IntegerText(scale) + " is not compatible with the target dimensions: "
      + IntegerText(sourceWidth) + "x" + IntegerText(sourceHeight) + " vs "
      + IntegerText(targetWidth) + "x"
  }

  /** A text made of three parts opens with the first and closes with the last. */
  lemma Framed(opening: string, middle: string, closing: string)
    ensures (opening + middle + closing)[..|opening|] == opening
    ensures (opening + middle + closing)[|opening + middle|..] == closing
  {
    var r := opening + middle + closing;
    assert r == opening + (middle + closing);
  }

  /**
   * `Transfer`: refuses, writing nothing, unless the target is exactly the source scaled by
   * `scale` in both directions; otherwise runs `TransferBuffer`.
   */
  method Transfer(source: Rgb565Bytes, target: Rgb565Bytes, scale: int, region: Option<RenderRegion>)
    returns (result: Result<()>)
    requires source.Valid() && target.Valid()
    requires source.Width * scale == target.Width && source.Height * scale == target.Height ==>
      source.Buffer != target.Buffer && (region.Some? ==> RegionFits(region.value, source.Width, source.Height))
    modifies target.Buffer
    ensures result.Err? <==> source.Width * scale != target.Width || source.Height * scale != target.Height
    ensures result.Err? ==>
      && result.error == InvalidOperation(DimensionsMessage(scale, source.Width, source.Height, target.Width, target.Height))
      && unchanged(target.Buffer)
    ensures result.Ok? ==>
      Transferred(source.Buffer[..], old(target.Buffer[..]), target.Buffer[..], source.Width, target.Width, scale,
                  LoopBounds(source.Width, source.Height, region), LoopBounds(source.Width, source.Height, region).EndRow)
  {
    if source.Width * scale != target.Width || source.Height * scale != target.Height {
      var message := DimensionsMessage(scale, source.Width, source.Height, target.Width, target.Height);
      return Err(InvalidOperation(message));
    }
    TransferBuffer(source, target, scale, region);
    return Ok(());
  }

  /** The column loop's target offset for column c, copy s, is byte k of target pixel (r * scale, c * scale + s). */
  lemma TargetOffset(b: Bounds, width: int, scale: int, r: int, c: int, s: int, k: int)
    ensures ByteOffset(RowStart(b, scale, width * scale, r), (c - b.StartCol) * scale + s, k)
         == PixelByte(width * scale, r * scale, c * scale + s, k)
  {
    assert (c - b.StartCol) * scale == c * scale - b.StartCol * scale;
  }

  /** The column loop's source offset for column c is byte k of source pixel (r, c). */
  lemma SourceOffset(b: Bounds, width: int, r: int, c: int, k: int)
    ensures ByteOffset(RowSourceStart(b, width, r), c - b.StartCol, k) == PixelByte(width, r, c, k)
  {
  }

  /**
   * With a region, the vertical copy is shifted by the region's Width * scale pixels in
   * row-major order from the bytes the column loop wrote for source pixel (r, c). It stays on
   * target row r * scale while that column is inside the row; for a region as wide as the
   * source it lands exactly one row down, as without a region.
   */
  lemma RegionCopyOffset(width: int, height: int, scale: int, region: RenderRegion, r: int, c: int, s: int, k: int)
    ensures CopyOffset(LoopBounds(width, height, Some(region)), scale, width * scale, r, ((c - region.X) * scale + s) * BytesPerPixel + k)
         == PixelByte(width * scale, r * scale, (c + region.Width) * scale + s, k)
    ensures RowStart(LoopBounds(width, height, Some(region)), scale, width * scale, r) + ((c - region.X) * scale + s) * BytesPerPixel + k
         == PixelByte(width * scale, r * scale, c * scale + s, k)
    ensures region.Width == width ==>
      CopyOffset(LoopBounds(width, height, Some(region)), scale, width * scale, r, ((c - region.X) * scale + s) * BytesPerPixel + k)
      == PixelByte(width * scale, r * scale + 1, c * scale + s, k)
  {
    TargetOffset(LoopBounds(width, height, Some(region)), width, scale, r, c, s, k);
    assert (c + region.Width) * scale == c * scale + region.Width * scale;
    if region.Width == width {
      assert (r * scale + 1) * (width * scale) == r * scale * (width * scale) + width * scale;
    }
  }

  /** Without a region, the vertical copy lands on row r * scale + 1, column for column. */
  lemma WholeFrameCopyOffset(width: int, height: int, scale: int, r: int, c: int, s: int, k: int)
    ensures CopyOffset(LoopBounds(width, height, None), scale, width * scale, r, (c * scale + s) * BytesPerPixel + k)
         == PixelByte(width * scale, r * scale + 1, c * scale + s, k)
    ensures RowStart(LoopBounds(width, height, None), scale, width * scale, r) + (c * scale + s) * BytesPerPixel + k
         == PixelByte(width * scale, r * scale, c * scale + s, k)
  {
    TargetOffset(LoopBounds(width, height, None), width, scale, r, c, s, k);
  }

  /**
   * Every source pixel (r, c) inside the loop bounds appears `scale` times in target row
   * r * scale: columns c * scale up to c * scale + scale - 1 hold its two bytes. Without a
   * region that is every pixel of the source; with one, rows from Y up to Height and
   * columns from X up to Width.
   */
  lemma ScaledPixel(source: seq<Byte>, before: seq<Byte>, after: seq<Byte>, width: int, scale: int,
                    b: Bounds, endRow: int, r: int, c: int, s: int, k: int)
    requires 1 <= scale && 0 <= b.StartCol
    requires b.StartRow <= r < endRow && b.StartCol <= c < b.EndCol && 0 <= s < scale && 0 <= k < BytesPerPixel
    requires Transferred(source, before, after, width, width * scale, scale, b, endRow)
    ensures 0 <= PixelByte(width * scale, r * scale, c * scale + s, k) < |after|
    ensures 0 <= PixelByte(width, r, c, k) < |source|
    ensures after[PixelByte(width * scale, r * scale, c * scale + s, k)] == source[PixelByte(width, r, c, k)]
  {
    var j := (c - b.StartCol) * scale + s;
    assert RowDone(source, before, after, width, width * scale, scale, b, r);
    RowMajorInside(c - b.StartCol, s, b.EndCol - b.StartCol, scale);
    DivModUnique(j, scale, c - b.StartCol, s);
    TargetOffset(b, width, scale, r, c, s, k);
    SourceOffset(b, width, r, c, k);
  }

  /** Without a region and with scale >= 2, target row r * scale + 1 repeats target row r * scale. */
  lemma WholeFrameSecondRow(source: seq<Byte>, before: seq<Byte>, after: seq<Byte>, width: int, height: int, scale: int,
                            r: int, c: int, s: int, k: int)
    requires 2 <= scale && 0 <= r < height && 0 <= c < width && 0 <= s < scale && 0 <= k < BytesPerPixel
    requires Transferred(source, before, after, width, width * scale, scale, LoopBounds(width, height, None), height)
    ensures 0 <= PixelByte(width * scale, r * scale + 1, c * scale + s, k) < |after|
    ensures 0 <= PixelByte(width, r, c, k) < |source|
    ensures after[PixelByte(width * scale, r * scale + 1, c * scale + s, k)] == source[PixelByte(width, r, c, k)]
  {
    var b := LoopBounds(width, height, None);
    ScaledPixel(source, before, after, width, scale, b, height, r, c, s, k);
    assert RowDone(source, before, after, width, width * scale, scale, b, r);
    RowMajorInside(c, s, width, scale);
    WholeFrameCopyOffset(width, height, scale, r, c, s, k);
    assert (c * scale + s) * BytesPerPixel + k < RegionBytes(b, scale);
    RowCopiedAt(before, after, b, scale, width * scale, r, ScaledPixels(b.EndCol - b.StartCol, scale) * BytesPerPixel,
      (c * scale + s) * BytesPerPixel + k);
  }

  /** Row r * scale + d of the target lies in slot r of the row strides, after its first two rows. */
  lemma WholeFrameRowOffset(width: int, scale: int, r: int, d: int, x: int, k: int)
    requires 2 <= d < scale && 0 <= x < width * scale && 0 <= k < BytesPerPixel
    ensures PixelByte(width * scale, r * scale + d, x, k) == r * RowStride(scale, width * scale) + PixelByte(width * scale, d, x, k)
    ensures 2 * RegionBytes(LoopBounds(width, 0, None), scale) <= PixelByte(width * scale, d, x, k) < RowStride(scale, width * scale)
  {
    var targetWidth := width * scale;
    MulAssociative(r, scale, targetWidth * BytesPerPixel);
    MulMonotone(2, d, targetWidth);
    MulMonotone(d + 1, scale, targetWidth);
  }

  /**
   * Without a region and with scale >= 3, target rows r * scale + 2 up to r * scale + scale - 1
   * keep their earlier content: every vertical copy lands on row r * scale + 1.
   */
  lemma WholeFrameLaterRowsUnwritten(source: seq<Byte>, before: seq<Byte>, after: seq<Byte>, width: int, height: int,
                                     scale: int, r: int, d: int, x: int, k: int)
    requires 2 <= d < scale && 0 <= r < height && 0 <= x < width * scale && 0 <= k < BytesPerPixel
    requires |before| == (width * scale) * (height * scale) * BytesPerPixel
    requires Transferred(source, before, after, width, width * scale, scale, LoopBounds(width, height, None), height)
    ensures 0 <= PixelByte(width * scale, r * scale + d, x, k) < |after|
    ensures after[PixelByte(width * scale, r * scale + d, x, k)] == before[PixelByte(width * scale, r * scale + d, x, k)]
  {
    var b := LoopBounds(width, height, None);
    var targetWidth := width * scale;
    var stride := RowStride(scale, targetWidth);
    var i := PixelByte(targetWidth, r * scale + d, x, k);
    WholeFrameRowOffset(width, scale, r, d, x, k);
    assert RegionBytes(b, scale) == RegionBytes(LoopBounds(width, 0, None), scale);
    MulMonotone(0, scale, targetWidth * BytesPerPixel);
    SlotBound(r, height, stride, 0, 0);
    TargetLength(height, scale, targetWidth, height * scale);
    forall q | 0 <= q < height && RowTouches(b, scale, targetWidth, q, i)
      ensures false
    {
      if q < r {
        SlotBound(q, r, stride, 0, 2 * RegionBytes(b, scale));
      } else if q > r {
        SlotBound(r, q, stride, 0, 0);
      }
    }
  }
}

=== FILE: wrappers.dfy ===
/** Optional values and results, standing in for C#'s nullable types and exceptions. */
module Wrappers {

  /** `None` plays the role of C#'s `null` for nullable value types. */
  datatype Option<+T> = None | Some(value: T)

  /** The exceptions the modelled code throws on a violated precondition. */
  datatype Error = InvalidOperation(message: string)

  /** A value, or the exception that was thrown instead of producing it. */
  datatype Result<+T> = Ok(value: T) | Err(error: Error)
}
